=== FILE: README.md ===
# Move compiler typing core, in Dafny

This project models the type-inference substrate of the Move compiler's
typing pass, `external-crates/move/crates/move-compiler/src/typing/core.rs`.
It proves properties of that model. The model covers these parts:

- **The substitution store `Subst`.** It holds type-variable bindings,
  numeric-flagged variables and reference-variable kinds. `forward_tvar`
  and `forward_ref_var` are its chain followers.
- **The unification engine.** `join_impl` runs in two modes: `Join` computes a
  common type, and `Subtype` checks `lhs <: rhs`. Its helpers are
  `join_impl_types`, `join_tvar`, and `join_bind_tvar` with its occurs check
  and numeric check.
- **The reference-mutability resolver.** This covers the `RefKind` lattice,
  `join_autoref`, `join_bind_autoref` and `realize_autoref`.
- **The normalisers.** These are `unfold_type`, `ready_tvars`,
  `make_tparam_subst`/`subst_tparams` and `give_tparams_all_abilities`.
- **The deferred-constraint solver.** Still-unconstrained numeric variables
  default to `u64`. The base-type, single-type, builtin-category and
  ability constraints are then solved. `infer_abilities` runs over an
  abstract struct table.
- **The hygiene machinery.** This covers the `use fun` scope stack with
  reference counts and colour-filtered method lookup, and the macro
  self-recursion guard.
- **The instantiation helpers.** These are type-argument arity normalisation
  and the visibility decision taken when a function is called.

## Modelling choices

- **Effects.**
  - Diagnostics are abstract `Diag(code, loc)` records, and `Loc` is a plain
    number that only identity matters for.
  - The global `TVar::next()`/`RefVar::next()` counters are the fields
    `nextTVar`/`nextRefVar` of `Subst`.
  - The program-info tables are parameters: struct declarations, module and
    function info, and the test-build flag.
- **Chain followers.** `forward_tvar`, `forward_ref_var`, `set_num_var`,
  `ready_tvars` and `infer_abilities` loop forever in the compiler if the
  store has a cycle. The model's followers carry the set of variables already
  visited and stop at the first revisit.
  - `forward_tvar`, `forward_ref_var` and `set_num_var` only follow
    variable-to-variable links. On a store whose such links are ranked
    (`Substitution.ChainsTerminate`, `Substitution.RefChainsTerminate`) they
    never reach the stop. `Substitution.ForwardTVarEnds` shows that
    forwarding then ends at a variable that is unbound or bound to a
    non-variable, and `Normalize.UnfoldNeverVar` that unfolding never yields
    a variable.
  - `ready_tvars` and `infer_abilities` also descend into bound types. They
    never reach the stop on a store ranked through every binding
    (`Substitution.Acyclic`): `Normalize.ReadyFollowsBinding` and
    `Abilities.InferFollowsBinding` prove the compiler's own recursion
    equation there.
  - The binder's occurs check is syntactic: it does not look through the
    store. So a join can turn an acyclic store into a cyclic one
    (`Normalize.OccursCheckMissesCycle`). On such a store the compiler's
    `ready_tvars` does not terminate, while the model yields the poison type
    (`Normalize.ReadyOnCycleIsPoisoned`).
- **Termination of `join_impl`.** The recursion of `join_impl` is not
  structural: binding a variable re-enters on its bound type, and realizing
  an autoref re-enters on a larger type. Every re-entry therefore goes
  through `Unify.Recur`, which spends one unit of a `fuel` argument. The
  model-only error `FuelExhausted` is returned when fuel runs out.
- **Internal-error paths.**
  - The compiler's top-level `panic!`/`assert!` checks are preconditions. This
    covers:
    - binding an already bound variable;
    - flagging a fresh numeric variable that is already flagged (the
      `assert!` of `new_num_var`, core.rs:653), the requires
      `s.nextTVar !in s.numVars` of `Substitution.NewNumVar`;
    - `RefKind::join` on `Forward`;
    - mismatched `make_tparam_subst` inputs;
    - inference variables in `subst_tparams`;
    - a type parameter that the substitution does not map (the `expect` of
      `subst_tparams`, core.rs:1723), the requires `ParamIds(t) <= sub.Keys`
      of `Normalize.SubstTParams`;
    - autorefs in `give_tparams_all_abilities`;
    - popping the wrong macro frame;
    - an unused `FunctionDeclaration` alias in a frame that a pop removes.
  - Unreachable cases inside the recursive functions yield the poison type
    `UnresolvedError`, all abilities, or no diagnostic. For
    `infer_abilities` these are an unset autoref and a variable whose chain
    ends at an autoref: `unfold_type` hands that autoref back and the
    compiler reaches `unreachable!` (core.rs:836).

## Model

| member | source | states |
|---|---|---|
| `Substitution.FreshTVar` | external-crates/move/crates/move-compiler/src/typing/core.rs:2188 | the new type variable is the counter's value and every later one is above it; on a store whose ids are below its counters, the new variable is unbound, not numeric and mentioned by no binding, and the store stays that way |
| `Substitution.FreshRefVar` | external-crates/move/crates/move-compiler/src/typing/core.rs:2322 | the new reference variable is the counter's value and every later one is above it; on a store whose ids are below its counters, it has no kind and nothing forwards to it, and the store stays that way |
| `Substitution.NewNumVar` | external-crates/move/crates/move-compiler/src/typing/core.rs:651-655 | the fresh variable is flagged numeric at the given location and nothing else is added; when the counters are fresh it is unbound and they stay fresh |
| `Substitution.SetNumVar` | external-crates/move/crates/move-compiler/src/typing/core.rs:657-663 | exactly the variables on the variable chain from `tvar` become numeric, the new ones at `loc`; existing numeric locations are kept (`or_insert`); bindings, reference kinds and counters are untouched |
| `Substitution.SetNumVarFlagsChainEnd` | external-crates/move/crates/move-compiler/src/typing/core.rs:657-663 | after `set_num_var` both the variable and the end of its chain are numeric |
| `Substitution.SetNumVarUnboundFlagsOne` | external-crates/move/crates/move-compiler/src/typing/core.rs:657-663 | on a variable not bound to a variable, `set_num_var` flags exactly that one variable |
| `Substitution.ForwardTVar` | external-crates/move/crates/move-compiler/src/typing/core.rs:2222-2230 | `forward_tvar` moves only from a variable bound to a variable, and always ends on the variable chain it started |
| `Substitution.ForwardFromKeep` | external-crates/move/crates/move-compiler/src/typing/core.rs:2222-2230 | a store that keeps every variable-to-variable link of an acyclic store, and does not link a chain's end to a variable, gives `forward_tvar` the same result |
| `Substitution.ForwardTVarEnds` | external-crates/move/crates/move-compiler/src/typing/core.rs:2222-2230 | on an acyclic store, forwarding stops at a variable that is unbound or bound to a non-variable type |
| `Substitution.ForwardTVarIdempotent` | external-crates/move/crates/move-compiler/src/typing/core.rs:2222-2230 | forwarding the end of a chain again stays there |
| `Substitution.ForwardTVarStops` | external-crates/move/crates/move-compiler/src/typing/core.rs:2222-2230 | a variable not bound to a variable is its own chain end |
| `Substitution.ForwardRefVarEnds` | external-crates/move/crates/move-compiler/src/typing/core.rs:2418-2426 | on an acyclic store, forwarding a reference variable stops at one whose kind is absent or resolved |
| `Substitution.ForwardRefVar` | external-crates/move/crates/move-compiler/src/typing/core.rs:2418-2426 | `forward_ref_var` moves only from a variable that is forwarded |
| `Substitution.ForwardRefVarIdempotent` | external-crates/move/crates/move-compiler/src/typing/core.rs:2418-2426 | on an acyclic table, forwarding the end of a reference chain again stays there |
| `Substitution.ForwardRefFromSettle` | external-crates/move/crates/move-compiler/src/typing/core.rs:2418-2426 | giving the chain end a resolved kind leaves the walk ending at the same variable |
| `Substitution.RefKindOf` | external-crates/move/crates/move-compiler/src/typing/core.rs:1778-1781 | the kind read after forwarding is never `Forward` |
| `Substitution.JoinRefKind` | external-crates/move/crates/move-compiler/src/typing/core.rs:716-737 | `RefKind::join` gives an upper bound of both kinds when it gives one, and gives none exactly when no resolved kind bounds both |
| `Substitution.JoinRefKindIsLeastUpperBound` | external-crates/move/crates/move-compiler/src/typing/core.rs:716-737 | in the order `RefLeq`, where `Value` is comparable only to itself and `MutRef <: ImmRef`, the join of two resolved kinds is their least upper bound, and it is `None` exactly when no upper bound exists |
| `Substitution.JoinRefKindCommutative` | external-crates/move/crates/move-compiler/src/typing/core.rs:716-737 | the join is commutative |
| `Substitution.JoinRefKindIdempotent` | external-crates/move/crates/move-compiler/src/typing/core.rs:716-737 | every resolved kind joins with itself to itself |
| `Substitution.JoinRefKindValueAndDecay` | external-crates/move/crates/move-compiler/src/typing/core.rs:716-737 | `Value` joins only with `Value`; `MutRef` and `ImmRef` join to `ImmRef` in either order |
| `Unify.SubtypeOf` | external-crates/move/crates/move-compiler/src/typing/core.rs:2008-2010 | a successful subtype check only extends the store |
| `Unify.JoinOf` | external-crates/move/crates/move-compiler/src/typing/core.rs:2012-2014 | a successful join only extends the store |
| `Unify.JoinImpl` | external-crates/move/crates/move-compiler/src/typing/core.rs:2016-2149 | a successful join never drops a binding, a reference kind or a numeric location, and never lowers the counters |
| `Unify.JoinTypes` | external-crates/move/crates/move-compiler/src/typing/core.rs:2151-2166 | the pointwise join has the length of the shorter list and only extends the store |
| `Unify.JoinTVar` | external-crates/move/crates/move-compiler/src/typing/core.rs:2168-2220 | merging two variables through a fresh one only extends the store (what the merge does is stated by `UnifyLemmas.JoinTVarMerges`) |
| `Unify.JoinTVarStore` | external-crates/move/crates/move-compiler/src/typing/core.rs:2168-2199 | the store the inner join runs in: both chain ends are bound to the fresh variable, the counter advances, and the fresh variable is numeric exactly when either chain end was |
| `Unify.JoinBindTVar` | external-crates/move/crates/move-compiler/src/typing/core.rs:2232-2277 | binding an unbound variable: `Ok(false)` with no change exactly when the numeric check fails; `RecursiveType` exactly when it passes and the variable occurs in the type; `Anything` binds nothing; otherwise exactly the one binding is added |
| `Unify.RealizeAutoref` | external-crates/move/crates/move-compiler/src/typing/core.rs:2408-2416 | `Value` is the type itself; a reference kind gives a reference to the type, located at `loc`, mutable exactly when the kind lies below `MutRef` in the kind order; the inference variables are those of the type |
| `Unify.JoinAutoref` | external-crates/move/crates/move-compiler/src/typing/core.rs:2305-2370 | joining two autorefs only extends the store (what the merge does is stated by `UnifyLemmas.JoinAutorefMergesUnresolved` and `UnifyLemmas.JoinAutorefMergesResolved`) |
| `Unify.JoinBindAutoref` | external-crates/move/crates/move-compiler/src/typing/core.rs:2372-2406 | joining an autoref with a concrete type only extends the store |
| `UnifyLemmas.JoinAnythingLeft` | external-crates/move/crates/move-compiler/src/typing/core.rs:2026 | `Anything` on the left yields the right operand with the store untouched |
| `UnifyLemmas.JoinAnythingRight` | external-crates/move/crates/move-compiler/src/typing/core.rs:2026 | `Anything` on the right yields the left operand with the store untouched |
| `UnifyLemmas.JoinRefMutability` | external-crates/move/crates/move-compiler/src/typing/core.rs:2030-2051 | joining references gives a reference that is mutable iff both are, located at the immutable side when only the right is mutable, and succeeds iff the inner join does |
| `UnifyLemmas.SubtypeRefMutability` | external-crates/move/crates/move-compiler/src/typing/core.rs:2030-2051 | `&T <: &mut U` is a `SubtypeError`; every other pair takes the right-hand mutability and succeeds iff the inner check does |
| `UnifyLemmas.JoinReflexive` | external-crates/move/crates/move-compiler/src/typing/core.rs:2016-2166 | a type without inference variables joins with itself to itself, in both modes, with the store untouched |
| `UnifyLemmas.OccursCheck` | external-crates/move/crates/move-compiler/src/typing/core.rs:2232-2277 | unifying an unbound variable with a non-variable type containing it is a recursive type, from either side |
| `UnifyLemmas.NumericMismatchIncompatible` | external-crates/move/crates/move-compiler/src/typing/core.rs:2279-2299 | a numeric variable meeting a non-numeric type is `Incompatible`, from either side |
| `UnifyLemmas.UnboundVarBinds` | external-crates/move/crates/move-compiler/src/typing/core.rs:2105-2124 | otherwise the unbound variable is bound to the other type and returned, from either side |
| `UnifyLemmas.AutorefTakesReferenceMutability` | external-crates/move/crates/move-compiler/src/typing/core.rs:2384-2392 | an unresolved autoref meeting `&T`/`&mut T` resolves to that mutability before the inner types are joined |
| `UnifyLemmas.AutorefMeetsValue` | external-crates/move/crates/move-compiler/src/typing/core.rs:2394-2397 | an unresolved autoref meeting a non-reference concrete type resolves to a value, from either side |
| `UnifyLemmas.RealizedJoinFollowsLattice` | external-crates/move/crates/move-compiler/src/typing/core.rs:2344-2349 | realizing two reference kinds and joining the references agrees with the kind lattice: the result is mutable exactly when the kinds join to `MutRef` |
| `UnifyLemmas.GroundJoinKeepsStore` | external-crates/move/crates/move-compiler/src/typing/core.rs:2016-2149 | joining two types without inference variables never touches the store and gives a type without inference variables |
| `UnifyLemmas.GroundRecurKeepsStore` | external-crates/move/crates/move-compiler/src/typing/core.rs:2016-2149 | the same for one re-entry of the join |
| `UnifyLemmas.GroundJoinTypesKeepsStore` | external-crates/move/crates/move-compiler/src/typing/core.rs:2151-2166 | the same for a pointwise join of two lists |
| `UnifyLemmas.JoinImplFuel` | external-crates/move/crates/move-compiler/src/typing/core.rs:2016-2149 | a join that did not run out of fuel gives the same result with one more unit of fuel |
| `UnifyLemmas.RecurFuel` | external-crates/move/crates/move-compiler/src/typing/core.rs:2016-2149 | the same for one re-entry of the join |
| `UnifyLemmas.JoinTypesFuel` | external-crates/move/crates/move-compiler/src/typing/core.rs:2151-2166 | the same for a pointwise join of two lists |
| `UnifyLemmas.JoinTVarFuel` | external-crates/move/crates/move-compiler/src/typing/core.rs:2168-2220 | the same for merging two variables |
| `UnifyLemmas.JoinAutorefFuel` | external-crates/move/crates/move-compiler/src/typing/core.rs:2305-2370 | the same for joining two autorefs |
| `UnifyLemmas.JoinBindAutorefFuel` | external-crates/move/crates/move-compiler/src/typing/core.rs:2372-2406 | the same for joining an autoref with a concrete type |
| `UnifyLemmas.JoinImplFuelMonotone` | external-crates/move/crates/move-compiler/src/typing/core.rs:2016-2149 | a join that did not run out of fuel gives the same result with any amount of extra fuel |
| `UnifyLemmas.JoinTVarOutcome` | external-crates/move/crates/move-compiler/src/typing/core.rs:2200-2219 | on chain ends without inference variables, a successful `join_tvar` returns the fresh variable and leaves the prepared store with at most the fresh variable bound, to a non-variable, and with its reference kinds and counters unchanged |
| `UnifyLemmas.JoinTVarMerges` | external-crates/move/crates/move-compiler/src/typing/core.rs:2168-2220 | on chain ends without inference variables, a successful `join_tvar` returns the fresh variable, both variables then forward to it, and it is numeric exactly when either chain end was |
| `UnifyLemmas.JoinAutorefMergesUnresolved` | external-crates/move/crates/move-compiler/src/typing/core.rs:2325-2331 | with ground inner types, a successful join of two unset autorefs returns an autoref of the fresh reference variable, both forward to it, and it stays unset |
| `UnifyLemmas.JoinAutorefMergesResolved` | external-crates/move/crates/move-compiler/src/typing/core.rs:2336-2343 | under `Join`, with ground inner types, a successful join of two set autorefs whose kinds join returns an autoref of the fresh reference variable, both forward to it, and both read the joined kind |
| `Normalize.UnfoldUnboundVar` | external-crates/move/crates/move-compiler/src/typing/core.rs:1654-1658 | an unbound variable unfolds to `Anything` at the variable's location |
| `Normalize.UnfoldConcreteIsIdentity` | external-crates/move/crates/move-compiler/src/typing/core.rs:1675 | every type other than a variable or autoref unfolds to itself |
| `Normalize.UnfoldNeverVar` | external-crates/move/crates/move-compiler/src/typing/core.rs:1652-1677 | on an acyclic store, unfolding never yields a variable |
| `Normalize.UnfoldAutorefRealizes` | external-crates/move/crates/move-compiler/src/typing/core.rs:1662-1674 | unfolding a resolved autoref is `realize_autoref` of its kind applied to the unfolded inner type |
| `Normalize.ReadyAfterUnfold` | external-crates/move/crates/move-compiler/src/typing/core.rs:1652-1677 | `unfold_type` (model `Normalize.UnfoldType`): on an acyclic store, unfolding a type whose head is resolved keeps its meaning, since readying the unfolding is readying the type |
| `Normalize.ReadyTVars` | external-crates/move/crates/move-compiler/src/typing/core.rs:1740-1776 | the readied type mentions no bound variable and no resolved reference variable |
| `Normalize.ReadyFixesReadied` | external-crates/move/crates/move-compiler/src/typing/core.rs:1740-1776 | a type that is already ready is left unchanged |
| `Normalize.ReadyIdempotent` | external-crates/move/crates/move-compiler/src/typing/core.rs:1740-1776 | readying twice is readying once |
| `Normalize.ReadyIgnoresVisited` | external-crates/move/crates/move-compiler/src/typing/core.rs:1740-1776 | on a store ranked through every binding, the chain ends recorded while readying never stop the walk |
| `Normalize.ReadyFollowsBinding` | external-crates/move/crates/move-compiler/src/typing/core.rs:1749-1755 | on an acyclic store, readying a variable gives its chain end when unbound, and otherwise readies the type at the end of its chain |
| `Normalize.OccursCheckMissesCycle` | external-crates/move/crates/move-compiler/src/typing/core.rs:2232-2277 | the syntactic occurs check lets a join of an acyclic store produce a cyclic one |
| `Normalize.ReadyOnCycleIsPoisoned` | external-crates/move/crates/move-compiler/src/typing/core.rs:1749-1755 | on that cyclic store readying stops at the revisited chain end with the poison type |
| `Normalize.MakeTParamSubst` | external-crates/move/crates/move-compiler/src/typing/core.rs:1696-1712 | the map's keys are exactly the parameter ids, and each id maps to its positional argument |
| `Normalize.SubstTParams` | external-crates/move/crates/move-compiler/src/typing/core.rs:1714-1738 | every parameter left in the result comes from the substitute of a parameter of the input |
| `Normalize.SubstInstantiatesParam` | external-crates/move/crates/move-compiler/src/typing/core.rs:1696-1738 | substituting a parameter yields its positional argument |
| `Normalize.SubstParamFreeIsIdentity` | external-crates/move/crates/move-compiler/src/typing/core.rs:1714-1738 | a type without parameters is unchanged by substitution |
| `Normalize.GiveTParamsAllAbilities` | external-crates/move/crates/move-compiler/src/typing/core.rs:1969-1987 | no type parameter remains, and the type variables are exactly those of the input |
| `Normalize.GiveParamFreeIsIdentity` | external-crates/move/crates/move-compiler/src/typing/core.rs:1969-1987 | a type without parameters is unchanged |
| `Normalize.GiveIdempotent` | external-crates/move/crates/move-compiler/src/typing/core.rs:1969-1987 | erasing parameters twice is erasing them once |
| `Abilities.InferApplied` | external-crates/move/crates/move-compiler/src/typing/core.rs:839-864 | an instantiated type without fixed abilities has an ability iff it is declared and every non-phantom argument has the ability it requires (`store` for `key`) |
| `Abilities.InferredWithinDeclared` | external-crates/move/crates/move-compiler/src/typing/core.rs:839-864 | the inferred abilities never exceed the declared ones |
| `Abilities.ArgumentBlocksAbility` | external-crates/move/crates/move-compiler/src/typing/core.rs:855-864 | one non-phantom argument lacking the requirement removes the ability |
| `Abilities.PhantomArgumentsIrrelevant` | external-crates/move/crates/move-compiler/src/typing/core.rs:843-853 | phantom arguments do not affect the inferred abilities |
| `Abilities.ErasedParamHasAllAbilities` | external-crates/move/crates/move-compiler/src/typing/core.rs:825-868 | a parameter erased for a macro signature satisfies every constraint it declared |
| `Abilities.InferIgnoresVisited` | external-crates/move/crates/move-compiler/src/typing/core.rs:825-868 | on a store ranked through every binding, the chain ends recorded while inferring never stop the walk |
| `Abilities.InferFollowsBinding` | external-crates/move/crates/move-compiler/src/typing/core.rs:825-868 | `infer_abilities` (model `Abilities.InferAbilities` over `Abilities.InferFrom`): on an acyclic store, a variable has every ability when its chain end is unbound or bound to an autoref (an internal error in the compiler), and otherwise the abilities of the type at the end of its chain |
| `Constraints.SolveBaseTypeConstraint` | external-crates/move/crates/move-compiler/src/typing/core.rs:1608-1625 | one diagnostic exactly for unit, references and expression lists after unfolding; none for `Anything` or `UnresolvedError` |
| `Constraints.SolveSingleTypeConstraint` | external-crates/move/crates/move-compiler/src/typing/core.rs:1627-1646 | one diagnostic exactly for unit and expression lists; references pass |
| `Constraints.SingleTypeFailureImpliesBaseTypeFailure` | external-crates/move/crates/move-compiler/src/typing/core.rs:1608-1646 | every single-type failure is a base-type failure, and the two differ exactly on references |
| `Constraints.SolveBuiltinTypeConstraint` | external-crates/move/crates/move-compiler/src/typing/core.rs:1557-1606 | no diagnostic iff the unfolded type is a builtin of the category, `Anything` or `UnresolvedError`; otherwise exactly one |
| `Constraints.NumericConstraintMatchesShape` | external-crates/move/crates/move-compiler/src/typing/core.rs:1557-1606 | with the numeric category, the constraint passes exactly for the types a numeric variable may be bound to |
| `Constraints.NumericCompatiblePassesConstraint` | external-crates/move/crates/move-compiler/src/typing/core.rs:2279-2299 | `check_num_tvar` (model `Unify.CheckNumTVar` over `Unify.NumericCompatible`): a type the binder's numeric check admits for a numeric variable always passes the numeric constraint |
| `Constraints.SolveAbilityConstraint` | external-crates/move/crates/move-compiler/src/typing/core.rs:1458-1501 | one diagnostic per required ability the unfolded type lacks, at the constraint's location, with no duplicates |
| `Constraints.MissingAbilityDiags` | external-crates/move/crates/move-compiler/src/typing/core.rs:1469-1500 | one diagnostic per listed required ability that is missing, all at the constraint's location, with no duplicates for a duplicate-free order |
| `Constraints.SolveOne` | external-crates/move/crates/move-compiler/src/typing/core.rs:1432-1454 | each constraint reports only at its own location |
| `Constraints.SolveAll` | external-crates/move/crates/move-compiler/src/typing/core.rs:1430-1455 | every reported diagnostic is located at one of the queued constraints |
| `Constraints.DefaultNumVar` | external-crates/move/crates/move-compiler/src/typing/core.rs:1418-1426 | defaulting one numeric variable only extends the store (what it binds is stated by `Constraints.DefaultBindsUnboundToU64` and `Constraints.DefaultNumVarSettles`) |
| `Constraints.DefaultNumVars` | external-crates/move/crates/move-compiler/src/typing/core.rs:1416-1429 | defaulting all numeric variables only extends the store (what it binds is stated by `Constraints.DefaultNumVarsSettle` and `Constraints.DefaultNumVarsBindsAll`) |
| `Constraints.SolveAllAppend` | external-crates/move/crates/move-compiler/src/typing/core.rs:1430-1455 | constraints are solved independently and in queue order; a failing one never stops the rest |
| `Constraints.DefaultBindsUnboundToU64` | external-crates/move/crates/move-compiler/src/typing/core.rs:1418-1424 | defaulting an unbound numeric variable binds exactly that variable to `u64` |
| `Constraints.DefaultKeepsResolved` | external-crates/move/crates/move-compiler/src/typing/core.rs:1420-1426 | a numeric variable that already unfolds to a concrete type is not touched |
| `Constraints.JoinBoundVarTakesFreshPath` | external-crates/move/crates/move-compiler/src/typing/core.rs:2130-2134 | joining a concrete type with a bound variable parks the type in a fresh variable and merges that variable with the bound one through `join_tvar` |
| `Constraints.DefaultOpenStore` | external-crates/move/crates/move-compiler/src/typing/core.rs:1418-1424 | defaulting a bound variable whose chain end is unbound, `Anything` or the poison type links that end and a fresh variable to a second fresh variable bound to `u64`; only the second can gain a numeric flag, and the type counter moves by two |
| `Constraints.DefaultNumVarSettles` | external-crates/move/crates/move-compiler/src/typing/core.rs:1418-1426 | on a store with acyclic variable chains and fresh counters, defaulting a variable whose chain end awaits a default makes exactly the variables sharing that end unfold to `u64` at its location; every other variable keeps its chain end and unfolds as before, and both invariants are kept |
| `Constraints.DefaultNumVarsSettle` | external-crates/move/crates/move-compiler/src/typing/core.rs:1416-1429 | on a store with acyclic variable chains and fresh counters, every listed variable whose chain end awaited a default unfolds to `u64` afterwards, at the location of the first listed variable on its chain (`FirstOnChain`), the one whose defaulting settled the chain; every variable whose chain end was resolved unfolds as before |
| `Constraints.DefaultNumVarsBindsAll` | external-crates/move/crates/move-compiler/src/typing/core.rs:1416-1429 | defaulting numeric variables that are all unbound binds each to `u64` at its own location, after which each unfolds to `u64`; earlier bindings are kept |
| `Constraints.SolveConstraints` | external-crates/move/crates/move-compiler/src/typing/core.rs:1414-1456 | defaulting only extends the store; on a store with acyclic variable chains and fresh counters, every numeric variable whose chain end awaited a default then unfolds to `u64` at the location of the first variable of its chain in the defaulting order, and every other variable unfolds as before; when the numeric variables are all unbound, each unfolds to `u64` at its own location; the diagnostics are those of solving the queue against the defaulted store, each located at one of the constraints |
| `UseFunScopes.AddUseFunsScope` | external-crates/move/crates/move-compiler/src/typing/core.rs:195-215 | an empty scope of the top frame's colour only bumps that frame's count; any other scope is pushed as a new frame with count 1; lower frames are untouched |
| `UseFunScopes.PopUseFunsScope` | external-crates/move/crates/move-compiler/src/typing/core.rs:217-257 | a shared frame loses one reference and yields an empty scope; a last reference removes the frame, returns its aliases and reports exactly the unused ones; only then must no unused alias be a function declaration |
| `UseFunScopes.AddThenPopRestores` | external-crates/move/crates/move-compiler/src/typing/core.rs:195-257 | an add followed by a pop restores the stack and returns the added scope, whichever form the add took |
| `UseFunScopes.AddKeepsWellFormed` | external-crates/move/crates/move-compiler/src/typing/core.rs:195-215 | adding keeps every frame's count positive |
| `UseFunScopes.PopKeepsWellFormed` | external-crates/move/crates/move-compiler/src/typing/core.rs:217-257 | popping keeps every frame's count positive |
| `UseFunScopes.FindMethodAndMarkUsed` | external-crates/move/crates/move-compiler/src/typing/core.rs:259-276 | finds nothing iff no visible frame declares the method; otherwise marks and returns the innermost visible one, where visible means global or of the top frame's colour |
| `UseFunScopes.FindMethodIdempotent` | external-crates/move/crates/move-compiler/src/typing/core.rs:259-276 | a second lookup finds the same alias and changes nothing more |
| `MacroExpansions.FindRecursiveCallDecides` | external-crates/move/crates/move-compiler/src/typing/core.rs:283-309 | the scan finds a call iff an outer call of the same macro is on the stack with no outer argument frame above it |
| `MacroExpansions.AddedScopeSetsCallColor` | external-crates/move/crates/move-compiler/src/typing/core.rs:377-379 | `current_call_color` (model `MacroExpansions.CurrentCallColor`): after a scope is added the current call colour is that scope's colour, whichever shape the add took |
| `MacroExpansions.AddMacroExpansion` | external-crates/move/crates/move-compiler/src/typing/core.rs:280-343 | refuses exactly recursive expansions, with one diagnostic and an unchanged stack; otherwise pushes exactly one call tagged with the current colour |
| `MacroExpansions.PopMacroExpansion` | external-crates/move/crates/move-compiler/src/typing/core.rs:345-356 | removes exactly the matching top call |
| `MacroExpansions.MaybeEnterMacroArgument` | external-crates/move/crates/move-compiler/src/typing/core.rs:358-367 | pushes one argument frame only for code that came from a macro argument |
| `MacroExpansions.MaybeExitMacroArgument` | external-crates/move/crates/move-compiler/src/typing/core.rs:369-375 | removes that argument frame |
| `MacroExpansions.AddThenPopRestores` | external-crates/move/crates/move-compiler/src/typing/core.rs:280-356 | an accepted expansion followed by its pop restores the stack |
| `MacroExpansions.EnterThenExitRestores` | external-crates/move/crates/move-compiler/src/typing/core.rs:358-375 | entering then exiting an argument restores the stack |
| `MacroExpansions.ImmediateSelfExpansionRefused` | external-crates/move/crates/move-compiler/src/typing/core.rs:293-306 | a macro called again from a deeper scope inside its own expansion is recursive |
| `MacroExpansions.ArgumentShieldsEarlierCalls` | external-crates/move/crates/move-compiler/src/typing/core.rs:286-292 | code from an outer argument may expand any macro |
| `MacroExpansions.DeeperCallsIgnored` | external-crates/move/crates/move-compiler/src/typing/core.rs:293-306 | calls made at the current colour or deeper never make an expansion recursive |
| `Instantiate.CheckTypeArgumentArity` | external-crates/move/crates/move-compiler/src/typing/core.rs:1897-1930 | the result has the declared arity, keeps the given arguments as a prefix and pads with error types; exactly one diagnostic, too few or too many, iff the lengths differ |
| `Instantiate.FitToArityIdempotent` | external-crates/move/crates/move-compiler/src/typing/core.rs:1921-1927 | fitting arguments that already have the right length changes nothing |
| `Instantiate.RecordCurrentModuleAsFriend` | external-crates/move/crates/move-compiler/src/typing/core.rs:512-516 | adds the edge to `m` iff the current module is set and differs from `m`; nothing else is added |
| `Instantiate.CheckCallVisibility` | external-crates/move/crates/move-compiler/src/typing/core.rs:1240-1314 | at most one diagnostic; friend edges are only ever added, and never on a refused call |
| `Instantiate.CheckCallVisibilityDecides` | external-crates/move/crates/move-compiler/src/typing/core.rs:1240-1314 | a call is accepted iff it is a testing call of an entry function in a test build, from the defining module, public, a package call from the same address and package, or a friend call from a declared friend; a refusal is one visibility diagnostic at the call, carrying the entry hint iff the callee is an entry function in a test build |
| `Instantiate.FriendEdgeOnlyForPackageCalls` | external-crates/move/crates/move-compiler/src/typing/core.rs:1259-1263 | only an accepted package call from another module of the same address and package adds a friend edge, and then exactly one, tagged with the callee's visibility location |
| `Instantiate.TestingEntryAlwaysCallable` | external-crates/move/crates/move-compiler/src/typing/core.rs:536-546 | `is_testing_context` (model `Instantiate.IsTestingContext`): in a test build, code in a test-only module or a test or test-only function may call any entry function |
| `Instantiate.EntryIrrelevantOutsideTests` | external-crates/move/crates/move-compiler/src/typing/core.rs:1333-1348 | `public_testing_visibility` (model `Instantiate.PublicForTesting`): outside a test build the entry marker changes nothing in the visibility decision |
| `Instantiate.PackageCallNeedsSharedPackage` | external-crates/move/crates/move-compiler/src/typing/core.rs:518-523 | `current_module_shares_package_and_address` (model `Instantiate.SharesPackageAndAddress`): a package function called from another module, outside testing access, is accepted exactly when the caller has the same address and package |
| `Instantiate.FriendCallNeedsFriendDeclaration` | external-crates/move/crates/move-compiler/src/typing/core.rs:525-534 | `current_module_is_a_friend_of` (model `Instantiate.IsFriendOf`): a friend function called from another module, outside testing access, is accepted exactly when the callee's module lists the caller as a friend |

## Left out

- Diagnostic text, secondary labels and the "tips" in
  `ability_not_satisfied_tips` and `visibility_error` are left out: only the
  diagnostic code and primary location are modelled. Type pretty-printing and
  `ast_debug` are left out too.
- Unify.Recur: the fuel bound and its `FuelExhausted` error have no
  counterpart in the compiler. Every property of the join family holds for
  every fuel. Reflexivity needs fuel at least the type's depth. A result
  other than `FuelExhausted` does not change with more fuel
  (`UnifyLemmas.JoinImplFuelMonotone`).
- Chain followers on a cyclic store stop at the first revisit instead of
  looping forever, and yield the poison type or all abilities there. The
  compiler's join can create such a store, because its occurs check is
  syntactic (`Normalize.OccursCheckMissesCycle`). The model therefore does
  not claim that acyclicity is preserved.
- UnifyLemmas.JoinTVarMerges, UnifyLemmas.JoinAutorefMergesUnresolved and
  UnifyLemmas.JoinAutorefMergesResolved are stated for inner types without
  inference variables. In general the inner join may rebind variables on
  the merged chains.
- Unify.JoinImpl: the compiler's `debug_assert` that two applied types with
  equal names have equal ability annotations is not modelled.
- Constraints.SolveConstraints: the numeric variables are defaulted in an
  order given as a parameter, because the compiler iterates a `HashMap`.
  The compiler's `unwrap` of the `u64` join is an internal error. There the
  model keeps the store. It keeps the store too when the join runs out of
  fuel, which the compiler cannot do.
- Constraints.DefaultNumVarsSettle, Constraints.DefaultNumVarSettles and
  the matching ensures of Constraints.SolveConstraints hold for stores whose
  variable-to-variable chains are acyclic and whose counters are fresh, and
  for fuel at least 1. The join is not proved to keep chains acyclic in
  general.
- Constraints.SolveBuiltinTypeConstraint: the numeric, bits and ordered
  builtin categories are defined outside `core.rs` and are taken as a
  parameter.
- The struct ability table and phantom flags, the builtin declared
  abilities, and the fixed ability sets for unit, references, functions and
  collections are defined outside `core.rs`. The model restates them as
  constants or parameters.
- UseFunScopes.PopUseFunsScope: the unused aliases are reported as the set of
  their (type, method) keys, rather than as diagnostics in map order. The
  `implicit_candidates` of an added scope must be empty (an internal-error
  assertion), so they are not modelled.
- The macro guard follows the code's strict comparison
  `current_call_color > scope_color` for both argument and call frames
  (core.rs:289 and 303). The comment at core.rs:287-288 says an argument
  frame has "a smaller (or equal) color". That would also treat a frame of
  the current colour as outer. Where the comment and the code disagree, the
  model follows the code.
- The `u16` width of colours is not modelled.
- The comment at core.rs:718 orders the reference kinds as
  `val <: mut <: imm`. Under that order `Value` joined with `ImmRef` would
  be `ImmRef`, but the code returns `None` for every mixed pair with `Value`
  (core.rs:731-734). The model follows the code: in `RefLeq`, `Value` is
  comparable only to itself.
- `make_function_type` is modelled only in its visibility match. Its
  instantiation of type parameters (`make_tparams`, `instantiate`,
  `instantiate_type_args`), `make_autoref`, `check_call_arity`, the local
  variable table and the constraint-adding helpers are left out. Those
  helpers only queue records.
- `reset_for_module_item`, the macro-body table and `lambda_expansion` are
  left out. Nothing in the modelled core reads `lambda_expansion`.

=== FILE: abilities.dfy ===
/**
 * Ability inference (`infer_abilities`) over an abstract, read-only table
 * of struct declarations: declared abilities and, per type parameter,
 * whether it is phantom.
 */
module Abilities {
  import opened Wrappers
  import opened Types
  import opened Substitution
  import opened Normalize

  datatype StructTParam = StructTParam(param: TParam, isPhantom: bool)

  datatype StructDecl = StructDecl(abilities: AbilitySet, tparams: seq<StructTParam>)

  /** The program-info queries the inference needs. */
  datatype ProgramInfo = ProgramInfo(structDecl: (ModuleIdent, StructName) -> StructDecl)

  /** Declared abilities of an applied type's name. */
  function DeclaredAbilities(p: ProgramInfo, n: TypeName): AbilitySet {
    match n
    case Multiple(_) => CollectionAbilities
    case Builtin(b) => BuiltinDeclaredAbilities(b)
    case ModuleType(m, sn) => p.structDecl(m, sn).abilities
  }

  /**
   * Whether argument `i` of an applied type counts towards its abilities:
   * a struct's phantom parameters do not, nor do arguments beyond its
   * declared parameters; every argument of a builtin or list counts.
   */
  predicate ArgCounts(p: ProgramInfo, n: TypeName, i: nat) {
    if n.ModuleType? then
      var tps := p.structDecl(n.mident, n.sname).tparams;
      i < |tps| && !tps[i].isPhantom
    else true
  }

  /**
   * `infer_abilities`. Variables are followed through the store (an unbound
   * variable is `Anything`, with every ability); an autoref of a set kind is
   * a reference or its inner value. The cases the compiler treats as
   * internal errors (an unset autoref, a chain ending at an autoref, which
   * unfolding hands back unresolved, a chain revisited) get every ability,
   * as the poison type does.
   */
  function InferFrom(p: ProgramInfo, s: Subst, t: Type, visited: set<TVar>): (r: AbilitySet)
    decreases s.tvars.Keys - visited, t
  {
    match t
    case Unit(_) => CollectionAbilities
    case Ref(_, _, _) => ReferenceAbilities
    case Var(_, i) =>
      var last := ForwardTVar(s, i);
      if last !in s.tvars || last in visited || s.tvars[last].AutoRef? then AllAbilities
      else InferFrom(p, s, s.tvars[last], visited + {last})
    case AutoRef(_, x, inner) =>
      var k := RefKindOf(s, x);
      if k.None? then AllAbilities
      else if k.value == Value then InferFrom(p, s, inner, visited)
      else ReferenceAbilities
    case UnresolvedError(_) => AllAbilities
    case Anything(_) => AllAbilities
    case Param(_, tp) => tp.abilities
    case Apply(_, Some(abilities), _, _) => abilities
    case Apply(_, None, n, args) =>
      var argAbilities := seq(|args|, i requires 0 <= i < |args| => InferFrom(p, s, args[i], visited));
      set a | a in DeclaredAbilities(p, n)
              && forall i | 0 <= i < |args| && ArgCounts(p, n, i) :: Requires(a) in argAbilities[i]
    case Fun(_, _, _) => FunctionAbilities
  }

  function InferAbilities(p: ProgramInfo, s: Subst, t: Type): AbilitySet {
    InferFrom(p, s, t, {})
  }

  /**
   * On a fully ranked store the chain ends recorded while inferring rank
   * above everything still to be inspected, so the record never stops the
   * walk: inference gives the same abilities whatever was visited before.
   */
  lemma {:induction false} InferIgnoresVisited(p: ProgramInfo, s: Subst, rank: map<TVar, nat>, t: Type,
                                               visited: set<TVar>, bound: nat)
    requires FullyRanked(s.tvars, rank)
    requires BoundBelow(s, rank, UsedTVars(t), bound)
    requires VisitedAbove(rank, visited, bound)
    ensures InferFrom(p, s, t, visited) == InferFrom(p, s, t, {})
    decreases bound, t
  {
    match t
    case Var(l, i) =>
      var last := ForwardTVar(s, i);
      if last in s.tvars && !s.tvars[last].AutoRef? {
        FullyRankedRanksChains(s.tvars, rank);
        ForwardFromDescends(s.tvars, rank, i, {});
        assert i in UsedTVars(t);
        assert last !in visited;
        assert {} + {last} == {last};
        var b := s.tvars[last];
        InferIgnoresVisited(p, s, rank, b, visited + {last}, rank[last]);
        InferIgnoresVisited(p, s, rank, b, {last}, rank[last]);
      }
    case AutoRef(l, x, inner) =>
      InferIgnoresVisited(p, s, rank, inner, visited, bound);
    case Apply(l, None, n, args) =>
      forall i | 0 <= i < |args|
        ensures InferFrom(p, s, args[i], visited) == InferFrom(p, s, args[i], {})
      {
        UsedTVarsSeqCovers(args, i);
        InferIgnoresVisited(p, s, rank, args[i], visited, bound);
      }
      var a1 := seq(|args|, i requires 0 <= i < |args| => InferFrom(p, s, args[i], visited));
      var a2 := seq(|args|, i requires 0 <= i < |args| => InferFrom(p, s, args[i], {}));
      assert a1 == a2;
    case _ =>
  }

  /**
   * On an acyclic store the abilities of a variable are those of the type at
   * the end of its chain, or every ability when it is unbound: the
   * revisiting stop is never taken. A chain ending at an autoref is an
   * internal error in the compiler and has every ability here.
   */
  lemma InferFollowsBinding(p: ProgramInfo, s: Subst, l: Loc, i: TVar)
    requires Acyclic(s.tvars)
    ensures var last := ForwardTVar(s, i);
            && (last !in s.tvars ==> InferAbilities(p, s, Var(l, i)) == AllAbilities)
            && (last in s.tvars && s.tvars[last].AutoRef? ==> InferAbilities(p, s, Var(l, i)) == AllAbilities)
            && (last in s.tvars && !s.tvars[last].AutoRef? ==>
                  InferAbilities(p, s, Var(l, i)) == InferAbilities(p, s, s.tvars[last]))
  {
    var last := ForwardTVar(s, i);
    if last in s.tvars && !s.tvars[last].AutoRef? {
      var rank :| FullyRanked(s.tvars, rank);
      assert {} + {last} == {last};
      InferIgnoresVisited(p, s, rank, s.tvars[last], {last}, rank[last]);
    }
  }

  /**
   * An applied type without an ability override has a declared ability
   * exactly when every counting argument has the ability it requires.
   */
  lemma InferApplied(p: ProgramInfo, s: Subst, l: Loc, n: TypeName, args: seq<Type>, a: Ability)
    ensures a in InferAbilities(p, s, Apply(l, None, n, args)) <==>
              a in DeclaredAbilities(p, n)
              && forall i | 0 <= i < |args| && ArgCounts(p, n, i) :: Requires(a) in InferAbilities(p, s, args[i])
  {
  }

  /** A container never has an ability it does not declare. */
  lemma InferredWithinDeclared(p: ProgramInfo, s: Subst, l: Loc, n: TypeName, args: seq<Type>)
    ensures InferAbilities(p, s, Apply(l, None, n, args)) <= DeclaredAbilities(p, n)
  {
  }

  /**
   * A counting argument that lacks the required ability removes the ability
   * from its container (for example `vector<T>` lacks `drop` when `T` does).
   */
  lemma ArgumentBlocksAbility(p: ProgramInfo, s: Subst, l: Loc, n: TypeName, args: seq<Type>, i: nat, a: Ability)
    requires i < |args| && ArgCounts(p, n, i)
    requires Requires(a) !in InferAbilities(p, s, args[i])
    ensures a !in InferAbilities(p, s, Apply(l, None, n, args))
  {
    InferApplied(p, s, l, n, args, a);
  }

  /** Phantom and surplus arguments of a struct never affect its abilities. */
  lemma PhantomArgumentsIrrelevant(p: ProgramInfo, s: Subst, l: Loc, m: ModuleIdent, sn: StructName,
                                   args: seq<Type>, args': seq<Type>)
    requires |args| == |args'|
    requires forall i | 0 <= i < |args| && ArgCounts(p, ModuleType(m, sn), i) :: args[i] == args'[i]
    ensures InferAbilities(p, s, Apply(l, None, ModuleType(m, sn), args))
         == InferAbilities(p, s, Apply(l, None, ModuleType(m, sn), args'))
  {
    var n := ModuleType(m, sn);
    forall a
      ensures a in InferAbilities(p, s, Apply(l, None, n, args))
          <==> a in InferAbilities(p, s, Apply(l, None, n, args'))
    {
      InferApplied(p, s, l, n, args, a);
      InferApplied(p, s, l, n, args', a);
    }
  }

  /** Erasing a macro signature's parameter gives it every ability, more than any declaration. */
  lemma ErasedParamHasAllAbilities(p: ProgramInfo, s: Subst, l: Loc, tp: TParam)
    ensures tp.abilities <= InferAbilities(p, s, GiveTParamsAllAbilities(Param(l, tp)))
  {
    assert GiveTParamsAllAbilities(Param(l, tp)) == Anything(l);
    assert InferAbilities(p, s, Anything(l)) == AllAbilities;
    forall a | a in tp.abilities
      ensures a in AllAbilities
    {
      match a
      case Copy =>
      case Drop =>
      case Store =>
      case Key =>
    }
  }
}

=== FILE: constraints.dfy ===
/**
 * The deferred-constraint solver run once per function: numeric
 * defaulting of still-unconstrained numeric variables to `u64`, then each
 * queued constraint in order, every failure reported as a diagnostic and
 * none of them fatal.
 */
module Constraints {
  import opened Wrappers
  import opened Types
  import opened Diagnostics
  import opened Substitution
  import opened Normalize
  import opened Unify
  import opened Abilities

  datatype Constraint =
    | AbilityConstraint(loc: Loc, note: Option<string>, ty: Type, abilities: AbilitySet)
    | NumericConstraint(loc: Loc, op: string, ty: Type)
    | BitsConstraint(loc: Loc, op: string, ty: Type)
    | OrderedConstraint(loc: Loc, op: string, ty: Type)
    | BaseTypeConstraint(loc: Loc, msg: string, ty: Type)
    | SingleTypeConstraint(loc: Loc, msg: string, ty: Type)

  /** The builtin categories the numeric, bitwise and ordering operators accept. */
  datatype BuiltinCategories = BuiltinCategories(
    numeric: set<BuiltinName>, bits: set<BuiltinName>, ordered: set<BuiltinName>)

  predicate IsExpressionList(t: Type) {
    t.Apply? && t.name.Multiple?
  }

  /**
   * `solve_base_type_constraint`: unit, references and expression lists are
   * not base types. The variable and autoref cases the compiler rules out
   * after unfolding report nothing.
   */
  function SolveBaseTypeConstraint(s: Subst, loc: Loc, t: Type): (ds: seq<Diag>)
    ensures var u := UnfoldType(s, t);
            (ds != [] <==> u.Unit? || u.Ref? || IsExpressionList(u))
            && (ds != [] ==> ds == [Diag(ExpectedBaseType, loc)])
    ensures UnfoldType(s, t).Anything? || UnfoldType(s, t).UnresolvedError? ==> ds == []
  {
    var u := UnfoldType(s, t);
    if u.Unit? || u.Ref? || IsExpressionList(u) then [Diag(ExpectedBaseType, loc)] else []
  }

  /** `solve_single_type_constraint`: only unit and expression lists are rejected; references pass. */
  function SolveSingleTypeConstraint(s: Subst, loc: Loc, t: Type): (ds: seq<Diag>)
    ensures var u := UnfoldType(s, t);
            (ds != [] <==> u.Unit? || IsExpressionList(u))
            && (ds != [] ==> ds == [Diag(ExpectedSingleType, loc)])
    ensures UnfoldType(s, t).Anything? || UnfoldType(s, t).UnresolvedError? ==> ds == []
  {
    var u := UnfoldType(s, t);
    if u.Unit? || IsExpressionList(u) then [Diag(ExpectedSingleType, loc)] else []
  }

  /** Every type rejected as a single type is rejected as a base type; the two differ exactly on references. */
  lemma SingleTypeFailureImpliesBaseTypeFailure(s: Subst, loc: Loc, t: Type)
    ensures SolveSingleTypeConstraint(s, loc, t) != [] ==> SolveBaseTypeConstraint(s, loc, t) != []
    ensures (SolveBaseTypeConstraint(s, loc, t) != [] && SolveSingleTypeConstraint(s, loc, t) == [])
            <==> UnfoldType(s, t).Ref?
  {
  }

  /**
   * `solve_builtin_type_constraint`: the unfolded type must be a builtin of
   * the category; `Anything` and `UnresolvedError` are accepted silently.
   */
  function SolveBuiltinTypeConstraint(s: Subst, category: set<BuiltinName>, loc: Loc, t: Type): (ds: seq<Diag>)
    ensures var u := UnfoldType(s, t);
            (ds == [] <==> u.Anything? || u.UnresolvedError? || (u.Apply? && u.name.Builtin? && u.name.builtin in category))
            && (ds != [] ==> ds == [Diag(BuiltinOperation, loc)])
  {
    var u := UnfoldType(s, t);
    if u.UnresolvedError? || u.Anything? then []
    else if u.Apply? && u.name.Builtin? && u.name.builtin in category then []
    else [Diag(BuiltinOperation, loc)]
  }

  /**
   * With the numeric category, the builtin constraint accepts exactly the
   * types a numeric variable may be bound to.
   */
  lemma NumericConstraintMatchesShape(s: Subst, category: set<BuiltinName>, loc: Loc, t: Type)
    requires forall b :: b in category <==> IsNumeric(b)
    ensures SolveBuiltinTypeConstraint(s, category, loc, t) == [] <==> NumericShape(UnfoldType(s, t))
  {
  }

  /**
   * The binder's numeric check admits only types that later pass the
   * numeric constraint: a numeric variable is never bound to something the
   * constraint solver would reject.
   */
  lemma NumericCompatiblePassesConstraint(s: Subst, category: set<BuiltinName>, loc: Loc, tvar: TVar, ty: Type)
    requires forall b :: b in category <==> IsNumeric(b)
    requires IsNumVar(s, tvar)
    ensures CheckNumTVar(s, tvar, ty) ==> SolveBuiltinTypeConstraint(s, category, loc, ty) == []
  {
    NumericConstraintMatchesShape(s, category, loc, ty);
  }

  predicate DistinctAbilities(order: seq<Ability>) {
    forall i, j | 0 <= i < j < |order| :: order[i] != order[j]
  }

  /** One diagnostic per required ability that is missing, in the order given. */
  function MissingAbilityDiags(required: AbilitySet, has: AbilitySet, loc: Loc, order: seq<Ability>): (ds: seq<Diag>)
    ensures forall a :: Diag(AbilityNotSatisfied(a), loc) in ds <==> a in order && a in required && a !in has
    ensures forall d | d in ds :: d.loc == loc && d.code.AbilityNotSatisfied?
    ensures DistinctAbilities(order) ==> forall i, j | 0 <= i < j < |ds| :: ds[i] != ds[j]
    decreases |order|
  {
    if |order| == 0 then []
    else
      var a := order[0];
      var here := if a in required && a !in has then [Diag(AbilityNotSatisfied(a), loc)] else [];
      var rest := MissingAbilityDiags(required, has, loc, order[1..]);
      assert forall b :: b in order <==> b == a || b in order[1..];
      assert DistinctAbilities(order) ==> a !in order[1..] && DistinctAbilities(order[1..]);
      here + rest
  }

  const AbilityOrder: seq<Ability> := [Copy, Drop, Store, Key]

  lemma AbilityOrderComplete()
    ensures forall a: Ability :: a in AbilityOrder
    ensures DistinctAbilities(AbilityOrder)
  {
    forall a: Ability ensures a in AbilityOrder {
      match a
      case Copy =>
      case Drop =>
      case Store =>
      case Key =>
    }
  }

  /**
   * `solve_ability_constraint`: one diagnostic for each required ability the
   * unfolded type does not have, in the abilities' declaration order.
   */
  function SolveAbilityConstraint(p: ProgramInfo, s: Subst, loc: Loc, t: Type, required: AbilitySet): (ds: seq<Diag>)
    ensures var has := InferAbilities(p, s, UnfoldType(s, t));
            forall a :: Diag(AbilityNotSatisfied(a), loc) in ds <==> a in required && a !in has
    ensures forall d | d in ds :: d.loc == loc && d.code.AbilityNotSatisfied?
    ensures forall i, j | 0 <= i < j < |ds| :: ds[i] != ds[j]
  {
    var has := InferAbilities(p, s, UnfoldType(s, t));
    AbilityOrderComplete();
    MissingAbilityDiags(required, has, loc, AbilityOrder)
  }

  function SolveOne(p: ProgramInfo, cats: BuiltinCategories, s: Subst, c: Constraint): (ds: seq<Diag>)
    ensures forall d | d in ds :: d.loc == c.loc
  {
    match c
    case AbilityConstraint(loc, _, ty, abilities) => SolveAbilityConstraint(p, s, loc, ty, abilities)
    case NumericConstraint(loc, _, ty) => SolveBuiltinTypeConstraint(s, cats.numeric, loc, ty)
    case BitsConstraint(loc, _, ty) => SolveBuiltinTypeConstraint(s, cats.bits, loc, ty)
    case OrderedConstraint(loc, _, ty) => SolveBuiltinTypeConstraint(s, cats.ordered, loc, ty)
    case BaseTypeConstraint(loc, _, ty) => SolveBaseTypeConstraint(s, loc, ty)
    case SingleTypeConstraint(loc, _, ty) => SolveSingleTypeConstraint(s, loc, ty)
  }

  function SolveAll(p: ProgramInfo, cats: BuiltinCategories, s: Subst, cs: seq<Constraint>): (ds: seq<Diag>)
    ensures forall d | d in ds :: exists c | c in cs :: d.loc == c.loc
    decreases |cs|
  {
    if |cs| == 0 then []
    else
      var rest := SolveAll(p, cats, s, cs[1..]);
      assert forall c | c in cs[1..] :: c in cs;
      SolveOne(p, cats, s, cs[0]) + rest
  }

  /** Constraints are solved independently and in queue order: a failure never stops the rest. */
  lemma {:induction false} SolveAllAppend(p: ProgramInfo, cats: BuiltinCategories, s: Subst, cs1: seq<Constraint>, cs2: seq<Constraint>)
    ensures SolveAll(p, cats, s, cs1 + cs2) == SolveAll(p, cats, s, cs1) + SolveAll(p, cats, s, cs2)
    decreases |cs1|
  {
    if |cs1| > 0 {
      assert (cs1 + cs2)[1..] == cs1[1..] + cs2;
      SolveAllAppend(p, cats, s, cs1[1..], cs2);
    } else {
      assert cs1 + cs2 == cs2;
    }
  }

  /**
   * Numeric defaulting of one variable: if it still unfolds to `Anything` or
   * `UnresolvedError`, it is joined with `u64`. The compiler unwraps that
   * join; an error there would be an internal error and leaves the store.
   */
  function DefaultNumVar(s: Subst, v: TVar, loc: Loc, fuel: nat): (r: Subst)
    ensures Extends(s, r)
  {
    var u := UnfoldType(s, Var(loc, v));
    if u.UnresolvedError? || u.Anything? then
      var j := JoinOf(s, U64Type(loc), Var(loc, v), fuel);
      if j.Ok? then j.value.0 else s
    else s
  }

  /** An unbound numeric variable is defaulted by binding it to `u64`, and then unfolds to `u64`. */
  lemma DefaultBindsUnboundToU64(s: Subst, v: TVar, loc: Loc, fuel: nat)
    requires v !in s.tvars
    ensures DefaultNumVar(s, v, loc, fuel) == s.(tvars := s.tvars[v := U64Type(loc)])
    ensures UnfoldType(DefaultNumVar(s, v, loc, fuel), Var(loc, v)) == U64Type(loc)
  {
    assert ForwardTVar(s, v) == v;
    var s' := s.(tvars := s.tvars[v := U64Type(loc)]);
    assert UsedTVars(U64Type(loc)) == {} by { assert UsedTVarsSeq([]) == {}; }
    assert NumericShape(U64Type(loc));
    assert JoinBindTVar(s, loc, v, U64Type(loc)) == Ok((s', true));
    assert ForwardTVar(s', v) == v;
  }

  /** A numeric variable that already unfolds to a concrete type is not touched by defaulting. */
  lemma DefaultKeepsResolved(s: Subst, v: TVar, loc: Loc, fuel: nat)
    requires !UnfoldType(s, Var(loc, v)).Anything? && !UnfoldType(s, Var(loc, v)).UnresolvedError?
    ensures DefaultNumVar(s, v, loc, fuel) == s
  {
  }

  /**
   * A variable defaulting still applies to: the end of its chain is unbound,
   * or bound to `Anything` or to the poison type, so it unfolds to one of
   * those two.
   */
  predicate AwaitsDefault(s: Subst, v: TVar) {
    var e := ForwardTVar(s, v);
    e !in s.tvars || s.tvars[e].Anything? || s.tvars[e].UnresolvedError?
  }

  /** Every variable whose chain ends elsewhere than `v`'s keeps its chain end in `s1`. */
  ghost predicate KeepsOtherChains(s: Subst, s1: Subst, v: TVar) {
    forall w: TVar | w < s.nextTVar && ForwardTVar(s, w) != ForwardTVar(s, v) ::
      ForwardTVar(s1, w) == ForwardTVar(s, w)
  }

  /**
   * Defaulting a bound variable whose chain end awaits a default goes
   * through `join_tvar`: a fresh variable bound to `u64` is merged with the
   * chain end through a second fresh variable, which ends up bound to
   * `u64`.
   */
  lemma DefaultOpenStore(s: Subst, v: TVar, loc: Loc, fuel: nat)
    requires ChainsTerminate(s.tvars) && CountersFresh(s)
    requires fuel >= 1 && v in s.tvars && AwaitsDefault(s, v)
    ensures DefaultedThroughMerge(s, v, loc, DefaultNumVar(s, v, loc, fuel))
  {
    var nv := s.nextTVar;
    var s0' := s.(tvars := s.tvars[nv := U64Type(loc)], nextTVar := nv + 1);
    DefaultBoundGoesThroughMerge(s, v, loc, fuel);
    ParkingU64KeepsChain(s, v, loc);
    JoinTVarWithU64(s0', v, loc, fuel);
    ParkedJoinDefaults(s, s0', v, loc, JoinTVar(s0', Join, loc, nv, loc, v, fuel), DefaultNumVar(s, v, loc, fuel));
  }

  /** The successful merge with the parked `u64` leaves the store `DefaultedThroughMerge` describes. */
  lemma ParkedJoinDefaults(s: Subst, s0: Subst, v: TVar, loc: Loc, j: JoinResult, r: Subst)
    requires s0 == s.(tvars := s.tvars[s.nextTVar := U64Type(loc)], nextTVar := s.nextTVar + 1)
    requires ForwardTVar(s0, v) == ForwardTVar(s, v)
    requires var nv, nv2, last := s0.nextTVar - 1, s0.nextTVar, ForwardTVar(s0, v);
             && j.Ok?
             && j.value.0.tvars == s0.tvars[nv := Var(loc, nv2)][last := Var(loc, nv2)][nv2 := U64Type(loc)]
             && j.value.0.nextTVar == nv2 + 1
             && j.value.0.refVars == s0.refVars && j.value.0.nextRefVar == s0.nextRefVar
             && (forall x | x in j.value.0.numVars :: x in s0.numVars || x == nv2)
    requires j.Ok? && r == j.value.0
    ensures DefaultedThroughMerge(s, v, loc, r)
  {
    ParkedMergeDefaults(s, v, loc, r);
  }

  /** The store the merge with the parked `u64` produces is the one `DefaultedThroughMerge` describes. */
  lemma ParkedMergeDefaults(s: Subst, v: TVar, loc: Loc, r: Subst)
    requires var nv, last := s.nextTVar, ForwardTVar(s, v);
             var s0 := s.(tvars := s.tvars[nv := U64Type(loc)], nextTVar := nv + 1);
             && r.tvars == s0.tvars[nv := Var(loc, nv + 1)][last := Var(loc, nv + 1)][nv + 1 := U64Type(loc)]
             && r.nextTVar == nv + 2
             && r.refVars == s0.refVars && r.nextRefVar == s0.nextRefVar
             && forall x | x in r.numVars :: x in s0.numVars || x == nv + 1
    ensures DefaultedThroughMerge(s, v, loc, r)
  {
    var nv := s.nextTVar;
    assert s.tvars[nv := U64Type(loc)][nv := Var(loc, nv + 1)] == s.tvars[nv := Var(loc, nv + 1)];
  }

  /**
   * Parking `u64` in a fresh variable keeps the counters fresh and leaves a
   * variable's chain, and the end that awaits a default, as they were.
   */
  lemma ParkingU64KeepsChain(s: Subst, v: TVar, loc: Loc)
    requires ChainsTerminate(s.tvars) && CountersFresh(s)
    requires v in s.tvars && AwaitsDefault(s, v)
    ensures var s0 := s.(tvars := s.tvars[s.nextTVar := U64Type(loc)], nextTVar := s.nextTVar + 1);
            && CountersFresh(s0)
            && ForwardTVar(s0, v) == ForwardTVar(s, v)
            && ForwardTVar(s, v) < s.nextTVar
            && !VarBound(s0.tvars, ForwardTVar(s, v))
            && AwaitsDefault(s0, v)
  {
    var nv := s.nextTVar;
    var u64 := U64Type(loc);
    var s0 := s.(tvars := s.tvars[nv := u64], nextTVar := nv + 1);
    var rank :| RankedChains(s.tvars, rank);
    ForwardTVarEnds(s, v);
    ForwardFromBelow(s.tvars, v, {}, nv);
    ForwardFromKeep(s.tvars, s0.tvars, rank, v, {});
    assert UsedTVars(u64) == {} by { assert UsedTVarsSeq([]) == {}; }
  }


  /** Defaulting a bound variable is the `join_tvar` of a fresh `u64` variable with it. */
  lemma DefaultBoundGoesThroughMerge(s: Subst, v: TVar, loc: Loc, fuel: nat)
    requires v in s.tvars && AwaitsDefault(s, v)
    ensures var s0 := s.(tvars := s.tvars[s.nextTVar := U64Type(loc)], nextTVar := s.nextTVar + 1);
            var j := JoinTVar(s0, Join, loc, s.nextTVar, loc, v, fuel);
            DefaultNumVar(s, v, loc, fuel) == if j.Ok? then j.value.0 else s
  {
    JoinBoundVarTakesFreshPath(s, v, U64Type(loc));
    var uf := UnfoldType(s, Var(loc, v));
    assert uf.Anything? || uf.UnresolvedError?;
  }

  /**
   * The store defaulting leaves behind when it merges the chain end of `v`
   * with `u64`: the end and a first fresh variable point to a second fresh
   * variable bound to `u64`; only the second can gain a numeric flag.
   */
  ghost predicate DefaultedThroughMerge(s: Subst, v: TVar, loc: Loc, r: Subst) {
    var nv, last := s.nextTVar, ForwardTVar(s, v);
    && r.tvars == s.tvars[nv := Var(loc, nv + 1)][last := Var(loc, nv + 1)][nv + 1 := U64Type(loc)]
    && r.nextTVar == s.nextTVar + 2
    && r.refVars == s.refVars && r.nextRefVar == s.nextRefVar
    && forall x | x in r.numVars :: x in s.numVars || x == nv + 1
  }

  /**
   * Joining a concrete type with a bound variable parks the type in a fresh
   * variable and merges the two chains (`join_impl`'s last variable case).
   */
  lemma JoinBoundVarTakesFreshPath(s: Subst, v: TVar, t: Type)
    requires v in s.tvars && t.Apply?
    ensures forall fuel: nat, l: Loc ::
              JoinOf(s, t, Var(l, v), fuel)
              == JoinTVar(s.(tvars := s.tvars[s.nextTVar := t], nextTVar := s.nextTVar + 1),
                          Join, t.loc, s.nextTVar, l, v, fuel)
  {
  }

  /**
   * The `join_tvar` step of defaulting: a variable `nv` bound to `u64`
   * merged with a chain whose end awaits a default.
   */
  lemma JoinTVarWithU64(s0: Subst, v: TVar, loc: Loc, fuel: nat)
    requires CountersFresh(s0) && fuel >= 1 && s0.nextTVar > 0
    requires var nv := s0.nextTVar - 1; nv in s0.tvars && s0.tvars[nv] == U64Type(loc)
    requires var last := ForwardTVar(s0, v);
             && last < s0.nextTVar - 1 && !VarBound(s0.tvars, last)
             && (last !in s0.tvars || s0.tvars[last].Anything? || s0.tvars[last].UnresolvedError?)
    ensures var nv, nv2, last := s0.nextTVar - 1, s0.nextTVar, ForwardTVar(s0, v);
            var j := JoinTVar(s0, Join, loc, nv, loc, v, fuel);
            && j.Ok?
            && j.value.0.tvars == s0.tvars[nv := Var(loc, nv2)][last := Var(loc, nv2)][nv2 := U64Type(loc)]
            && j.value.0.nextTVar == nv2 + 1
            && j.value.0.refVars == s0.refVars && j.value.0.nextRefVar == s0.nextRefVar
            && forall x | x in j.value.0.numVars :: x in s0.numVars || x == nv2
  {
    var nv, nv2 := s0.nextTVar - 1, s0.nextTVar;
    var u64 := U64Type(loc);
    var last := ForwardTVar(s0, v);
    assert ForwardTVar(s0, nv) == nv;
    var s2 := JoinTVarStore(s0, loc, nv, loc, v);
    var ty2 := if last in s0.tvars then s0.tvars[last] else Anything(loc);
    assert Recur(s2, Join, u64, ty2, fuel) == Ok((s2, u64));
    assert nv2 !in s2.tvars;
    assert UsedTVars(u64) == {} by { assert UsedTVarsSeq([]) == {}; }
    assert NumericShape(u64);
    assert JoinBindTVar(s2, loc, nv2, u64) == Ok((s2.(tvars := s2.tvars[nv2 := u64]), true));
  }

  /**
   * Defaulting one variable whose chain end awaits a default settles exactly
   * the variables that share that chain end, on `u64` at the defaulted
   * variable's location; every other variable keeps its chain end and
   * unfolds as before. The store keeps its chains acyclic and its counters
   * fresh, so defaulting can go on.
   */
  lemma DefaultNumVarSettles(s: Subst, v: TVar, loc: Loc, fuel: nat)
    requires ChainsTerminate(s.tvars) && CountersFresh(s)
    requires fuel >= 1 && v < s.nextTVar && AwaitsDefault(s, v)
    ensures var r := DefaultNumVar(s, v, loc, fuel);
            && ChainsTerminate(r.tvars) && CountersFresh(r)
            && KeepsOtherChains(s, r, v)
            && forall w: TVar, l: Loc | w < s.nextTVar ::
                 UnfoldType(r, Var(l, w))
                 == if ForwardTVar(s, w) == ForwardTVar(s, v) then U64Type(loc) else UnfoldType(s, Var(l, w))
  {
    if v in s.tvars {
      DefaultBoundSettles(s, v, loc, fuel);
    } else {
      DefaultUnboundSettles(s, v, loc, fuel);
    }
  }

  lemma DefaultUnboundSettles(s: Subst, v: TVar, loc: Loc, fuel: nat)
    requires ChainsTerminate(s.tvars) && CountersFresh(s)
    requires v < s.nextTVar && v !in s.tvars
    ensures var r := DefaultNumVar(s, v, loc, fuel);
            && ChainsTerminate(r.tvars) && CountersFresh(r)
            && KeepsOtherChains(s, r, v)
            && forall w: TVar, l: Loc | w < s.nextTVar ::
                 UnfoldType(r, Var(l, w))
                 == if ForwardTVar(s, w) == ForwardTVar(s, v) then U64Type(loc) else UnfoldType(s, Var(l, w))
  {
    DefaultBindsUnboundToU64(s, v, loc, fuel);
    var r := DefaultNumVar(s, v, loc, fuel);
    assert r == s.(tvars := s.tvars[v := U64Type(loc)]);
    UnboundBoundToU64Settles(s, v, loc, r);
  }

  /** Binding an unbound variable to `u64` settles exactly the variables whose chains end at it. */
  lemma UnboundBoundToU64Settles(s: Subst, v: TVar, loc: Loc, r: Subst)
    requires ChainsTerminate(s.tvars) && CountersFresh(s)
    requires v < s.nextTVar && v !in s.tvars
    requires r == s.(tvars := s.tvars[v := U64Type(loc)])
    ensures && ChainsTerminate(r.tvars) && CountersFresh(r)
            && KeepsOtherChains(s, r, v)
            && forall w: TVar, l: Loc | w < s.nextTVar ::
                 UnfoldType(r, Var(l, w))
                 == if ForwardTVar(s, w) == ForwardTVar(s, v) then U64Type(loc) else UnfoldType(s, Var(l, w))
  {
    assert UsedTVars(U64Type(loc)) == {} by { assert UsedTVarsSeq([]) == {}; }
    BindingEndKeepsInvariants(s, v, U64Type(loc));
    BindingEndKeepsChains(s, v, U64Type(loc));
    assert ForwardTVar(s, v) == v;
  }

  /** Binding an unbound, counted variable to a closed non-variable type keeps chains acyclic and counters fresh. */
  lemma BindingEndKeepsInvariants(s: Subst, v: TVar, t: Type)
    requires ChainsTerminate(s.tvars) && CountersFresh(s)
    requires v < s.nextTVar && v !in s.tvars && !t.Var? && UsedTVars(t) == {}
    ensures ChainsTerminate(s.tvars[v := t]) && CountersFresh(s.(tvars := s.tvars[v := t]))
  {
    var rank :| RankedChains(s.tvars, rank);
    assert RankedChains(s.tvars[v := t], rank);
  }

  /** Binding an unbound variable to a non-variable type leaves every chain end where it was. */
  lemma BindingEndKeepsChains(s: Subst, v: TVar, t: Type)
    requires ChainsTerminate(s.tvars) && v !in s.tvars && !t.Var?
    ensures forall w: TVar | w < s.nextTVar :: ForwardTVar(s.(tvars := s.tvars[v := t]), w) == ForwardTVar(s, w)
  {
    var r := s.(tvars := s.tvars[v := t]);
    var rank :| RankedChains(s.tvars, rank);
    forall w: TVar | w < s.nextTVar
      ensures ForwardTVar(r, w) == ForwardTVar(s, w)
    {
      ForwardTVarEnds(s, w);
      ForwardFromKeep(s.tvars, r.tvars, rank, w, {});
    }
  }

  lemma DefaultBoundSettles(s: Subst, v: TVar, loc: Loc, fuel: nat)
    requires ChainsTerminate(s.tvars) && CountersFresh(s)
    requires fuel >= 1 && v in s.tvars && AwaitsDefault(s, v)
    ensures var r := DefaultNumVar(s, v, loc, fuel);
            && ChainsTerminate(r.tvars) && CountersFresh(r)
            && KeepsOtherChains(s, r, v)
            && forall w: TVar, l: Loc | w < s.nextTVar ::
                 UnfoldType(r, Var(l, w))
                 == if ForwardTVar(s, w) == ForwardTVar(s, v) then U64Type(loc) else UnfoldType(s, Var(l, w))
  {
    DefaultOpenStore(s, v, loc, fuel);
    var r := DefaultNumVar(s, v, loc, fuel);
    ForwardTVarEnds(s, v);
    ForwardFromBelow(s.tvars, v, {}, s.nextTVar);
    MergedStoreKeepsInvariants(s, v, loc, r);
    MergedStoreUnfolds(s, v, loc, r);
    MergedStoreKeepsChains(s, v, loc, r);
  }

  lemma MergedStoreKeepsChains(s: Subst, v: TVar, loc: Loc, r: Subst)
    requires ChainsTerminate(s.tvars) && CountersFresh(s)
    requires ForwardTVar(s, v) < s.nextTVar && !VarBound(s.tvars, ForwardTVar(s, v))
    requires DefaultedThroughMerge(s, v, loc, r)
    ensures KeepsOtherChains(s, r, v)
  {
    var rank :| RankedChains(s.tvars, rank);
    forall w: TVar | w < s.nextTVar && ForwardTVar(s, w) != ForwardTVar(s, v)
      ensures ForwardTVar(r, w) == ForwardTVar(s, w)
    {
      ForwardTVarEnds(s, w);
      ForwardFromBelow(s.tvars, w, {}, s.nextTVar);
      ForwardFromKeep(s.tvars, r.tvars, rank, w, {});
    }
  }

  lemma MergedStoreKeepsInvariants(s: Subst, v: TVar, loc: Loc, r: Subst)
    requires ChainsTerminate(s.tvars) && CountersFresh(s)
    requires ForwardTVar(s, v) < s.nextTVar && !VarBound(s.tvars, ForwardTVar(s, v))
    requires DefaultedThroughMerge(s, v, loc, r)
    ensures ChainsTerminate(r.tvars) && CountersFresh(r)
  {
    var nv, last := s.nextTVar, ForwardTVar(s, v);
    MergedChainsTerminate(s.tvars, nv, last, loc);
    assert UsedTVars(U64Type(loc)) == {} by { assert UsedTVarsSeq([]) == {}; }
    assert UsedTVars(Var(loc, nv + 1)) == {nv + 1};
  }

  /** Pointing a chain end and a fresh variable at a second fresh variable bound to `u64` creates no cycle. */
  lemma MergedChainsTerminate(m: map<TVar, Type>, nv: TVar, last: TVar, loc: Loc)
    requires ChainsTerminate(m) && !VarBound(m, last) && last < nv
    requires forall x | x in m :: x < nv
    ensures ChainsTerminate(m[nv := Var(loc, nv + 1)][last := Var(loc, nv + 1)][nv + 1 := U64Type(loc)])
  {
    var rank: map<TVar, nat> :| RankedChains(m, rank);
    var rank': map<TVar, nat> := map x | x in rank.Keys + {last, nv, nv + 1} ::
                   if x == nv + 1 then 0 else if x in rank then rank[x] + 1 else 1;
    var m' := m[nv := Var(loc, nv + 1)][last := Var(loc, nv + 1)][nv + 1 := U64Type(loc)];
    forall x | x in m' && m'[x].Var?
      ensures x in rank' && m'[x].tvar in rank' && rank'[m'[x].tvar] < rank'[x]
    {
      if x != nv && x != last && x != nv + 1 {
        assert m'[x] == m[x];
      }
    }
    assert RankedChains(m', rank');
  }

  lemma MergedStoreUnfolds(s: Subst, v: TVar, loc: Loc, r: Subst)
    requires ChainsTerminate(s.tvars) && CountersFresh(s)
    requires ForwardTVar(s, v) < s.nextTVar && !VarBound(s.tvars, ForwardTVar(s, v))
    requires DefaultedThroughMerge(s, v, loc, r)
    ensures forall w: TVar, l: Loc | w < s.nextTVar ::
              UnfoldType(r, Var(l, w))
              == if ForwardTVar(s, w) == ForwardTVar(s, v) then U64Type(loc) else UnfoldType(s, Var(l, w))
  {
    var nv, last := s.nextTVar, ForwardTVar(s, v);
    var rank :| RankedChains(s.tvars, rank);
    forall w: TVar, l: Loc | w < s.nextTVar
      ensures UnfoldType(r, Var(l, w))
              == if ForwardTVar(s, w) == last then U64Type(loc) else UnfoldType(s, Var(l, w))
    {
      ForwardTVarEnds(s, w);
      ForwardFromBelow(s.tvars, w, {}, nv);
      if ForwardTVar(s, w) == last {
        ForwardFromRedirect(s.tvars, r.tvars, rank, w, {}, nv + 1);
      } else {
        ForwardFromKeep(s.tvars, r.tvars, rank, w, {});
      }
    }
  }

  function DefaultNumVars(s: Subst, order: seq<(TVar, Loc)>, fuel: nat): (r: Subst)
    ensures Extends(s, r)
    decreases |order|
  {
    if |order| == 0 then s
    else DefaultNumVars(DefaultNumVar(s, order[0].0, order[0].1, fuel), order[1..], fuel)
  }

  /**
   * Defaulting numeric variables that are all unbound binds each of them to
   * `u64` at its own location, after which each unfolds to `u64`; every
   * earlier binding is kept.
   */
  lemma {:induction false} DefaultNumVarsBindsAll(s: Subst, order: seq<(TVar, Loc)>, fuel: nat)
    requires forall i, j | 0 <= i < j < |order| :: order[i].0 != order[j].0
    ensures var r := DefaultNumVars(s, order, fuel);
            (forall i | 0 <= i < |order| :: order[i].0 !in s.tvars) ==>
              && (forall v | v in s.tvars :: v in r.tvars && r.tvars[v] == s.tvars[v])
              && (forall i | 0 <= i < |order| :: order[i].0 in r.tvars && r.tvars[order[i].0] == U64Type(order[i].1))
              && (forall i, l | 0 <= i < |order| :: UnfoldType(r, Var(l, order[i].0)) == U64Type(order[i].1))
    decreases |order|
  {
    var r := DefaultNumVars(s, order, fuel);
    if |order| > 0 && forall i | 0 <= i < |order| :: order[i].0 !in s.tvars {
      var (v, loc) := order[0];
      DefaultBindsUnboundToU64(s, v, loc, fuel);
      var s1 := DefaultNumVar(s, v, loc, fuel);
      var rest := order[1..];
      assert forall k | 0 <= k < |rest| :: rest[k] == order[k + 1];
      DefaultNumVarsBindsAll(s1, rest, fuel);
      assert r == DefaultNumVars(s1, rest, fuel);
      forall i | 0 <= i < |order|
        ensures order[i].0 in r.tvars && r.tvars[order[i].0] == U64Type(order[i].1)
      {
        if i > 0 {
          assert order[i] == rest[i - 1];
        }
      }
      forall i, l | 0 <= i < |order|
        ensures UnfoldType(r, Var(l, order[i].0)) == U64Type(order[i].1)
      {
        assert ForwardTVar(r, order[i].0) == order[i].0;
      }
    }
  }

  /** Whether defaulting still applies can be read off the unfolding, at any location. */
  lemma AwaitsDefaultByUnfold(s: Subst, w: TVar, l: Loc)
    ensures AwaitsDefault(s, w) <==> UnfoldType(s, Var(l, w)).Anything? || UnfoldType(s, Var(l, w)).UnresolvedError?
  {
  }

  /**
   * What one defaulting step does to a store whose chains are acyclic and
   * whose counters are fresh: the invariants are kept, and when `v` awaited
   * a default, exactly the variables sharing its chain end now unfold to
   * `u64` at `loc`; every other variable keeps its chain end and unfolds as
   * before.
   */
  ghost predicate DefaultStep(s: Subst, s1: Subst, v: TVar, loc: Loc) {
    && ChainsTerminate(s1.tvars) && CountersFresh(s1) && s.nextTVar <= s1.nextTVar
    && KeepsOtherChains(s, s1, v)
    && forall w: TVar, l: Loc | w < s.nextTVar ::
         UnfoldType(s1, Var(l, w))
         == if AwaitsDefault(s, v) && ForwardTVar(s, w) == ForwardTVar(s, v) then U64Type(loc)
            else UnfoldType(s, Var(l, w))
  }

  lemma DefaultNumVarStep(s: Subst, v: TVar, loc: Loc, fuel: nat)
    requires ChainsTerminate(s.tvars) && CountersFresh(s) && fuel >= 1 && v < s.nextTVar
    ensures DefaultStep(s, DefaultNumVar(s, v, loc, fuel), v, loc)
  {
    if AwaitsDefault(s, v) {
      DefaultNumVarSettles(s, v, loc, fuel);
    } else {
      AwaitsDefaultByUnfold(s, v, loc);
      DefaultKeepsResolved(s, v, loc, fuel);
    }
  }

  /** The first position in `order` of a variable whose chain ends at `e`, or `|order|` if there is none. */
  function FirstOnChain(s: Subst, order: seq<(TVar, Loc)>, e: TVar): (j: nat)
    ensures j <= |order|
    ensures j < |order| ==> ForwardTVar(s, order[j].0) == e
    ensures forall k | 0 <= k < |order| && ForwardTVar(s, order[k].0) == e :: j <= k
    decreases |order|
  {
    if |order| == 0 then 0
    else if ForwardTVar(s, order[0].0) == e then 0
    else 1 + FirstOnChain(s, order[1..], e)
  }

  /**
   * What defaulting `order` from `s` into `r` achieves: every variable whose
   * chain end was resolved unfolds as before, and every listed variable
   * whose chain end awaited a default unfolds to `u64` at the location of
   * the first listed variable on the same chain, which is the one whose
   * defaulting settled the chain.
   */
  ghost predicate SettledBy(s: Subst, order: seq<(TVar, Loc)>, r: Subst) {
    && (forall w: TVar, l: Loc | w < s.nextTVar && !AwaitsDefault(s, w) ::
          UnfoldType(r, Var(l, w)) == UnfoldType(s, Var(l, w)))
    && (forall i, l: Loc | 0 <= i < |order| && AwaitsDefault(s, order[i].0) ::
          UnfoldType(r, Var(l, order[i].0))
          == U64Type(order[FirstOnChain(s, order, ForwardTVar(s, order[i].0))].1))
  }

  /**
   * Defaulting a whole order from a store whose variable chains are acyclic
   * and whose counters are fresh: every listed variable whose chain end
   * awaited a default ends up unfolding to `u64` (at the location of the
   * first variable of its chain to be defaulted), and every variable whose
   * chain end was resolved unfolds as before.
   */
  lemma {:induction false} DefaultNumVarsSettle(s: Subst, order: seq<(TVar, Loc)>, fuel: nat)
    requires ChainsTerminate(s.tvars) && CountersFresh(s) && fuel >= 1
    requires forall i | 0 <= i < |order| :: order[i].0 < s.nextTVar
    ensures SettledBy(s, order, DefaultNumVars(s, order, fuel))
    decreases |order|, 1
  {
    if |order| > 0 {
      var s1 := DefaultNumVar(s, order[0].0, order[0].1, fuel);
      DefaultNumVarStep(s, order[0].0, order[0].1, fuel);
      SettleAfterStep(s, s1, order, fuel);
    }
  }

  /** The rest of an order, defaulted after a first step that `DefaultStep` summarises. */
  lemma {:induction false} SettleAfterStep(s: Subst, s1: Subst, order: seq<(TVar, Loc)>, fuel: nat)
    requires |order| > 0 && DefaultStep(s, s1, order[0].0, order[0].1) && fuel >= 1
    requires forall i | 0 <= i < |order| :: order[i].0 < s.nextTVar
    ensures SettledBy(s, order, DefaultNumVars(s1, order[1..], fuel))
    decreases |order|, 0
  {
    var v, loc, rest := order[0].0, order[0].1, order[1..];
    assert forall k | 0 <= k < |rest| :: rest[k].0 == order[k + 1].0;
    DefaultNumVarsSettle(s1, rest, fuel);
    SettleCombine(s, s1, DefaultNumVars(s1, rest, fuel), v, loc, rest);
    assert order == [(v, loc)] + rest;
  }

  /** The inductive step of `DefaultNumVarsSettle`, over the summaries of its two parts. */
  lemma SettleCombine(s: Subst, s1: Subst, r: Subst, v: TVar, loc: Loc, rest: seq<(TVar, Loc)>)
    requires DefaultStep(s, s1, v, loc) && v < s.nextTVar
    requires SettledBy(s1, rest, r)
    requires forall i | 0 <= i < |rest| :: rest[i].0 < s.nextTVar
    ensures SettledBy(s, [(v, loc)] + rest, r)
  {
    forall w: TVar, l: Loc | w < s.nextTVar && !AwaitsDefault(s, w)
      ensures UnfoldType(r, Var(l, w)) == UnfoldType(s, Var(l, w))
    {
      AwaitsDefaultByUnfold(s, w, l);
      AwaitsDefaultByUnfold(s1, w, l);
    }
    var order := [(v, loc)] + rest;
    forall i, l: Loc | 0 <= i < |order| && AwaitsDefault(s, order[i].0)
      ensures UnfoldType(r, Var(l, order[i].0))
              == U64Type(order[FirstOnChain(s, order, ForwardTVar(s, order[i].0))].1)
    {
      if ForwardTVar(s, order[i].0) == ForwardTVar(s, v) {
        SettleOnDefaultedChain(s, s1, r, v, loc, rest, order[i].0, l);
      } else {
        assert i > 0 && order[i].0 == rest[i - 1].0;
        SettleOnOtherChain(s, s1, r, v, loc, rest, i - 1, l);
      }
    }
  }

  /** A variable on the chain the first step defaulted unfolds to that step's `u64`. */
  lemma SettleOnDefaultedChain(s: Subst, s1: Subst, r: Subst, v: TVar, loc: Loc, rest: seq<(TVar, Loc)>,
                               w: TVar, l: Loc)
    requires DefaultStep(s, s1, v, loc) && v < s.nextTVar
    requires SettledBy(s1, rest, r)
    requires w < s.nextTVar && AwaitsDefault(s, w) && ForwardTVar(s, w) == ForwardTVar(s, v)
    ensures FirstOnChain(s, [(v, loc)] + rest, ForwardTVar(s, w)) == 0
    ensures UnfoldType(r, Var(l, w)) == U64Type(loc)
  {
    AwaitsDefaultByUnfold(s1, w, l);
  }

  /**
   * A listed variable on a chain the first step left alone still awaits a
   * default after it, and the first variable on its chain is the same in
   * both stores, one position later in the whole order.
   */
  lemma SettleOnOtherChain(s: Subst, s1: Subst, r: Subst, v: TVar, loc: Loc, rest: seq<(TVar, Loc)>,
                           k: int, l: Loc)
    requires DefaultStep(s, s1, v, loc) && v < s.nextTVar
    requires SettledBy(s1, rest, r)
    requires forall i | 0 <= i < |rest| :: rest[i].0 < s.nextTVar
    requires 0 <= k < |rest| && AwaitsDefault(s, rest[k].0)
    requires ForwardTVar(s, rest[k].0) != ForwardTVar(s, v)
    ensures var e := ForwardTVar(s, rest[k].0);
            var j := FirstOnChain(s, [(v, loc)] + rest, e);
            j <= k + 1 && UnfoldType(r, Var(l, rest[k].0)) == U64Type(([(v, loc)] + rest)[j].1)
  {
    var w := rest[k].0;
    var e := ForwardTVar(s, w);
    AwaitsDefaultByUnfold(s, w, l);
    AwaitsDefaultByUnfold(s1, w, l);
    forall x | 0 <= x < |rest|
      ensures ForwardTVar(s1, rest[x].0) == e <==> ForwardTVar(s, rest[x].0) == e
    {
      StepSeparatesChains(s, s1, v, loc, w, rest[x].0);
    }
    FirstOnChainAgrees(s, s1, rest, e);
    assert ([(v, loc)] + rest)[1..] == rest;
  }

  /**
   * After one defaulting step, a variable shares the chain end of a variable
   * that still awaits a default, on a chain the step left alone, exactly
   * when it did before.
   */
  lemma StepSeparatesChains(s: Subst, s1: Subst, v: TVar, loc: Loc, w: TVar, y: TVar)
    requires DefaultStep(s, s1, v, loc)
    requires w < s.nextTVar && AwaitsDefault(s, w) && ForwardTVar(s, w) != ForwardTVar(s, v)
    requires y < s.nextTVar
    ensures ForwardTVar(s1, y) == ForwardTVar(s1, w) <==> ForwardTVar(s, y) == ForwardTVar(s, w)
  {
    if ForwardTVar(s, y) == ForwardTVar(s, v) {
      var l: Loc := 0;
      AwaitsDefaultByUnfold(s, w, l);
      AwaitsDefaultByUnfold(s1, w, l);
      AwaitsDefaultByUnfold(s, y, l);
      if AwaitsDefault(s, v) {
        assert UnfoldType(s1, Var(l, y)) == U64Type(loc);
      } else {
        assert !AwaitsDefault(s, y);
        assert UnfoldType(s1, Var(l, y)) == UnfoldType(s, Var(l, y));
      }
      assert UnfoldType(s1, Var(l, y)) != UnfoldType(s1, Var(l, w));
    }
  }

  /** Two stores that put the same listed variables on the chain ending at `e` find the same first one. */
  lemma {:induction false} FirstOnChainAgrees(s: Subst, s1: Subst, order: seq<(TVar, Loc)>, e: TVar)
    requires forall x | 0 <= x < |order| :: ForwardTVar(s1, order[x].0) == e <==> ForwardTVar(s, order[x].0) == e
    ensures FirstOnChain(s1, order, e) == FirstOnChain(s, order, e)
    decreases |order|
  {
    if |order| > 0 {
      assert forall x | 0 <= x < |order| - 1 :: order[1..][x] == order[x + 1];
      FirstOnChainAgrees(s, s1, order[1..], e);
    }
  }

  /** `order` enumerates the numeric variables with their locations (the map's iteration order). */
  predicate EnumeratesNumVars(s: Subst, order: seq<(TVar, Loc)>) {
    && (forall i | 0 <= i < |order| :: order[i].0 in s.numVars && s.numVars[order[i].0] == order[i].1)
    && (forall v | v in s.numVars :: exists i | 0 <= i < |order| :: order[i].0 == v)
    && (forall i, j | 0 <= i < j < |order| :: order[i].0 != order[j].0)
  }

  /**
   * `solve_constraints`: defaulting first (over a snapshot of the numeric
   * variables), then every constraint against the defaulted store.
   */
  function SolveConstraints(p: ProgramInfo, cats: BuiltinCategories, s: Subst, order: seq<(TVar, Loc)>,
                            cs: seq<Constraint>, fuel: nat): (r: (Subst, seq<Diag>))
    requires EnumeratesNumVars(s, order)
    ensures Extends(s, r.0)
    ensures r.1 == SolveAll(p, cats, r.0, cs)
    ensures forall d | d in r.1 :: exists c | c in cs :: d.loc == c.loc
    ensures (forall i | 0 <= i < |order| :: order[i].0 !in s.tvars) ==>
              forall i, l | 0 <= i < |order| :: UnfoldType(r.0, Var(l, order[i].0)) == U64Type(order[i].1)
    ensures ChainsTerminate(s.tvars) && CountersFresh(s) && fuel >= 1 ==>
              && (forall i, l: Loc | 0 <= i < |order| && AwaitsDefault(s, order[i].0) ::
                    UnfoldType(r.0, Var(l, order[i].0))
                    == U64Type(order[FirstOnChain(s, order, ForwardTVar(s, order[i].0))].1))
              && (forall w: TVar, l: Loc | w < s.nextTVar && !AwaitsDefault(s, w) ::
                    UnfoldType(r.0, Var(l, w)) == UnfoldType(s, Var(l, w)))
  {
    var s' := DefaultNumVars(s, order, fuel);
    DefaultNumVarsBindsAll(s, order, fuel);
    DefaultingSettlesNumVars(s, order, fuel);
    (s', SolveAll(p, cats, s', cs))
  }

  /** `DefaultNumVarsSettle` for the enumeration of a store's numeric variables, whenever its invariants hold. */
  lemma DefaultingSettlesNumVars(s: Subst, order: seq<(TVar, Loc)>, fuel: nat)
    requires EnumeratesNumVars(s, order)
    ensures ChainsTerminate(s.tvars) && CountersFresh(s) && fuel >= 1 ==>
              var r := DefaultNumVars(s, order, fuel);
              && (forall i, l: Loc | 0 <= i < |order| && AwaitsDefault(s, order[i].0) ::
                    UnfoldType(r, Var(l, order[i].0))
                    == U64Type(order[FirstOnChain(s, order, ForwardTVar(s, order[i].0))].1))
              && (forall w: TVar, l: Loc | w < s.nextTVar && !AwaitsDefault(s, w) ::
                    UnfoldType(r, Var(l, w)) == UnfoldType(s, Var(l, w)))
  {
    if ChainsTerminate(s.tvars) && CountersFresh(s) && fuel >= 1 {
      DefaultNumVarsSettle(s, order, fuel);
    }
  }
}

=== FILE: instantiate.dfy ===
/**
 * Instantiation helpers: normalising the number of explicit type
 * arguments to a declaration's arity, and the visibility decision taken
 * when a function is called.
 */
module Instantiate {
  import opened Wrappers
  import opened Types
  import opened Diagnostics

  function Min(a: int, b: int): int {
    if a <= b then a else b
  }

  /** The arguments cut down or padded with error types to exactly `arity`. */
  function FitToArity(loc: Loc, tyArgs: seq<Type>, arity: nat): seq<Type> {
    if |tyArgs| >= arity then tyArgs[..arity]
    else tyArgs + seq(arity - |tyArgs|, _ => UnresolvedError(loc))
  }

  /** Fitting arguments that already have the right length changes nothing. */
  lemma FitToArityIdempotent(loc: Loc, tyArgs: seq<Type>, arity: nat)
    ensures |FitToArity(loc, tyArgs, arity)| == arity
    ensures FitToArity(loc, FitToArity(loc, tyArgs, arity), arity) == FitToArity(loc, tyArgs, arity)
  {
    var fitted := FitToArity(loc, tyArgs, arity);
    assert fitted[..arity] == fitted;
  }

  /**
   * `check_type_argument_arity`: exactly one diagnostic when the count is
   * wrong; excess arguments dropped, missing ones filled with error types.
   */
  method CheckTypeArgumentArity(loc: Loc, tyArgs: seq<Type>, tparamConstraints: seq<AbilitySet>)
    returns (args: seq<Type>, diags: seq<Diag>)
    ensures |args| == |tparamConstraints|
    ensures forall i | 0 <= i < Min(|tyArgs|, |tparamConstraints|) :: args[i] == tyArgs[i]
    ensures forall i | |tyArgs| <= i < |tparamConstraints| :: args[i] == UnresolvedError(loc)
    ensures args == FitToArity(loc, tyArgs, |tparamConstraints|)
    ensures diags == [] <==> |tyArgs| == |tparamConstraints|
    ensures |tyArgs| < |tparamConstraints| ==> diags == [Diag(TooFewTypeArguments, loc)]
    ensures |tyArgs| > |tparamConstraints| ==> diags == [Diag(TooManyTypeArguments, loc)]
  {
    var arity := |tparamConstraints|;
    diags := [];
    if |tyArgs| != arity {
      var code := if |tyArgs| < arity then TooFewTypeArguments else TooManyTypeArguments;
      diags := [Diag(code, loc)];
    }
    args := tyArgs;
    while |args| > arity
      invariant |args| <= |tyArgs| && args == tyArgs[..|args|]
      invariant |args| >= Min(|tyArgs|, arity)
      decreases |args|
    {
      args := args[..|args| - 1];
    }
    while |args| < arity
      invariant |args| <= arity && |args| >= Min(|tyArgs|, arity)
      invariant forall i | 0 <= i < Min(|tyArgs|, arity) :: args[i] == tyArgs[i]
      invariant forall i | |tyArgs| <= i < |args| :: args[i] == UnresolvedError(loc)
      decreases arity - |args|
    {
      args := args + [UnresolvedError(loc)];
    }
  }

  // ---------------------------------------------------------------------------
  // Call visibility
  // ---------------------------------------------------------------------------

  datatype Visibility = Public(loc: Loc) | Friend(loc: Loc) | Package(loc: Loc) | Internal

  datatype FunctionInfo = FunctionInfo(
    visibility: Visibility, entry: Option<Loc>, isTestOrTestOnly: bool, definedLoc: Loc)

  datatype ModuleInfo = ModuleInfo(
    package: Option<Symbol>, friends: set<ModuleIdent>, isTestOrTestOnly: bool,
    functions: map<FunctionName, FunctionInfo>)

  /** What a call site knows: the program's modules, where it is, and whether this is a test build. */
  datatype CallerContext = CallerContext(
    modules: map<ModuleIdent, ModuleInfo>, currentModule: Option<ModuleIdent>,
    currentFunction: Option<FunctionName>, isTesting: bool)

  /** The current module and function, when set, are known to the program. */
  predicate ContextKnown(ctx: CallerContext) {
    && (ctx.currentModule.Some? ==> ctx.currentModule.value in ctx.modules)
    && (ctx.currentModule.Some? && ctx.currentFunction.Some? ==>
          ctx.currentFunction.value in ctx.modules[ctx.currentModule.value].functions)
  }

  predicate InCurrentModule(ctx: CallerContext, m: ModuleIdent) {
    ctx.currentModule == Some(m)
  }

  /** `is_testing_context`: inside a test-only module, or a test or test-only function. */
  predicate IsTestingContext(ctx: CallerContext)
    requires ContextKnown(ctx)
  {
    ctx.currentModule.Some? &&
    var minfo := ctx.modules[ctx.currentModule.value];
    minfo.isTestOrTestOnly ||
    (ctx.currentFunction.Some? && minfo.functions[ctx.currentFunction.value].isTestOrTestOnly)
  }

  /** `public_testing_visibility`: entry functions are callable from tests in a test build. */
  function PublicForTesting(ctx: CallerContext, entry: Option<Loc>): Option<Loc> {
    if !ctx.isTesting then None else entry
  }

  predicate SharesPackageAndAddress(ctx: CallerContext, m: ModuleIdent)
    requires ContextKnown(ctx) && m in ctx.modules
  {
    ctx.currentModule.Some? &&
    var cur := ctx.currentModule.value;
    m.address == cur.address && ctx.modules[m].package == ctx.modules[cur].package
  }

  predicate IsFriendOf(ctx: CallerContext, m: ModuleIdent)
    requires m in ctx.modules
  {
    ctx.currentModule.Some? && ctx.currentModule.value in ctx.modules[m].friends
  }

  /** `record_current_module_as_friend`: a new friend edge from another module, tagged with `loc`. */
  function RecordCurrentModuleAsFriend(ctx: CallerContext, friends: set<(ModuleIdent, Loc)>, m: ModuleIdent, loc: Loc)
    : (r: set<(ModuleIdent, Loc)>)
    ensures r == friends || r == friends + {(m, loc)}
    ensures (m, loc) in r <==> (m, loc) in friends || (ctx.currentModule.Some? && ctx.currentModule.value != m)
  {
    if ctx.currentModule.Some? && ctx.currentModule.value != m then friends + {(m, loc)} else friends
  }

  /**
   * When a call of `m::f` is permitted, stated case by case: testing
   * access to entry functions, the defining module itself, public
   * functions, package functions from the same address and package, and
   * friend functions from a declared friend.
   */
  predicate CallPermitted(ctx: CallerContext, m: ModuleIdent, f: FunctionName)
    requires ContextKnown(ctx) && m in ctx.modules && f in ctx.modules[m].functions
  {
    var finfo := ctx.modules[m].functions[f];
    || (IsTestingContext(ctx) && ctx.isTesting && finfo.entry.Some?)
    || InCurrentModule(ctx, m)
    || finfo.visibility.Public?
    || (finfo.visibility.Package? && SharesPackageAndAddress(ctx, m))
    || (finfo.visibility.Friend? && IsFriendOf(ctx, m))
  }

  datatype VisibilityOutcome = VisibilityOutcome(diags: seq<Diag>, friends: set<(ModuleIdent, Loc)>)

  /**
   * The visibility match of `make_function_type`: either the call is
   * accepted (a package call from a sibling module also records a friend
   * edge) or one visibility diagnostic is reported at the call, carrying
   * the entry hint when the callee would have been callable from a test.
   */
  function CheckCallVisibility(ctx: CallerContext, friends: set<(ModuleIdent, Loc)>, callLoc: Loc,
                               m: ModuleIdent, f: FunctionName): (r: VisibilityOutcome)
    requires ContextKnown(ctx) && m in ctx.modules && f in ctx.modules[m].functions
    ensures |r.diags| <= 1 && friends <= r.friends
    ensures r.diags != [] ==> r.friends == friends
  {
    var finfo := ctx.modules[m].functions[f];
    var publicForTesting := PublicForTesting(ctx, finfo.entry);
    var denied := VisibilityOutcome([Diag(VisibilityError(publicForTesting.Some?), callLoc)], friends);
    var inCurrentModule := InCurrentModule(ctx, m);
    if IsTestingContext(ctx) && publicForTesting.Some? then VisibilityOutcome([], friends)
    else match finfo.visibility
      case Internal => if inCurrentModule then VisibilityOutcome([], friends) else denied
      case Package(visLoc) =>
        if inCurrentModule || SharesPackageAndAddress(ctx, m) then
          VisibilityOutcome([], RecordCurrentModuleAsFriend(ctx, friends, m, visLoc))
        else denied
      case Friend(_) => if inCurrentModule || IsFriendOf(ctx, m) then VisibilityOutcome([], friends) else denied
      case Public(_) => VisibilityOutcome([], friends)
  }

  /** The match accepts exactly the permitted calls, and a refusal is a single visibility diagnostic at the call. */
  lemma CheckCallVisibilityDecides(ctx: CallerContext, friends: set<(ModuleIdent, Loc)>, callLoc: Loc,
                                   m: ModuleIdent, f: FunctionName)
    requires ContextKnown(ctx) && m in ctx.modules && f in ctx.modules[m].functions
    ensures var r := CheckCallVisibility(ctx, friends, callLoc, m, f);
            (r.diags == [] <==> CallPermitted(ctx, m, f))
            && (r.diags != [] ==> r.diags == [Diag(VisibilityError(ctx.isTesting && ctx.modules[m].functions[f].entry.Some?), callLoc)])
  {
  }

  /**
   * Only an accepted package call from another module of the same address
   * and package adds a friend edge, and then exactly one, tagged with the
   * callee's visibility location.
   */
  lemma FriendEdgeOnlyForPackageCalls(ctx: CallerContext, friends: set<(ModuleIdent, Loc)>, callLoc: Loc,
                                      m: ModuleIdent, f: FunctionName)
    requires ContextKnown(ctx) && m in ctx.modules && f in ctx.modules[m].functions
    ensures var r := CheckCallVisibility(ctx, friends, callLoc, m, f);
            var finfo := ctx.modules[m].functions[f];
            var testingAccess := IsTestingContext(ctx) && ctx.isTesting && finfo.entry.Some?;
            && (r.friends != friends <==>
                  !testingAccess && finfo.visibility.Package? && SharesPackageAndAddress(ctx, m)
                  && ctx.currentModule.value != m && (m, finfo.visibility.loc) !in friends)
            && (r.friends == friends || r.friends == friends + {(m, finfo.visibility.loc)})
  {
  }

  /**
   * In a test build, code in a test-only module or a test or test-only
   * function may call any entry function, whatever its visibility.
   */
  lemma TestingEntryAlwaysCallable(ctx: CallerContext, friends: set<(ModuleIdent, Loc)>, callLoc: Loc,
                                   m: ModuleIdent, f: FunctionName)
    requires ContextKnown(ctx) && m in ctx.modules && f in ctx.modules[m].functions
    requires ctx.isTesting && ctx.modules[m].functions[f].entry.Some?
    ensures IsTestingContext(ctx) ==> CheckCallVisibility(ctx, friends, callLoc, m, f) == VisibilityOutcome([], friends)
  {
  }

  /**
   * Outside a test build being an entry function grants nothing: the
   * decision is the one for the same function without the entry marker.
   */
  lemma EntryIrrelevantOutsideTests(ctx: CallerContext, friends: set<(ModuleIdent, Loc)>, callLoc: Loc,
                                    m: ModuleIdent, f: FunctionName)
    requires ContextKnown(ctx) && m in ctx.modules && f in ctx.modules[m].functions
    requires !ctx.isTesting
    ensures var minfo := ctx.modules[m];
            var ctx' := ctx.(modules := ctx.modules[m := minfo.(functions := minfo.functions[f := minfo.functions[f].(entry := None)])]);
            && ContextKnown(ctx')
            && CheckCallVisibility(ctx', friends, callLoc, m, f) == CheckCallVisibility(ctx, friends, callLoc, m, f)
  {
  }

  /**
   * A package function called from another module is accepted, outside
   * testing access, exactly when the caller shares its address and package.
   */
  lemma PackageCallNeedsSharedPackage(ctx: CallerContext, friends: set<(ModuleIdent, Loc)>, callLoc: Loc,
                                      m: ModuleIdent, f: FunctionName)
    requires ContextKnown(ctx) && m in ctx.modules && f in ctx.modules[m].functions
    requires ctx.modules[m].functions[f].visibility.Package?
    requires !InCurrentModule(ctx, m)
    requires !(IsTestingContext(ctx) && ctx.isTesting && ctx.modules[m].functions[f].entry.Some?)
    ensures CheckCallVisibility(ctx, friends, callLoc, m, f).diags == [] <==>
              ctx.currentModule.Some?
              && m.address == ctx.currentModule.value.address
              && ctx.modules[m].package == ctx.modules[ctx.currentModule.value].package
  {
  }

  /**
   * A friend function called from another module is accepted, outside
   * testing access, exactly when the callee's module declares the caller a
   * friend.
   */
  lemma FriendCallNeedsFriendDeclaration(ctx: CallerContext, friends: set<(ModuleIdent, Loc)>, callLoc: Loc,
                                         m: ModuleIdent, f: FunctionName)
    requires ContextKnown(ctx) && m in ctx.modules && f in ctx.modules[m].functions
    requires ctx.modules[m].functions[f].visibility.Friend?
    requires !InCurrentModule(ctx, m)
    requires !(IsTestingContext(ctx) && ctx.isTesting && ctx.modules[m].functions[f].entry.Some?)
    ensures CheckCallVisibility(ctx, friends, callLoc, m, f).diags == [] <==>
              ctx.currentModule.Some? && ctx.currentModule.value in ctx.modules[m].friends
  {
  }
}

=== FILE: macros.dfy ===
/**
 * The macro self-recursion guard. While a macro body is expanded its call
 * sits on the expansion stack, tagged with the colour of the scope it was
 * called from; arguments substituted into a body push an `Argument`
 * frame, because code written in an outer scope may legitimately call the
 * macro again.
 */
module MacroExpansions {
  import opened Wrappers
  import opened Types
  import opened Diagnostics
  import opened UseFunScopes

  datatype MacroExpansion =
    | Call(mident: ModuleIdent, fname: FunctionName, invocation: Loc, scopeColor: Color)
    | Argument(scopeColor: Color)

  type ExpansionStack = seq<MacroExpansion>

  /** `current_call_color`: the colour of the innermost use-fun scope, which inside a function always has one. */
  function CurrentCallColor(scopes: ScopeStack): Color
    requires |scopes| > 0 && Top(scopes).color.Some?
  {
    Top(scopes).color.value
  }

  /** After a scope is added, the current call colour is that scope's colour, whichever shape the add took. */
  lemma AddedScopeSetsCallColor(st: ScopeStack, nu: UseFuns)
    requires |st| > 0
    ensures var st' := AddUseFunsScope(st, nu);
            Top(st').color.Some? && CurrentCallColor(st') == nu.color
  {
  }

  /** A call of `m::f` made from a scope strictly shallower than `cur`. */
  predicate OuterCallOf(e: MacroExpansion, m: ModuleIdent, f: FunctionName, cur: Color) {
    e.Call? && cur > e.scopeColor && e.mident == m && e.fname == f
  }

  /** An argument frame written in a scope strictly shallower than `cur`. */
  predicate OuterArgument(e: MacroExpansion, cur: Color) {
    e.Argument? && cur > e.scopeColor
  }

  /** Some outer argument frame lies strictly between positions `lo` and `hi`. */
  predicate Shielded(ex: ExpansionStack, cur: Color, lo: int, hi: int)
    requires hi <= |ex|
  {
    exists j | lo < j < hi && 0 <= j :: OuterArgument(ex[j], cur)
  }

  /**
   * Expanding `m::f` under colour `cur` is recursive when an outer call of
   * `m::f` is on the stack with no outer argument frame above it.
   */
  predicate IsRecursive(ex: ExpansionStack, m: ModuleIdent, f: FunctionName, cur: Color) {
    exists idx | 0 <= idx < |ex| :: OuterCallOf(ex[idx], m, f, cur) && !Shielded(ex, cur, idx, |ex|)
  }

  /** The scan of `add_macro_expansion` over positions `i - 1` down to `0`. */
  function FindRecursiveCall(ex: ExpansionStack, m: ModuleIdent, f: FunctionName, cur: Color, i: nat): (r: Option<nat>)
    requires i <= |ex|
    ensures r.Some? ==> r.value < i && OuterCallOf(ex[r.value], m, f, cur) && !Shielded(ex, cur, r.value, i)
    ensures r.None? ==> forall idx | 0 <= idx < i && OuterCallOf(ex[idx], m, f, cur) :: Shielded(ex, cur, idx, i)
    decreases i
  {
    if i == 0 then None
    else
      match ex[i - 1]
      case Argument(c) =>
        if cur > c then None
        else
          var r := FindRecursiveCall(ex, m, f, cur, i - 1);
          assert !OuterArgument(ex[i - 1], cur);
          r
      case Call(m', f', _, c) =>
        if cur > c && m' == m && f' == f then Some(i - 1)
        else FindRecursiveCall(ex, m, f, cur, i - 1)
  }

  lemma FindRecursiveCallDecides(ex: ExpansionStack, m: ModuleIdent, f: FunctionName, cur: Color)
    ensures FindRecursiveCall(ex, m, f, cur, |ex|).Some? <==> IsRecursive(ex, m, f, cur)
  {
    var r := FindRecursiveCall(ex, m, f, cur, |ex|);
    if r.Some? {
      assert OuterCallOf(ex[r.value], m, f, cur) && !Shielded(ex, cur, r.value, |ex|);
    }
  }

  datatype AddResult = AddResult(ok: bool, stack: ExpansionStack, diags: seq<Diag>)

  /**
   * `add_macro_expansion`: refuses a recursive expansion with one
   * diagnostic and an unchanged stack; otherwise pushes exactly one call
   * tagged with the current colour.
   */
  function AddMacroExpansion(scopes: ScopeStack, ex: ExpansionStack, m: ModuleIdent, f: FunctionName, loc: Loc): (r: AddResult)
    requires |scopes| > 0 && Top(scopes).color.Some?
    ensures r.ok <==> !IsRecursive(ex, m, f, CurrentCallColor(scopes))
    ensures !r.ok ==> r.stack == ex && r.diags == [Diag(CannotExpandMacro, loc)]
    ensures r.ok ==> r.stack == ex + [Call(m, f, loc, CurrentCallColor(scopes))] && r.diags == []
  {
    var cur := CurrentCallColor(scopes);
    FindRecursiveCallDecides(ex, m, f, cur);
    match FindRecursiveCall(ex, m, f, cur, |ex|)
    case Some(_) => AddResult(false, ex, [Diag(CannotExpandMacro, loc)])
    case None => AddResult(true, ex + [Call(m, f, loc, cur)], [])
  }

  /** `pop_macro_expansion`: the top must be the call being left. */
  function PopMacroExpansion(ex: ExpansionStack, m: ModuleIdent, f: FunctionName): (r: ExpansionStack)
    requires |ex| > 0 && ex[|ex| - 1].Call?
    requires ex[|ex| - 1].mident == m && ex[|ex| - 1].fname == f
    ensures |r| == |ex| - 1 && r + [ex[|ex| - 1]] == ex
  {
    ex[..|ex| - 1]
  }

  /** `maybe_enter_macro_argument`: only code that came from a macro argument pushes a frame. */
  function MaybeEnterMacroArgument(ex: ExpansionStack, fromMacroArgument: bool, color: Color): (r: ExpansionStack)
    ensures fromMacroArgument ==> r == ex + [Argument(color)]
    ensures !fromMacroArgument ==> r == ex
  {
    if fromMacroArgument then ex + [Argument(color)] else ex
  }

  /** `maybe_exit_macro_argument`: the top must then be an argument frame. */
  function MaybeExitMacroArgument(ex: ExpansionStack, fromMacroArgument: bool): (r: ExpansionStack)
    requires fromMacroArgument ==> |ex| > 0 && ex[|ex| - 1].Argument?
    ensures fromMacroArgument ==> |r| == |ex| - 1 && r + [ex[|ex| - 1]] == ex
    ensures !fromMacroArgument ==> r == ex
  {
    if fromMacroArgument then ex[..|ex| - 1] else ex
  }

  /** An accepted expansion is undone exactly by the matching pop. */
  lemma AddThenPopRestores(scopes: ScopeStack, ex: ExpansionStack, m: ModuleIdent, f: FunctionName, loc: Loc)
    requires |scopes| > 0 && Top(scopes).color.Some?
    requires AddMacroExpansion(scopes, ex, m, f, loc).ok
    ensures PopMacroExpansion(AddMacroExpansion(scopes, ex, m, f, loc).stack, m, f) == ex
  {
    var st := AddMacroExpansion(scopes, ex, m, f, loc).stack;
    assert st[..|st| - 1] == ex;
  }

  lemma EnterThenExitRestores(ex: ExpansionStack, fromMacroArgument: bool, color: Color)
    ensures MaybeExitMacroArgument(MaybeEnterMacroArgument(ex, fromMacroArgument, color), fromMacroArgument) == ex
  {
    if fromMacroArgument {
      assert (ex + [Argument(color)])[..|ex|] == ex;
    }
  }

  /**
   * After an accepted expansion of `m::f`, expanding `m::f` again from a
   * deeper scope is refused, unless an outer argument frame intervenes.
   */
  lemma {:induction false} ImmediateSelfExpansionRefused(ex: ExpansionStack, m: ModuleIdent, f: FunctionName, loc: Loc, c: Color, cur: Color)
    requires cur > c
    ensures IsRecursive(ex + [Call(m, f, loc, c)], m, f, cur)
  {
    var ex' := ex + [Call(m, f, loc, c)];
    assert OuterCallOf(ex'[|ex|], m, f, cur);
    assert !Shielded(ex', cur, |ex|, |ex'|);
  }

  /** Code substituted from an outer scope may call any macro: its argument frame shields the whole stack. */
  lemma {:induction false} ArgumentShieldsEarlierCalls(ex: ExpansionStack, m: ModuleIdent, f: FunctionName, c: Color, cur: Color)
    requires cur > c
    ensures !IsRecursive(MaybeEnterMacroArgument(ex, true, c), m, f, cur)
  {
    var ex' := ex + [Argument(c)];
    assert OuterArgument(ex'[|ex|], cur);
    forall idx | 0 <= idx < |ex'| && OuterCallOf(ex'[idx], m, f, cur)
      ensures Shielded(ex', cur, idx, |ex'|)
    {
      assert idx < |ex|;
    }
  }

  /** Calls made at the current colour or deeper never count as recursion. */
  lemma {:induction false} DeeperCallsIgnored(ex: ExpansionStack, m: ModuleIdent, f: FunctionName, loc: Loc, c: Color, cur: Color)
    requires c >= cur
    ensures IsRecursive(ex + [Call(m, f, loc, c)], m, f, cur) <==> IsRecursive(ex, m, f, cur)
  {
    var ex' := ex + [Call(m, f, loc, c)];
    assert !OuterCallOf(ex'[|ex|], m, f, cur);
    assert !OuterArgument(ex'[|ex|], cur);
    forall idx | 0 <= idx < |ex|
      ensures Shielded(ex', cur, idx, |ex'|) <==> Shielded(ex, cur, idx, |ex|)
    {
      if Shielded(ex, cur, idx, |ex|) {
        var j :| idx < j < |ex| && 0 <= j && OuterArgument(ex[j], cur);
        assert ex'[j] == ex[j];
      }
      if Shielded(ex', cur, idx, |ex'|) {
        var j :| idx < j < |ex'| && 0 <= j && OuterArgument(ex'[j], cur);
        assert j < |ex| && ex'[j] == ex[j];
      }
    }
    if IsRecursive(ex', m, f, cur) {
      var idx :| 0 <= idx < |ex'| && OuterCallOf(ex'[idx], m, f, cur) && !Shielded(ex', cur, idx, |ex'|);
      assert idx < |ex| && ex'[idx] == ex[idx];
    }
    if IsRecursive(ex, m, f, cur) {
      var idx :| 0 <= idx < |ex| && OuterCallOf(ex[idx], m, f, cur) && !Shielded(ex, cur, idx, |ex|);
      assert ex'[idx] == ex[idx];
    }
  }
}

=== FILE: normalize.dfy ===
/**
 * Type normalisers: one-step unfolding of a variable or autoref, full
 * "readying" of a type for export, type-parameter substitution for
 * instantiation, and the parameter erasure used for macro signatures.
 */
module Normalize {
  import opened Wrappers
  import opened Types
  import opened Substitution
  import opened Unify

  /**
   * `unfold_type`: a variable becomes the end of its chain (`Anything` when
   * unbound); an autoref becomes its realized form over its unfolded inner
   * type. An autoref whose kind is still unset is an internal error in the
   * compiler and is the poison type here.
   */
  function UnfoldType(s: Subst, t: Type): (r: Type)
    decreases t
  {
    match t
    case Var(l, i) =>
      var last := ForwardTVar(s, i);
      if last in s.tvars then s.tvars[last] else Anything(l)
    case AutoRef(l, x, inner) =>
      var u := UnfoldType(s, inner);
      var k := RefKindOf(s, x);
      if k.None? then UnresolvedError(l)
      else if k.value == Value then u
      else if k.value == ImmRef then Ref(l, false, u)
      else Ref(l, true, u)
    case _ => t
  }

  /** An unbound variable unfolds to `Anything` at the variable's location. */
  lemma UnfoldUnboundVar(s: Subst, l: Loc, i: TVar)
    requires ForwardTVar(s, i) !in s.tvars
    ensures UnfoldType(s, Var(l, i)) == Anything(l)
  {
  }

  /** Every type that is neither a variable nor an autoref is its own unfolding. */
  lemma UnfoldConcreteIsIdentity(s: Subst, t: Type)
    requires !t.Var? && !t.AutoRef?
    ensures UnfoldType(s, t) == t
  {
  }

  /** On a store without variable cycles, unfolding never yields a variable. */
  lemma {:induction false} UnfoldNeverVar(s: Subst, t: Type)
    requires ChainsTerminate(s.tvars)
    ensures !UnfoldType(s, t).Var?
    decreases t
  {
    match t
    case Var(l, i) =>
      ForwardTVarEnds(s, i);
    case AutoRef(l, x, inner) =>
      UnfoldNeverVar(s, inner);
    case _ =>
  }

  /** Unfolding a resolved autoref is realizing its kind over the unfolded inner type. */
  lemma UnfoldAutorefRealizes(s: Subst, l: Loc, x: RefVar, inner: Type)
    requires RefKindOf(s, x).Some?
    ensures UnfoldType(s, AutoRef(l, x, inner)) == RealizeAutoref(l, RefKindOf(s, x).value, UnfoldType(s, inner))
  {
  }

  // ---------------------------------------------------------------------------
  // ready_tvars
  // ---------------------------------------------------------------------------

  /** No bound type variable and no set reference variable occurs in `t`. */
  ghost predicate Readied(s: Subst, t: Type) {
    && (forall v | v in UsedTVars(t) :: v !in s.tvars)
    && (forall x | x in UsedRefVars(t) :: x !in s.refVars)
  }

  ghost predicate ReadiedSeq(s: Subst, ts: seq<Type>) {
    && (forall v | v in UsedTVarsSeq(ts) :: v !in s.tvars)
    && (forall x | x in UsedRefVarsSeq(ts) :: x !in s.refVars)
  }

  /**
   * `ready_tvars`: substitutes every bound variable and resolved autoref
   * throughout the type. Unbound variables and unset autorefs remain, at the
   * end of their chains. A chain end revisited while substituting yields
   * the poison type; on an acyclic store that never happens
   * (`ReadyFollowsBinding`), while on a cyclic one, which the compiler's
   * syntactic occurs check does not exclude (`OccursCheckMissesCycle`), the
   * compiler would not terminate (`ReadyOnCycleIsPoisoned`).
   */
  function ReadyFrom(s: Subst, t: Type, visited: set<TVar>): (r: Type)
    ensures Readied(s, r)
    decreases s.tvars.Keys - visited, t
  {
    match t
    case UnresolvedError(_) => t
    case Unit(_) => t
    case Anything(_) => t
    case Param(_, _) => t
    case Ref(l, m, i) => Ref(l, m, ReadyFrom(s, i, visited))
    case Apply(l, k, n, tys) => Apply(l, k, n, ReadySeq(s, tys, visited))
    case Var(l, i) =>
      var last := ForwardTVar(s, i);
      if last !in s.tvars then Var(l, last)
      else if last in visited then UnresolvedError(l)
      else ReadyFrom(s, s.tvars[last], visited + {last})
    case Fun(l, args, res) => Fun(l, ReadySeq(s, args, visited), ReadyFrom(s, res, visited))
    case AutoRef(l, id, i) =>
      var x := ForwardRefVar(s, id);
      var ri := ReadyFrom(s, i, visited);
      if x !in s.refVars then AutoRef(l, x, ri)
      else match s.refVars[x]
        case Forward(_) => UnresolvedError(l)
        case Value => ri
        case ImmRef => Ref(l, false, ri)
        case MutRef => Ref(l, true, ri)
  }

  function ReadySeq(s: Subst, ts: seq<Type>, visited: set<TVar>): (r: seq<Type>)
    ensures |r| == |ts|
    ensures ReadiedSeq(s, r)
    decreases s.tvars.Keys - visited, ts
  {
    if |ts| == 0 then []
    else
      var h := ReadyFrom(s, ts[0], visited);
      var rest := ReadySeq(s, ts[1..], visited);
      assert ([h] + rest)[1..] == rest;
      [h] + rest
  }

  function ReadyTVars(s: Subst, t: Type): (r: Type)
    ensures Readied(s, r)
  {
    ReadyFrom(s, t, {})
  }

  /** Every bound variable of `vs` ranks below `bound`. */
  ghost predicate BoundBelow(s: Subst, rank: map<TVar, nat>, vs: set<TVar>, bound: nat) {
    forall i | i in vs && i in s.tvars :: i in rank && rank[i] < bound
  }

  /** Every visited chain end ranks at or above `bound`. */
  ghost predicate VisitedAbove(rank: map<TVar, nat>, visited: set<TVar>, bound: nat) {
    forall v | v in visited :: v in rank && rank[v] >= bound
  }

  /**
   * On a fully ranked store the chain ends recorded while readying rank
   * above everything still to be readied, so the record never stops the
   * walk: readying gives the same type whatever was visited before.
   */
  lemma {:induction false} ReadyIgnoresVisited(s: Subst, rank: map<TVar, nat>, t: Type, visited: set<TVar>, bound: nat)
    requires FullyRanked(s.tvars, rank)
    requires BoundBelow(s, rank, UsedTVars(t), bound)
    requires VisitedAbove(rank, visited, bound)
    ensures ReadyFrom(s, t, visited) == ReadyFrom(s, t, {})
    decreases bound, t
  {
    match t
    case Ref(l, m, i) => ReadyIgnoresVisited(s, rank, i, visited, bound);
    case Apply(l, k, n, tys) => ReadySeqIgnoresVisited(s, rank, tys, visited, bound);
    case Fun(l, args, res) =>
      ReadySeqIgnoresVisited(s, rank, args, visited, bound);
      ReadyIgnoresVisited(s, rank, res, visited, bound);
    case AutoRef(l, id, i) => ReadyIgnoresVisited(s, rank, i, visited, bound);
    case Var(l, i) =>
      var last := ForwardTVar(s, i);
      if last in s.tvars {
        FullyRankedRanksChains(s.tvars, rank);
        ForwardFromDescends(s.tvars, rank, i, {});
        assert i in UsedTVars(t);
        assert rank[last] < bound;
        var b := s.tvars[last];
        assert last !in visited;
        assert {} + {last} == {last};
        ReadyIgnoresVisited(s, rank, b, visited + {last}, rank[last]);
        ReadyIgnoresVisited(s, rank, b, {last}, rank[last]);
      }
    case _ =>
  }

  lemma {:induction false} ReadySeqIgnoresVisited(s: Subst, rank: map<TVar, nat>, ts: seq<Type>,
                                                  visited: set<TVar>, bound: nat)
    requires FullyRanked(s.tvars, rank)
    requires BoundBelow(s, rank, UsedTVarsSeq(ts), bound)
    requires VisitedAbove(rank, visited, bound)
    ensures ReadySeq(s, ts, visited) == ReadySeq(s, ts, {})
    decreases bound, ts
  {
    if |ts| > 0 {
      ReadyIgnoresVisited(s, rank, ts[0], visited, bound);
      ReadySeqIgnoresVisited(s, rank, ts[1..], visited, bound);
    }
  }

  /**
   * On an acyclic store readying a variable is readying the type at the end
   * of its chain, the compiler's own recursion: the poison stop is never
   * taken.
   */
  lemma ReadyFollowsBinding(s: Subst, l: Loc, i: TVar)
    requires Acyclic(s.tvars)
    ensures var last := ForwardTVar(s, i);
            && (last !in s.tvars ==> ReadyTVars(s, Var(l, i)) == Var(l, last))
            && (last in s.tvars ==> ReadyTVars(s, Var(l, i)) == ReadyTVars(s, s.tvars[last]))
  {
    var last := ForwardTVar(s, i);
    if last in s.tvars {
      var rank :| FullyRanked(s.tvars, rank);
      assert {} + {last} == {last};
      ReadyIgnoresVisited(s, rank, s.tvars[last], {last}, rank[last]);
    }
  }

  /** The store `OccursCheckMissesCycle` ends in: `1 -> 3 -> vector<1>`. */
  function CycleStore(): map<TVar, Type> {
    map[1 := Var(0, 3), 2 := Var(0, 3), 3 := Apply(0, None, Builtin(Vector), [Var(0, 1)])]
  }

  /**
   * The binder's occurs check only looks at the variables written in the
   * type, not through the store, so a join can close a cycle: with `2`
   * bound to `vector<1>` in an acyclic store, joining `1` with `2` binds the
   * fresh variable `3` to `vector<1>` and forwards `1` to it.
   */
  lemma OccursCheckMissesCycle()
    ensures var s := Subst(map[2 := Apply(0, None, Builtin(Vector), [Var(0, 1)])], map[], map[], 3, 0);
            var r := JoinImpl(s, Join, Var(0, 1), Var(0, 2), 5);
            && Acyclic(s.tvars)
            && r.Ok? && r.value.0.tvars == CycleStore()
            && !Acyclic(CycleStore())
  {
    var vec := Apply(0, None, Builtin(Vector), [Var(0, 1)]);
    var s := Subst(map[2 := vec], map[], map[], 3, 0);
    assert UsedTVars(vec) == {1};
    assert FullyRanked(s.tvars, map[1 := 0, 2 := 1]);
    assert RankedChains(s.tvars, map[]);
    var m := CycleStore();
    var r := JoinImpl(s, Join, Var(0, 1), Var(0, 2), 5);
    assert ForwardTVar(s, 1) == 1;
    assert ForwardTVar(s, 2) == 2;
    assert r.Ok? && r.value.0.tvars == m;
    assert 3 in UsedTVars(m[1]) && 1 in UsedTVars(m[3]);
    if rank :| FullyRanked(m, rank) {
      assert false;
    }
  }

  /**
   * On that cyclic store the compiler's `ready_tvars` of `1` would not
   * terminate; the model stops at the revisited chain end with the poison
   * type.
   */
  lemma ReadyOnCycleIsPoisoned(s: Subst)
    requires s.tvars == CycleStore()
    ensures ReadyTVars(s, Var(0, 1)) == Apply(0, None, Builtin(Vector), [UnresolvedError(0)])
  {
    var m := CycleStore();
    assert ForwardFrom(m, 3, {1}) == 3;
    assert {} + {1} == {1};
    assert ForwardFrom(m, 1, {}) == ForwardFrom(m, 3, {1});
    assert ForwardTVar(s, 1) == 3;
    assert {} + {3} == {3};
    assert ReadyFrom(s, Var(0, 1), {3}) == UnresolvedError(0);
    assert ReadySeq(s, [Var(0, 1)], {3}) == [UnresolvedError(0)];
    assert ReadyFrom(s, Var(0, 1), {}) == ReadyFrom(s, m[3], {3});
  }

  /** Unfolding reaches a concrete head: variables end bound, autorefs are resolved, recursively. */
  ghost predicate HeadResolved(s: Subst, t: Type)
    decreases t
  {
    match t
    case Var(_, i) => ForwardTVar(s, i) in s.tvars
    case AutoRef(_, x, inner) => RefKindOf(s, x).Some? && HeadResolved(s, inner)
    case _ => true
  }

  /**
   * On an acyclic store, unfolding a type whose head is resolved does not
   * change what it stands for: readying the unfolding is readying the type.
   */
  lemma {:induction false} ReadyAfterUnfold(s: Subst, t: Type)
    requires Acyclic(s.tvars)
    requires HeadResolved(s, t)
    ensures ReadyTVars(s, UnfoldType(s, t)) == ReadyTVars(s, t)
    decreases t
  {
    match t
    case Var(l, i) => ReadyFollowsBinding(s, l, i);
    case AutoRef(l, x, inner) =>
      ReadyAfterUnfold(s, inner);
      UnfoldAutorefRealizes(s, l, x, inner);
    case _ =>
  }

  /** A type that is already readied is left unchanged. */
  lemma {:induction false} ReadyFixesReadied(s: Subst, t: Type, visited: set<TVar>)
    requires Readied(s, t)
    ensures ReadyFrom(s, t, visited) == t
    decreases t
  {
    match t
    case Ref(l, m, i) => ReadyFixesReadied(s, i, visited);
    case Apply(l, k, n, tys) => ReadySeqFixesReadied(s, tys, visited);
    case Fun(l, args, res) =>
      ReadySeqFixesReadied(s, args, visited);
      ReadyFixesReadied(s, res, visited);
    case AutoRef(l, id, i) => ReadyFixesReadied(s, i, visited);
    case _ =>
  }

  lemma {:induction false} ReadySeqFixesReadied(s: Subst, ts: seq<Type>, visited: set<TVar>)
    requires ReadiedSeq(s, ts)
    ensures ReadySeq(s, ts, visited) == ts
    decreases ts
  {
    if |ts| > 0 {
      ReadyFixesReadied(s, ts[0], visited);
      ReadySeqFixesReadied(s, ts[1..], visited);
      assert [ts[0]] + ts[1..] == ts;
    }
  }

  /** Readying is idempotent. */
  lemma ReadyIdempotent(s: Subst, t: Type)
    ensures ReadyTVars(s, ReadyTVars(s, t)) == ReadyTVars(s, t)
  {
    ReadyFixesReadied(s, ReadyTVars(s, t), {});
  }

  // ---------------------------------------------------------------------------
  // Type-parameter substitution
  // ---------------------------------------------------------------------------

  type TParamSubst = map<TParamId, Type>

  predicate DistinctIds(tps: seq<TParam>) {
    forall i, j | 0 <= i < j < |tps| :: tps[i].id != tps[j].id
  }

  /** `make_tparam_subst`: pairs each declared parameter with its argument. */
  function MakeTParamSubst(tps: seq<TParam>, args: seq<Type>): (r: TParamSubst)
    requires |tps| == |args|
    requires DistinctIds(tps)
    ensures r.Keys == set i | 0 <= i < |tps| :: tps[i].id
    ensures forall i | 0 <= i < |tps| :: r[tps[i].id] == args[i]
    decreases |tps|
  {
    if |tps| == 0 then map[]
    else
      var rest := MakeTParamSubst(tps[1..], args[1..]);
      assert forall i | 1 <= i < |tps| :: tps[i] == tps[1..][i - 1];
      rest[tps[0].id := args[0]]
  }

  /** Contains neither inference variables nor autorefs (a declared signature type). */
  predicate NoInferenceVars(t: Type) {
    UsedTVars(t) == {} && UsedRefVars(t) == {}
  }

  /**
   * `subst_tparams`: replaces each parameter by its argument. The type must
   * come from a declaration (no variables, no autorefs) and every parameter
   * in it must be mapped; both are internal errors in the compiler.
   */
  function SubstTParams(sub: TParamSubst, t: Type): (r: Type)
    requires NoInferenceVars(t)
    requires ParamIds(t) <= sub.Keys
    ensures forall q | q in ParamIds(r) :: exists p | p in ParamIds(t) :: q in ParamIds(sub[p])
    decreases t
  {
    match t
    case Unit(_) => t
    case UnresolvedError(_) => t
    case Anything(_) => t
    case Ref(l, m, i) => Ref(l, m, SubstTParams(sub, i))
    case Param(_, tp) => sub[tp.id]
    case Apply(l, k, n, tys) => Apply(l, k, n, SubstSeq(sub, tys))
    case Fun(l, args, res) =>
      var a := SubstSeq(sub, args);
      var b := SubstTParams(sub, res);
      assert forall q | q in ParamIds(b) :: exists p | p in ParamIds(t) :: q in ParamIds(sub[p]);
      Fun(l, a, b)
  }

  function SubstSeq(sub: TParamSubst, ts: seq<Type>): (r: seq<Type>)
    requires UsedTVarsSeq(ts) == {} && UsedRefVarsSeq(ts) == {}
    requires ParamIdsSeq(ts) <= sub.Keys
    ensures |r| == |ts|
    ensures forall q | q in ParamIdsSeq(r) :: exists p | p in ParamIdsSeq(ts) :: q in ParamIds(sub[p])
    decreases ts
  {
    if |ts| == 0 then []
    else
      var h := SubstTParams(sub, ts[0]);
      var rest := SubstSeq(sub, ts[1..]);
      assert ([h] + rest)[1..] == rest;
      [h] + rest
  }

  /** Instantiating a declared parameter yields exactly its argument. */
  lemma SubstInstantiatesParam(tps: seq<TParam>, args: seq<Type>, i: nat, l: Loc)
    requires |tps| == |args| && DistinctIds(tps) && i < |tps|
    ensures SubstTParams(MakeTParamSubst(tps, args), Param(l, tps[i])) == args[i]
  {
  }

  /** A type without parameters is unchanged by any substitution. */
  lemma {:induction false} SubstParamFreeIsIdentity(sub: TParamSubst, t: Type)
    requires NoInferenceVars(t) && ParamIds(t) == {}
    ensures SubstTParams(sub, t) == t
    decreases t
  {
    match t
    case Ref(l, m, i) => SubstParamFreeIsIdentity(sub, i);
    case Apply(l, k, n, tys) => SubstSeqParamFreeIsIdentity(sub, tys);
    case Fun(l, args, res) =>
      SubstSeqParamFreeIsIdentity(sub, args);
      SubstParamFreeIsIdentity(sub, res);
    case _ =>
  }

  lemma {:induction false} SubstSeqParamFreeIsIdentity(sub: TParamSubst, ts: seq<Type>)
    requires UsedTVarsSeq(ts) == {} && UsedRefVarsSeq(ts) == {} && ParamIdsSeq(ts) == {}
    ensures SubstSeq(sub, ts) == ts
    decreases ts
  {
    if |ts| > 0 {
      SubstParamFreeIsIdentity(sub, ts[0]);
      SubstSeqParamFreeIsIdentity(sub, ts[1..]);
      assert [ts[0]] + ts[1..] == ts;
    }
  }

  // ---------------------------------------------------------------------------
  // give_tparams_all_abilities
  // ---------------------------------------------------------------------------

  /**
   * `give_tparams_all_abilities`: every type parameter of a macro signature
   * becomes `Anything` (so its constraints are only checked at expansion).
   * Macro signatures contain no autorefs (an internal error otherwise).
   */
  function GiveTParamsAllAbilities(t: Type): (r: Type)
    requires UsedRefVars(t) == {}
    ensures ParamIds(r) == {}
    ensures UsedTVars(r) == UsedTVars(t) && UsedRefVars(r) == {}
    decreases t
  {
    match t
    case Unit(_) => t
    case Var(_, _) => t
    case UnresolvedError(_) => t
    case Anything(_) => t
    case Ref(l, m, i) => Ref(l, m, GiveTParamsAllAbilities(i))
    case Apply(l, k, n, tys) => Apply(l, k, n, GiveSeq(tys))
    case Fun(l, args, res) => Fun(l, GiveSeq(args), GiveTParamsAllAbilities(res))
    case Param(l, _) => Anything(l)
  }

  function GiveSeq(ts: seq<Type>): (r: seq<Type>)
    requires UsedRefVarsSeq(ts) == {}
    ensures |r| == |ts|
    ensures ParamIdsSeq(r) == {}
    ensures UsedTVarsSeq(r) == UsedTVarsSeq(ts) && UsedRefVarsSeq(r) == {}
    decreases ts
  {
    if |ts| == 0 then []
    else
      var h := GiveTParamsAllAbilities(ts[0]);
      var rest := GiveSeq(ts[1..]);
      assert ([h] + rest)[1..] == rest;
      [h] + rest
  }

  /** Erasing parameters leaves a parameter-free type unchanged, so erasure is idempotent. */
  lemma {:induction false} GiveParamFreeIsIdentity(t: Type)
    requires UsedRefVars(t) == {} && ParamIds(t) == {}
    ensures GiveTParamsAllAbilities(t) == t
    decreases t
  {
    match t
    case Ref(l, m, i) => GiveParamFreeIsIdentity(i);
    case Apply(l, k, n, tys) => GiveSeqParamFreeIsIdentity(tys);
    case Fun(l, args, res) =>
      GiveSeqParamFreeIsIdentity(args);
      GiveParamFreeIsIdentity(res);
    case _ =>
  }

  lemma {:induction false} GiveSeqParamFreeIsIdentity(ts: seq<Type>)
    requires UsedRefVarsSeq(ts) == {} && ParamIdsSeq(ts) == {}
    ensures GiveSeq(ts) == ts
    decreases ts
  {
    if |ts| > 0 {
      GiveParamFreeIsIdentity(ts[0]);
      GiveSeqParamFreeIsIdentity(ts[1..]);
      assert [ts[0]] + ts[1..] == ts;
    }
  }

  lemma GiveIdempotent(t: Type)
    requires UsedRefVars(t) == {}
    ensures GiveTParamsAllAbilities(GiveTParamsAllAbilities(t)) == GiveTParamsAllAbilities(t)
  {
    GiveParamFreeIsIdentity(GiveTParamsAllAbilities(t));
  }
}

=== FILE: scopes.dfy ===
/**
 * The stack of `use fun` scopes: method aliases visible while typing a
 * body. Frames carry a colour (the macro-expansion hygiene colour, `None`
 * for the global frame) and a reference count so that empty scopes of the
 * current colour do not grow the stack.
 */
module UseFunScopes {
  import opened Wrappers
  import opened Types

  datatype UseFunKind = Explicit | UseAlias | FunctionDeclaration

  /** The function a method alias resolves to. */
  datatype FunTarget = FunTarget(mident: ModuleIdent, fname: FunctionName)

  datatype UseFun = UseFun(loc: Loc, kind: UseFunKind, target: FunTarget, used: bool)

  /** Method aliases by receiver type name, then by method name. */
  type MethodTable = map<TypeName, map<Symbol, UseFun>>

  datatype UseFunsScope = UseFunsScope(color: Option<Color>, count: nat, useFuns: MethodTable)

  /** A scope as the naming pass hands it over, and as a pop hands it back. */
  datatype UseFuns = UseFuns(color: Color, resolved: MethodTable)

  type ScopeStack = seq<UseFunsScope>

  function Top(st: ScopeStack): UseFunsScope
    requires |st| > 0
  {
    st[|st| - 1]
  }

  /**
   * Function declarations never reach this stack: reporting one as unused
   * when its frame is removed is an internal error.
   */
  predicate NoUnusedDeclarationAliases(t: MethodTable) {
    forall tn, m | tn in t && m in t[tn] && !t[tn][m].used :: t[tn][m].kind != FunctionDeclaration
  }

  /** What `pop_use_funs_scope` demands: only removing the frame reports its unused aliases. */
  predicate CanPop(st: ScopeStack)
    requires |st| > 0
  {
    Top(st).count <= 1 ==> NoUnusedDeclarationAliases(Top(st).useFuns)
  }

  /** The aliases a pop reports as unused, by receiver type and method name. */
  function UnusedAliases(t: MethodTable): set<(TypeName, Symbol)> {
    set tn, m | tn in t && m in t[tn] && !t[tn][m].used :: (tn, m)
  }

  /**
   * `add_use_funs_scope`: an empty scope of the top frame's colour only
   * bumps that frame's count; anything else is pushed as a new frame.
   */
  function AddUseFunsScope(st: ScopeStack, nu: UseFuns): (r: ScopeStack)
    requires |st| > 0
    ensures |st| <= |r| && r[..|st| - 1] == st[..|st| - 1]
    ensures nu.resolved == map[] && Top(st).color == Some(nu.color) ==>
              |r| == |st| && Top(r) == Top(st).(count := Top(st).count + 1)
    ensures !(nu.resolved == map[] && Top(st).color == Some(nu.color)) ==>
              |r| == |st| + 1 && r[..|st|] == st && Top(r) == UseFunsScope(Some(nu.color), 1, nu.resolved)
  {
    var cur := Top(st);
    if nu.resolved == map[] && cur.color == Some(nu.color) then
      st[..|st| - 1] + [cur.(count := cur.count + 1)]
    else
      st + [UseFunsScope(Some(nu.color), 1, nu.resolved)]
  }

  /** Every frame on the stack holds at least one reference. */
  predicate WellFormed(st: ScopeStack) {
    forall i | 0 <= i < |st| :: st[i].count >= 1
  }

  lemma AddKeepsWellFormed(st: ScopeStack, nu: UseFuns)
    requires |st| > 0 && WellFormed(st)
    ensures WellFormed(AddUseFunsScope(st, nu))
  {
  }

  datatype PopResult = PopResult(stack: ScopeStack, popped: UseFuns, unused: set<(TypeName, Symbol)>)

  /**
   * `pop_use_funs_scope`: a shared frame only loses one reference and
   * yields an empty scope; the last reference removes the frame, hands its
   * aliases back and reports those never used.
   */
  function PopUseFunsScope(st: ScopeStack): (r: PopResult)
    requires |st| > 0
    requires CanPop(st)
    ensures r.popped.color == Top(st).color.GetOr(0)
    ensures Top(st).count > 1 ==>
              && |r.stack| == |st| && r.stack[..|st| - 1] == st[..|st| - 1]
              && Top(r.stack) == Top(st).(count := Top(st).count - 1)
              && r.popped.resolved == map[] && r.unused == {}
    ensures Top(st).count <= 1 ==>
              && r.stack == st[..|st| - 1] && r.popped.resolved == Top(st).useFuns
              && (forall tn, m :: (tn, m) in r.unused <==>
                    tn in Top(st).useFuns && m in Top(st).useFuns[tn] && !Top(st).useFuns[tn][m].used)
  {
    var cur := Top(st);
    var color := cur.color.GetOr(0);
    if cur.count > 1 then
      PopResult(st[..|st| - 1] + [cur.(count := cur.count - 1)], UseFuns(color, map[]), {})
    else
      PopResult(st[..|st| - 1], UseFuns(color, cur.useFuns), UnusedAliases(cur.useFuns))
  }

  lemma PopKeepsWellFormed(st: ScopeStack)
    requires |st| > 0 && WellFormed(st) && CanPop(st)
    ensures WellFormed(PopUseFunsScope(st).stack)
  {
  }

  /**
   * Adding a scope and popping it again restores the stack and hands back
   * the scope that was added, whichever of the two shapes the add took.
   */
  lemma AddThenPopRestores(st: ScopeStack, nu: UseFuns)
    requires |st| > 0 && WellFormed(st)
    requires NoUnusedDeclarationAliases(nu.resolved)
    ensures CanPop(AddUseFunsScope(st, nu))
    ensures var r := PopUseFunsScope(AddUseFunsScope(st, nu));
            r.stack == st && r.popped == nu && r.unused == UnusedAliases(nu.resolved)
  {
    var added := AddUseFunsScope(st, nu);
    if nu.resolved == map[] && Top(st).color == Some(nu.color) {
      assert Top(added).count > 1;
      assert PopUseFunsScope(added).stack == st[..|st| - 1] + [Top(st)];
      assert st[..|st| - 1] + [Top(st)] == st;
      assert UnusedAliases(nu.resolved) == {};
    } else {
      assert added[..|added| - 1] == st;
    }
  }

  /** Global frames (no colour) are always searched; coloured frames only under the top frame's colour. */
  predicate Visible(frame: UseFunsScope, current: Option<Color>) {
    frame.color.None? || frame.color == current
  }

  /** Frame `j` is visible from the top and declares `tn.m`. */
  predicate Candidate(st: ScopeStack, j: nat, tn: TypeName, m: Symbol)
    requires j < |st|
  {
    Visible(st[j], Top(st).color) && tn in st[j].useFuns && m in st[j].useFuns[tn]
  }

  /** Frame `idx` is the innermost visible frame declaring `tn.m`. */
  predicate Resolves(st: ScopeStack, tn: TypeName, m: Symbol, idx: nat) {
    && idx < |st|
    && Candidate(st, idx, tn, m)
    && forall j | idx < j < |st| :: !Candidate(st, j, tn, m)
  }

  /** Scans frames `i - 1` down to `0` for the first candidate. */
  function FindFrom(st: ScopeStack, tn: TypeName, m: Symbol, i: nat): (r: Option<nat>)
    requires 0 < |st| && i <= |st|
    ensures r.Some? ==> r.value < i && Candidate(st, r.value, tn, m)
                        && forall j | r.value < j < i :: !Candidate(st, j, tn, m)
    ensures r.None? <==> forall j | 0 <= j < i :: !Candidate(st, j, tn, m)
    decreases i
  {
    if i == 0 then None
    else if Candidate(st, i - 1, tn, m) then Some(i - 1)
    else FindFrom(st, tn, m, i - 1)
  }

  function MarkUsed(frame: UseFunsScope, tn: TypeName, m: Symbol): UseFunsScope
    requires tn in frame.useFuns && m in frame.useFuns[tn]
  {
    var methods := frame.useFuns[tn];
    frame.(useFuns := frame.useFuns[tn := methods[m := methods[m].(used := true)]])
  }

  /**
   * `find_method_and_mark_used`: the innermost visible alias for `tn.m`
   * is marked used and its target returned; with none, nothing changes.
   */
  function FindMethodAndMarkUsed(st: ScopeStack, tn: TypeName, m: Symbol): (r: (ScopeStack, Option<FunTarget>))
    requires |st| > 0
    ensures r.1.None? <==> forall j | 0 <= j < |st| :: !Candidate(st, j, tn, m)
    ensures r.1.None? ==> r.0 == st
    ensures r.1.Some? ==> exists idx: nat :: Resolves(st, tn, m, idx)
                                        && r.1.value == st[idx].useFuns[tn][m].target
                                        && r.0 == st[idx := MarkUsed(st[idx], tn, m)]
  {
    match FindFrom(st, tn, m, |st|)
    case None => (st, None)
    case Some(idx) =>
      assert Resolves(st, tn, m, idx);
      (st[idx := MarkUsed(st[idx], tn, m)], Some(st[idx].useFuns[tn][m].target))
  }

  /** Marking an alias used keeps every frame's colour, count and declared aliases. */
  lemma MarkUsedKeepsShape(frame: UseFunsScope, tn: TypeName, m: Symbol)
    requires tn in frame.useFuns && m in frame.useFuns[tn]
    ensures var f' := MarkUsed(frame, tn, m);
            && f'.color == frame.color && f'.count == frame.count
            && f'.useFuns.Keys == frame.useFuns.Keys
            && (forall t | t in frame.useFuns :: f'.useFuns[t].Keys == frame.useFuns[t].Keys)
            && f'.useFuns[tn][m] == frame.useFuns[tn][m].(used := true)
  {
  }

  lemma MarkUsedIdempotent(frame: UseFunsScope, tn: TypeName, m: Symbol)
    requires tn in frame.useFuns && m in frame.useFuns[tn]
    ensures MarkUsed(MarkUsed(frame, tn, m), tn, m) == MarkUsed(frame, tn, m)
  {
    var f1 := MarkUsed(frame, tn, m);
    var methods := f1.useFuns[tn];
    assert methods[m].used;
    assert methods[m := methods[m].(used := true)] == methods;
    assert f1.useFuns[tn := methods] == f1.useFuns;
  }

  /** Looking a method up a second time finds the same alias and changes nothing more. */
  lemma FindMethodIdempotent(st: ScopeStack, tn: TypeName, m: Symbol)
    requires |st| > 0
    ensures var r := FindMethodAndMarkUsed(st, tn, m);
            var r2 := FindMethodAndMarkUsed(r.0, tn, m);
            |r.0| == |st| && r2 == (r.0, r.1)
  {
    match FindFrom(st, tn, m, |st|)
    case None =>
    case Some(idx) =>
      var st' := st[idx := MarkUsed(st[idx], tn, m)];
      MarkUsedKeepsShape(st[idx], tn, m);
      assert Top(st').color == Top(st).color;
      assert Candidate(st', idx, tn, m);
      forall j | idx < j < |st'| ensures !Candidate(st', j, tn, m) {
        assert st'[j] == st[j];
        assert !Candidate(st, j, tn, m);
      }
      var k := FindFrom(st', tn, m, |st'|);
      assert k == Some(idx);
      MarkUsedIdempotent(st[idx], tn, m);
      assert st'[idx := st'[idx]] == st';
  }
}

=== FILE: subst.dfy ===
/**
 * The substitution store: bindings of type variables, the set of
 * numeric-flagged variables, and the kinds of reference variables, plus
 * the fresh-id counters that stand in for the compiler's global
 * `TVar::next()` / `RefVar::next()`.
 *
 * The chain followers carry the set of variables already visited and stop
 * at the first revisit. The compiler's loops would not terminate on a
 * cyclic table; the lemmas below show that on a table whose chains are
 * ranked (no `Var`/`Forward` cycle) no revisit ever happens.
 */
module Substitution {
  import opened Wrappers
  import opened Types

  datatype RefKind = Value | ImmRef | MutRef | Forward(next: RefVar)

  datatype Subst = Subst(
    tvars: map<TVar, Type>,
    numVars: map<TVar, Loc>,
    refVars: map<RefVar, RefKind>,
    nextTVar: TVar,
    nextRefVar: RefVar)

  function Empty(nextTVar: TVar, nextRefVar: RefVar): Subst {
    Subst(map[], map[], map[], nextTVar, nextRefVar)
  }

  predicate IsNumVar(s: Subst, v: TVar) {
    v in s.numVars
  }

  /**
   * Every id the store mentions is below its counters: bound and numeric
   * variables, the variables their bindings mention, set reference
   * variables and the targets they forward to.
   */
  ghost predicate CountersFresh(s: Subst) {
    && (forall v | v in s.tvars :: v < s.nextTVar)
    && (forall v, w | v in s.tvars && w in UsedTVars(s.tvars[v]) :: w < s.nextTVar)
    && (forall v | v in s.numVars :: v < s.nextTVar)
    && (forall x | x in s.refVars :: x < s.nextRefVar)
    && (forall x | x in s.refVars && s.refVars[x].Forward? :: s.refVars[x].next < s.nextRefVar)
  }

  /**
   * `TVar::next()`: a type variable no binding, numeric flag or binding's
   * contents mention yet; only the counter moves.
   */
  function FreshTVar(s: Subst): (r: (TVar, Subst))
    ensures r.0 == s.nextTVar && r.0 < r.1.nextTVar
    ensures r.1.tvars == s.tvars && r.1.numVars == s.numVars && r.1.refVars == s.refVars
    ensures r.1.nextRefVar == s.nextRefVar
    ensures CountersFresh(s) ==>
              && r.0 !in s.tvars && r.0 !in s.numVars && CountersFresh(r.1)
              && forall v | v in s.tvars :: r.0 !in UsedTVars(s.tvars[v])
  {
    (s.nextTVar, s.(nextTVar := s.nextTVar + 1))
  }

  /** `RefVar::next()`: a reference variable that is neither set nor forwarded to yet; only the counter moves. */
  function FreshRefVar(s: Subst): (r: (RefVar, Subst))
    ensures r.0 == s.nextRefVar && r.0 < r.1.nextRefVar
    ensures r.1.tvars == s.tvars && r.1.numVars == s.numVars && r.1.refVars == s.refVars
    ensures r.1.nextTVar == s.nextTVar
    ensures CountersFresh(s) ==>
              && r.0 !in s.refVars && CountersFresh(r.1)
              && forall x | x in s.refVars && s.refVars[x].Forward? :: s.refVars[x].next != r.0
  {
    (s.nextRefVar, s.(nextRefVar := s.nextRefVar + 1))
  }

  /** `new_num_var`: a fresh variable flagged numeric at `loc`. */
  function NewNumVar(s: Subst, loc: Loc): (r: (TVar, Subst))
    requires s.nextTVar !in s.numVars
    ensures IsNumVar(r.1, r.0) && r.1.numVars[r.0] == loc
    ensures r.1.tvars == s.tvars && r.1.refVars == s.refVars
    ensures r.1.numVars.Keys == s.numVars.Keys + {r.0}
    ensures CountersFresh(s) ==> CountersFresh(r.1) && r.0 !in s.tvars && r.0 !in r.1.tvars
  {
    var (v, s1) := FreshTVar(s);
    (v, s1.(numVars := s1.numVars[v := loc]))
  }

  // ---------------------------------------------------------------------------
  // Type-variable chains
  // ---------------------------------------------------------------------------

  predicate VarBound(m: map<TVar, Type>, v: TVar) {
    v in m && m[v].Var?
  }

  /** Follows `v -> Var(w)` bindings; `visited` guards against cycles. */
  function ForwardFrom(m: map<TVar, Type>, id: TVar, visited: set<TVar>): TVar
    decreases m.Keys - visited
  {
    if VarBound(m, id) && id !in visited then
      ForwardFrom(m, m[id].tvar, visited + {id})
    else
      id
  }

  /** `forward_tvar`: the last variable of the chain starting at `id`. */
  function ForwardTVar(s: Subst, id: TVar): (r: TVar)
    ensures r == id || VarBound(s.tvars, id)
    ensures r in Chain(s, id)
  {
    ForwardFromOnChain(s.tvars, id, {});
    ForwardFrom(s.tvars, id, {})
  }

  /** A rank that strictly decreases along every `Var` binding. */
  ghost predicate RankedChains(m: map<TVar, Type>, rank: map<TVar, nat>) {
    forall v | v in m && m[v].Var? :: v in rank && m[v].tvar in rank && rank[m[v].tvar] < rank[v]
  }

  /** The store's `Var`-to-`Var` chains contain no cycle. */
  ghost predicate ChainsTerminate(m: map<TVar, Type>) {
    exists rank :: RankedChains(m, rank)
  }

  lemma {:induction false} ForwardFromEnds(m: map<TVar, Type>, rank: map<TVar, nat>, id: TVar, visited: set<TVar>)
    requires RankedChains(m, rank)
    requires VarBound(m, id) ==> forall v | v in visited :: v in rank && rank[id] < rank[v]
    ensures !VarBound(m, ForwardFrom(m, id, visited))
    decreases m.Keys - visited
  {
    if VarBound(m, id) {
      var next := m[id].tvar;
      assert id !in visited;
      if VarBound(m, next) {
        forall v | v in visited + {id}
          ensures v in rank && rank[next] < rank[v]
        {
        }
      }
      ForwardFromEnds(m, rank, next, visited + {id});
    }
  }

  /** On an acyclic store, `forward_tvar` ends at a variable that is unbound or bound to a non-variable. */
  lemma ForwardTVarEnds(s: Subst, id: TVar)
    requires ChainsTerminate(s.tvars)
    ensures !VarBound(s.tvars, ForwardTVar(s, id))
  {
    var rank :| RankedChains(s.tvars, rank);
    ForwardFromEnds(s.tvars, rank, id, {});
  }

  /** Forwarding is idempotent on an acyclic store. */
  lemma ForwardTVarIdempotent(s: Subst, id: TVar)
    requires ChainsTerminate(s.tvars)
    ensures ForwardTVar(s, ForwardTVar(s, id)) == ForwardTVar(s, id)
  {
    ForwardTVarEnds(s, id);
  }

  /** A variable that is not bound to a variable forwards to itself. */
  lemma ForwardTVarStops(s: Subst, id: TVar)
    requires !VarBound(s.tvars, id)
    ensures ForwardTVar(s, id) == id
  {
  }

  /** The variables the walk of `forward_tvar` passes through, its end included. */
  function ChainFrom(m: map<TVar, Type>, id: TVar, visited: set<TVar>): set<TVar>
    decreases m.Keys - visited
  {
    if VarBound(m, id) && id !in visited then {id} + ChainFrom(m, m[id].tvar, visited + {id})
    else {id}
  }

  function Chain(s: Subst, id: TVar): set<TVar> {
    ChainFrom(s.tvars, id, {})
  }

  /** The end of the walk lies on the chain. */
  lemma {:induction false} ForwardFromOnChain(m: map<TVar, Type>, id: TVar, visited: set<TVar>)
    ensures id in ChainFrom(m, id, visited)
    ensures ForwardFrom(m, id, visited) in ChainFrom(m, id, visited)
    decreases m.Keys - visited
  {
    if VarBound(m, id) && id !in visited {
      ForwardFromOnChain(m, m[id].tvar, visited + {id});
    }
  }

  /**
   * `set_num_var`: flags every variable on the chain from `tvar` as numeric
   * at `loc`, keeping the location of those already flagged; no other
   * variable gains a flag.
   */
  function SetNumVarFrom(s: Subst, tvar: TVar, loc: Loc, visited: set<TVar>): (r: Subst)
    ensures r.tvars == s.tvars && r.refVars == s.refVars
    ensures r.nextTVar == s.nextTVar && r.nextRefVar == s.nextRefVar
    ensures IsNumVar(r, tvar)
    ensures forall v | v in s.numVars :: v in r.numVars && r.numVars[v] == s.numVars[v]
    ensures forall v :: v in r.numVars <==> v in s.numVars || v in ChainFrom(s.tvars, tvar, visited)
    ensures forall v | v in r.numVars && v !in s.numVars :: r.numVars[v] == loc
    decreases s.tvars.Keys - visited
  {
    var s1 := if tvar in s.numVars then s else s.(numVars := s.numVars[tvar := loc]);
    if VarBound(s1.tvars, tvar) && tvar !in visited then
      SetNumVarFrom(s1, s1.tvars[tvar].tvar, loc, visited + {tvar})
    else
      s1
  }

  function SetNumVar(s: Subst, tvar: TVar, loc: Loc): (r: Subst)
    ensures r.tvars == s.tvars && r.refVars == s.refVars
    ensures r.nextTVar == s.nextTVar && r.nextRefVar == s.nextRefVar
    ensures forall v | v in s.numVars :: v in r.numVars && r.numVars[v] == s.numVars[v]
    ensures forall v :: v in r.numVars <==> v in s.numVars || v in Chain(s, tvar)
    ensures forall v | v in r.numVars && v !in s.numVars :: r.numVars[v] == loc
  {
    SetNumVarFrom(s, tvar, loc, {})
  }

  /**
   * After `set_num_var` the variable and the end of its chain are numeric,
   * which is what `is_num_var` is asked of in the numeric check.
   */
  lemma SetNumVarFlagsChainEnd(s: Subst, tvar: TVar, loc: Loc)
    ensures IsNumVar(SetNumVar(s, tvar, loc), tvar)
    ensures IsNumVar(SetNumVar(s, tvar, loc), ForwardTVar(s, tvar))
  {
    ForwardFromOnChain(s.tvars, tvar, {});
  }

  /** Flagging a variable that is not bound to a variable flags it alone. */
  lemma SetNumVarUnboundFlagsOne(s: Subst, tvar: TVar, loc: Loc)
    requires !VarBound(s.tvars, tvar)
    ensures SetNumVar(s, tvar, loc).numVars.Keys == s.numVars.Keys + {tvar}
  {
  }

  /**
   * A rank that strictly decreases from every bound variable to every
   * variable its binding mentions, not only along `Var` bindings.
   */
  ghost predicate FullyRanked(m: map<TVar, Type>, rank: map<TVar, nat>) {
    && (forall v | v in m :: v in rank)
    && (forall v, w | v in m && w in UsedTVars(m[v]) :: w in rank && rank[w] < rank[v])
  }

  /** No variable is bound, directly or through other bindings, to a type mentioning itself. */
  ghost predicate Acyclic(m: map<TVar, Type>) {
    exists rank :: FullyRanked(m, rank)
  }

  lemma FullyRankedRanksChains(m: map<TVar, Type>, rank: map<TVar, nat>)
    requires FullyRanked(m, rank)
    ensures RankedChains(m, rank)
  {
    forall v | v in m && m[v].Var?
      ensures v in rank && m[v].tvar in rank && rank[m[v].tvar] < rank[v]
    {
      var w := m[v].tvar;
      assert UsedTVars(m[v]) == {w};
      assert w in UsedTVars(m[v]);
      assert v in rank && w in rank && rank[w] < rank[v];
    }
  }

  /** Walking a chain never climbs in rank: its end is the start or ranks below it. */
  lemma {:induction false} ForwardFromDescends(m: map<TVar, Type>, rank: map<TVar, nat>, id: TVar, visited: set<TVar>)
    requires RankedChains(m, rank)
    ensures var e := ForwardFrom(m, id, visited);
            e == id || (id in rank && e in rank && rank[e] < rank[id])
    decreases m.Keys - visited
  {
    if VarBound(m, id) && id !in visited {
      ForwardFromDescends(m, rank, m[id].tvar, visited + {id});
    }
  }

  /** A chain that starts below a bound ends below it, when every binding mentions only ids below it. */
  lemma {:induction false} ForwardFromBelow(m: map<TVar, Type>, id: TVar, visited: set<TVar>, bound: nat)
    requires id < bound
    requires forall v, w | v in m && w in UsedTVars(m[v]) :: w < bound
    ensures ForwardFrom(m, id, visited) < bound
    decreases m.Keys - visited
  {
    if VarBound(m, id) && id !in visited {
      assert m[id].tvar in UsedTVars(m[id]);
      ForwardFromBelow(m, m[id].tvar, visited + {id}, bound);
    }
  }

  /**
   * Redirecting the end `e` of an acyclic chain to a variable `nv` that is
   * not itself bound to a variable makes the whole chain forward to `nv`,
   * provided every `Var` binding of the chain is kept.
   */
  lemma {:induction false} ForwardFromRedirect(m: map<TVar, Type>, m': map<TVar, Type>, rank: map<TVar, nat>,
                                               id: TVar, visited: set<TVar>, nv: TVar)
    requires RankedChains(m, rank)
    requires forall v | v in visited :: VarBound(m, v)
    requires VarBound(m, id) ==> forall v | v in visited :: v in rank && rank[id] < rank[v]
    requires forall v | VarBound(m, v) :: v in m' && m'[v] == m[v]
    requires var e := ForwardFrom(m, id, visited); e in m' && m'[e].Var? && m'[e].tvar == nv
    requires !VarBound(m', nv)
    ensures ForwardFrom(m', id, visited) == nv
    decreases m.Keys - visited
  {
    if VarBound(m, id) {
      var next := m[id].tvar;
      assert id !in visited;
      if VarBound(m, next) {
        forall v | v in visited + {id}
          ensures v in rank && rank[next] < rank[v]
        {
        }
      }
      ForwardFromRedirect(m, m', rank, next, visited + {id}, nv);
    } else {
      assert id !in visited;
    }
  }

  /**
   * A store that keeps every `Var` binding of an acyclic store, and does not
   * bind the end of a chain to a variable, leaves that chain's walk where it
   * was.
   */
  lemma {:induction false} ForwardFromKeep(m: map<TVar, Type>, m': map<TVar, Type>, rank: map<TVar, nat>,
                                           id: TVar, visited: set<TVar>)
    requires RankedChains(m, rank)
    requires VarBound(m, id) ==> forall v | v in visited :: v in rank && rank[id] < rank[v]
    requires forall v | VarBound(m, v) :: v in m' && m'[v] == m[v]
    requires !VarBound(m', ForwardFrom(m, id, visited))
    ensures ForwardFrom(m', id, visited) == ForwardFrom(m, id, visited)
    decreases m.Keys - visited
  {
    if VarBound(m, id) {
      var next := m[id].tvar;
      assert id !in visited;
      if VarBound(m, next) {
        forall v | v in visited + {id}
          ensures v in rank && rank[next] < rank[v]
        {
        }
      }
      ForwardFromKeep(m, m', rank, next, visited + {id});
    }
  }

  // ---------------------------------------------------------------------------
  // Reference-variable chains
  // ---------------------------------------------------------------------------

  predicate RefForwarded(m: map<RefVar, RefKind>, x: RefVar) {
    x in m && m[x].Forward?
  }

  function ForwardRefFrom(m: map<RefVar, RefKind>, id: RefVar, visited: set<RefVar>): RefVar
    decreases m.Keys - visited
  {
    if RefForwarded(m, id) && id !in visited then
      ForwardRefFrom(m, m[id].next, visited + {id})
    else
      id
  }

  /** `forward_ref_var`: the last reference variable of the `Forward` chain from `id`. */
  function ForwardRefVar(s: Subst, id: RefVar): (r: RefVar)
    ensures r == id || RefForwarded(s.refVars, id)
  {
    ForwardRefFrom(s.refVars, id, {})
  }

  ghost predicate RankedRefChains(m: map<RefVar, RefKind>, rank: map<RefVar, nat>) {
    forall x | x in m && m[x].Forward? :: x in rank && m[x].next in rank && rank[m[x].next] < rank[x]
  }

  ghost predicate RefChainsTerminate(m: map<RefVar, RefKind>) {
    exists rank :: RankedRefChains(m, rank)
  }

  lemma {:induction false} ForwardRefFromEnds(m: map<RefVar, RefKind>, rank: map<RefVar, nat>, id: RefVar, visited: set<RefVar>)
    requires RankedRefChains(m, rank)
    requires RefForwarded(m, id) ==> forall x | x in visited :: x in rank && rank[id] < rank[x]
    ensures !RefForwarded(m, ForwardRefFrom(m, id, visited))
    decreases m.Keys - visited
  {
    if RefForwarded(m, id) {
      var next := m[id].next;
      assert id !in visited;
      if RefForwarded(m, next) {
        forall x | x in visited + {id}
          ensures x in rank && rank[next] < rank[x]
        {
        }
      }
      ForwardRefFromEnds(m, rank, next, visited + {id});
    }
  }

  /** On an acyclic store, `forward_ref_var` ends at an unset or resolved (non-`Forward`) variable. */
  lemma ForwardRefVarEnds(s: Subst, id: RefVar)
    requires RefChainsTerminate(s.refVars)
    ensures !RefForwarded(s.refVars, ForwardRefVar(s, id))
  {
    var rank :| RankedRefChains(s.refVars, rank);
    ForwardRefFromEnds(s.refVars, rank, id, {});
  }

  /** Forwarding a reference variable is idempotent on an acyclic table. */
  lemma ForwardRefVarIdempotent(s: Subst, id: RefVar)
    requires RefChainsTerminate(s.refVars)
    ensures ForwardRefVar(s, ForwardRefVar(s, id)) == ForwardRefVar(s, id)
  {
    ForwardRefVarEnds(s, id);
  }

  /** Settling the end of a chain with a resolved kind leaves every walk over that chain ending there. */
  lemma {:induction false} ForwardRefFromSettle(m: map<RefVar, RefKind>, id: RefVar, visited: set<RefVar>, k: RefKind)
    requires !k.Forward?
    ensures var e := ForwardRefFrom(m, id, visited);
            ForwardRefFrom(m[e := k], id, visited) == e
    decreases m.Keys - visited
  {
    var e := ForwardRefFrom(m, id, visited);
    if RefForwarded(m, id) && id !in visited && id != e {
      ForwardRefFromSettle(m, m[id].next, visited + {id}, k);
    }
  }

  /** A reference chain that starts below the counter ends below it on a store with fresh counters. */
  lemma {:induction false} ForwardRefFromBelow(m: map<RefVar, RefKind>, id: RefVar, visited: set<RefVar>, bound: nat)
    requires id < bound
    requires forall x | x in m && m[x].Forward? :: m[x].next < bound
    ensures ForwardRefFrom(m, id, visited) < bound
    decreases m.Keys - visited
  {
    if RefForwarded(m, id) && id !in visited {
      ForwardRefFromBelow(m, m[id].next, visited + {id}, bound);
    }
  }

  /**
   * Forwarding the end of an acyclic reference chain to `nv`, which is not
   * itself forwarded, makes the whole chain end at `nv`.
   */
  lemma {:induction false} ForwardRefFromRedirect(m: map<RefVar, RefKind>, m': map<RefVar, RefKind>,
                                                  rank: map<RefVar, nat>, id: RefVar, visited: set<RefVar>, nv: RefVar)
    requires RankedRefChains(m, rank)
    requires forall x | x in visited :: RefForwarded(m, x)
    requires RefForwarded(m, id) ==> forall x | x in visited :: x in rank && rank[id] < rank[x]
    requires forall x | RefForwarded(m, x) :: x in m' && m'[x] == m[x]
    requires var e := ForwardRefFrom(m, id, visited); e in m' && m'[e] == Forward(nv)
    requires !RefForwarded(m', nv)
    ensures ForwardRefFrom(m', id, visited) == nv
    decreases m.Keys - visited
  {
    if RefForwarded(m, id) {
      var next := m[id].next;
      assert id !in visited;
      if RefForwarded(m, next) {
        forall x | x in visited + {id}
          ensures x in rank && rank[next] < rank[x]
        {
        }
      }
      ForwardRefFromRedirect(m, m', rank, next, visited + {id}, nv);
    } else {
      assert id !in visited;
    }
  }

  /**
   * The resolved kind of a reference variable after forwarding, if any.
   * A `Forward` kind can only survive forwarding on a cyclic table; it is
   * read as unresolved.
   */
  function RefKindOf(s: Subst, id: RefVar): (r: Option<RefKind>)
    ensures r.Some? ==> !r.value.Forward?
  {
    var x := ForwardRefVar(s, id);
    if x in s.refVars && !s.refVars[x].Forward? then Some(s.refVars[x]) else None
  }

  // ---------------------------------------------------------------------------
  // The reference-kind lattice
  // ---------------------------------------------------------------------------

  /** `RefKind::join`: val <: mut <: imm, where a value joins only with a value. */
  function JoinRefKind(a: RefKind, b: RefKind): (r: Option<RefKind>)
    requires !a.Forward? && !b.Forward?
    ensures r.Some? ==> Resolved(r.value) && IsUpperBound(a, b, r.value)
    ensures r.None? ==> forall c | Resolved(c) :: !IsUpperBound(a, b, c)
  {
    match (a, b)
    case (Value, Value) => Some(Value)
    case (MutRef, MutRef) => Some(MutRef)
    case (MutRef, ImmRef) => Some(ImmRef)
    case (ImmRef, ImmRef) => Some(ImmRef)
    case (ImmRef, MutRef) => Some(ImmRef)
    case _ => None
  }

  /** Independent order: a mutable reference may be used where an immutable one is expected. */
  predicate RefLeq(a: RefKind, b: RefKind) {
    a == b || (a == MutRef && b == ImmRef)
  }

  predicate IsUpperBound(a: RefKind, b: RefKind, c: RefKind) {
    RefLeq(a, c) && RefLeq(b, c)
  }

  predicate Resolved(k: RefKind) {
    !k.Forward?
  }

  /**
   * The join is the least upper bound in `RefLeq` when one exists, and is
   * `None` exactly when the two kinds have no common upper bound.
   */
  lemma JoinRefKindIsLeastUpperBound(a: RefKind, b: RefKind)
    requires Resolved(a) && Resolved(b)
    ensures JoinRefKind(a, b).Some? ==>
              var c := JoinRefKind(a, b).value;
              IsUpperBound(a, b, c) && forall d | Resolved(d) && IsUpperBound(a, b, d) :: RefLeq(c, d)
    ensures JoinRefKind(a, b).None? <==> forall d | Resolved(d) :: !IsUpperBound(a, b, d)
  {
    if JoinRefKind(a, b).None? {
      forall d | Resolved(d)
        ensures !IsUpperBound(a, b, d)
      {
      }
    } else {
      assert IsUpperBound(a, b, JoinRefKind(a, b).value);
    }
  }

  lemma JoinRefKindCommutative(a: RefKind, b: RefKind)
    requires Resolved(a) && Resolved(b)
    ensures JoinRefKind(a, b) == JoinRefKind(b, a)
  {
  }

  lemma JoinRefKindIdempotent(a: RefKind)
    requires Resolved(a)
    ensures JoinRefKind(a, a) == Some(a)
  {
  }

  /** A value joins only with a value; a mutable and an immutable reference join to immutable. */
  lemma JoinRefKindValueAndDecay(a: RefKind)
    requires Resolved(a)
    ensures JoinRefKind(Value, a).Some? <==> a == Value
    ensures JoinRefKind(a, Value).Some? <==> a == Value
    ensures JoinRefKind(MutRef, ImmRef) == Some(ImmRef) && JoinRefKind(ImmRef, MutRef) == Some(ImmRef)
  {
  }
}

=== FILE: types.dfy ===
/**
 * The type language of the typing pass: abilities, builtin type names,
 * type parameters and the recursive `Type` itself, together with the
 * syntactic queries (free variables, depth) the rest of the model uses.
 * Every node carries its source location, as the compiler's `Spanned`
 * wrapper does.
 */
module Types {
  import opened Wrappers

  /** A source location. The model never inspects one beyond identity. */
  type Loc = nat

  type TVar = nat
  type RefVar = nat
  type TParamId = nat
  /** Macro-hygiene colour (a `u16` in the compiler; width not modelled). */
  type Color = nat
  type Symbol = string
  type FunctionName = string
  type StructName = string

  datatype ModuleIdent = ModuleIdent(address: nat, name: Symbol)

  datatype Ability = Copy | Drop | Store | Key

  type AbilitySet = set<Ability>

  /** The ability a type argument must have for its container to have `a`. */
  function Requires(a: Ability): Ability {
    match a
    case Copy => Copy
    case Drop => Drop
    case Store => Store
    case Key => Store
  }

  const AllAbilities: AbilitySet := {Copy, Drop, Store, Key}
  /** Abilities of unit and of the expression-list pseudo-type. */
  const CollectionAbilities: AbilitySet := {Copy, Drop, Store}
  const ReferenceAbilities: AbilitySet := {Copy, Drop}
  const FunctionAbilities: AbilitySet := {}
  const PrimitiveAbilities: AbilitySet := {Copy, Drop, Store}

  datatype BuiltinName = Address | Signer | U8 | U16 | U32 | U64 | U128 | U256 | Vector | Bool

  predicate IsNumeric(b: BuiltinName) {
    b in {U8, U16, U32, U64, U128, U256}
  }

  function BuiltinDeclaredAbilities(b: BuiltinName): AbilitySet {
    match b
    case Signer => {Drop}
    case Vector => CollectionAbilities
    case _ => PrimitiveAbilities
  }

  /** Name of an applied type: a builtin, an n-ary expression list, or a struct. */
  datatype TypeName =
    | Builtin(builtin: BuiltinName)
    | Multiple(arity: nat)
    | ModuleType(mident: ModuleIdent, sname: StructName)

  datatype TParam = TParam(id: TParamId, abilities: AbilitySet)

  datatype Type =
    | Unit(loc: Loc)
    | Ref(loc: Loc, isMut: bool, inner: Type)
    | Param(loc: Loc, tparam: TParam)
    | Apply(loc: Loc, abilities: Option<AbilitySet>, name: TypeName, args: seq<Type>)
    | Fun(loc: Loc, params: seq<Type>, result: Type)
    | Var(loc: Loc, tvar: TVar)
    | AutoRef(loc: Loc, rvar: RefVar, inner: Type)
    | Anything(loc: Loc)
    | UnresolvedError(loc: Loc)

  function U64Type(loc: Loc): Type {
    Apply(loc, Some(PrimitiveAbilities), Builtin(U64), [])
  }

  /** Type variables occurring syntactically in `t` (the occurs-check set). */
  function UsedTVars(t: Type): set<TVar>
    decreases t
  {
    match t
    case Var(_, v) => {v}
    case Ref(_, _, i) => UsedTVars(i)
    case AutoRef(_, _, i) => UsedTVars(i)
    case Apply(_, _, _, args) => UsedTVarsSeq(args)
    case Fun(_, ps, r) => UsedTVarsSeq(ps) + UsedTVars(r)
    case _ => {}
  }

  function UsedTVarsSeq(ts: seq<Type>): set<TVar>
    decreases ts
  {
    if |ts| == 0 then {} else UsedTVars(ts[0]) + UsedTVarsSeq(ts[1..])
  }

  /** The variables of a sequence include those of each element. */
  lemma {:induction false} UsedTVarsSeqCovers(ts: seq<Type>, i: nat)
    requires i < |ts|
    ensures UsedTVars(ts[i]) <= UsedTVarsSeq(ts)
    decreases i
  {
    if i > 0 {
      UsedTVarsSeqCovers(ts[1..], i - 1);
    }
  }

  /** Reference variables occurring syntactically in `t`. */
  function UsedRefVars(t: Type): set<RefVar>
    decreases t
  {
    match t
    case AutoRef(_, x, i) => {x} + UsedRefVars(i)
    case Ref(_, _, i) => UsedRefVars(i)
    case Apply(_, _, _, args) => UsedRefVarsSeq(args)
    case Fun(_, ps, r) => UsedRefVarsSeq(ps) + UsedRefVars(r)
    case _ => {}
  }

  function UsedRefVarsSeq(ts: seq<Type>): set<RefVar>
    decreases ts
  {
    if |ts| == 0 then {} else UsedRefVars(ts[0]) + UsedRefVarsSeq(ts[1..])
  }

  /** Type parameters occurring in `t`, by id. */
  function ParamIds(t: Type): set<TParamId>
    decreases t
  {
    match t
    case Param(_, tp) => {tp.id}
    case Ref(_, _, i) => ParamIds(i)
    case AutoRef(_, _, i) => ParamIds(i)
    case Apply(_, _, _, args) => ParamIdsSeq(args)
    case Fun(_, ps, r) => ParamIdsSeq(ps) + ParamIds(r)
    case _ => {}
  }

  function ParamIdsSeq(ts: seq<Type>): set<TParamId>
    decreases ts
  {
    if |ts| == 0 then {} else ParamIds(ts[0]) + ParamIdsSeq(ts[1..])
  }

  /** No inference variables of either kind: the shape of a declared signature. */
  predicate Ground(t: Type) {
    UsedTVars(t) == {} && UsedRefVars(t) == {}
  }

  /** Nesting depth of type constructors; bounds the recursion of a structural join. */
  function Depth(t: Type): nat
    decreases t
  {
    match t
    case Ref(_, _, i) => 1 + Depth(i)
    case AutoRef(_, _, i) => 1 + Depth(i)
    case Apply(_, _, _, args) => 1 + DepthSeq(args)
    case Fun(_, ps, r) => 1 + Max(DepthSeq(ps), Depth(r))
    case _ => 0
  }

  function DepthSeq(ts: seq<Type>): nat
    decreases ts
  {
    if |ts| == 0 then 0 else Max(Depth(ts[0]), DepthSeq(ts[1..]))
  }

  function Max(a: nat, b: nat): nat {
    if a < b then b else a
  }
}

/** Diagnostics as abstract records: a code and a primary location. */
module Diagnostics {
  import opened Types

  datatype DiagCode =
    | ExpectedBaseType
    | ExpectedSingleType
    | BuiltinOperation
    | AbilityNotSatisfied(missing: Ability)
    | TooFewTypeArguments
    | TooManyTypeArguments
    /** `entryHint`: the secondary label explaining the test-only `entry` carve-out was added. */
    | VisibilityError(entryHint: bool)
    | CannotExpandMacro
    | UnusedAlias

  datatype Diag = Diag(code: DiagCode, loc: Loc)
}

=== FILE: unify.dfy ===
/**
 * The unification engine: `join_impl` in its two modes (`Join` computes a
 * common type, `Subtype` checks `lhs <: rhs`), the variable binder with its
 * numeric and occurs checks, and the reference-mutability resolver for
 * autorefs.
 *
 * The compiler's recursion is not structural (binding a variable re-enters
 * on its bound type, realizing an autoref re-enters on a larger type), so
 * every re-entry goes through `Recur`, which consumes one unit of fuel.
 */
module Unify {
  import opened Wrappers
  import opened Types
  import opened Substitution

  datatype TypingCase = Join | Subtype

  datatype TypingError =
    | SubtypeError(lhs: Type, rhs: Type)
    | Incompatible(lhs: Type, rhs: Type)
    | ArityMismatch(lhsArity: nat, lhs: Type, rhsArity: nat, rhs: Type)
    | FunArityMismatch(lhsArity: nat, lhs: Type, rhsArity: nat, rhs: Type)
    | RecursiveType(loc: Loc)
      /** The fuel bound of the model was reached; not an error of the compiler. */
    | FuelExhausted

  type JoinResult = Result<(Subst, Type), TypingError>

  /**
   * Unification only ever adds to the store: no binding, numeric flag or
   * reference kind disappears, numeric locations are kept, counters only grow.
   */
  ghost predicate Extends(s: Subst, s': Subst) {
    && s.tvars.Keys <= s'.tvars.Keys
    && s.refVars.Keys <= s'.refVars.Keys
    && (forall v | v in s.numVars :: v in s'.numVars && s'.numVars[v] == s.numVars[v])
    && s.nextTVar <= s'.nextTVar
    && s.nextRefVar <= s'.nextRefVar
  }

  ghost predicate Grows<T>(s: Subst, r: Result<(Subst, T), TypingError>) {
    r.Ok? ==> Extends(s, r.value.0)
  }

  /** `subtype`: checks `lhs <: rhs`. */
  function SubtypeOf(s: Subst, lhs: Type, rhs: Type, fuel: nat): (r: JoinResult)
    ensures Grows(s, r)
  {
    JoinImpl(s, Subtype, lhs, rhs, fuel)
  }

  /** `join`: the common type of `lhs` and `rhs`. */
  function JoinOf(s: Subst, lhs: Type, rhs: Type, fuel: nat): (r: JoinResult)
    ensures Grows(s, r)
  {
    JoinImpl(s, Join, lhs, rhs, fuel)
  }

  /** One re-entry into `join_impl`, paid for with one unit of fuel. */
  function Recur(s: Subst, c: TypingCase, lhs: Type, rhs: Type, fuel: nat): (r: JoinResult)
    ensures Grows(s, r)
    decreases fuel, 0, 0
  {
    if fuel == 0 then Err(FuelExhausted) else JoinImpl(s, c, lhs, rhs, fuel - 1)
  }

  /** `join_impl`: the cases are tried in the compiler's order. */
  function JoinImpl(s: Subst, c: TypingCase, lhs: Type, rhs: Type, fuel: nat): (r: JoinResult)
    ensures Grows(s, r)
    decreases fuel, 2, 0
  {
    if lhs.Anything? then Ok((s, rhs))
    else if rhs.Anything? then Ok((s, lhs))
    else if lhs.Unit? && rhs.Unit? then Ok((s, Unit(rhs.loc)))
    else if lhs.Ref? && rhs.Ref? then
      var m1, m2 := lhs.isMut, rhs.isMut;
      if c == Subtype && !m1 && m2 then Err(SubtypeError(lhs, rhs))
      else
        var loc := if c == Join && !m1 && m2 then lhs.loc else rhs.loc;
        var isMut := if c == Join then m1 && m2 else m2;
        var j :- Recur(s, c, lhs.inner, rhs.inner, fuel);
        Ok((j.0, Ref(loc, isMut, j.1)))
    else if lhs.Param? && rhs.Param? && lhs.tparam.id == rhs.tparam.id then Ok((s, rhs))
    else if lhs.Apply? && rhs.Apply? && lhs.name.Multiple? && rhs.name.Multiple?
            && lhs.name.arity != rhs.name.arity then
      Err(ArityMismatch(lhs.name.arity, lhs, rhs.name.arity, rhs))
    else if lhs.Apply? && rhs.Apply? && lhs.name == rhs.name then
      var j :- JoinTypes(s, c, lhs.args, rhs.args, fuel);
      Ok((j.0, Apply(rhs.loc, rhs.abilities, rhs.name, j.1)))
    else if lhs.Fun? && rhs.Fun? && |lhs.params| != |rhs.params| then
      Err(FunArityMismatch(|lhs.params|, lhs, |rhs.params|, rhs))
    else if lhs.Fun? && rhs.Fun? then
      // arguments are contravariant under subtyping
      var a :- if c == Join then JoinTypes(s, c, lhs.params, rhs.params, fuel)
               else JoinTypes(s, c, rhs.params, lhs.params, fuel);
      var res :- Recur(a.0, c, lhs.result, rhs.result, fuel);
      Ok((res.0, Fun(rhs.loc, a.1, res.1)))
    else if lhs.Var? && rhs.Var? then
      if lhs.tvar == rhs.tvar then Ok((s, rhs))
      else JoinTVar(s, c, lhs.loc, lhs.tvar, rhs.loc, rhs.tvar, fuel)
    else if lhs.Var? && lhs.tvar !in s.tvars then
      var b :- JoinBindTVar(s, lhs.loc, lhs.tvar, rhs);
      if b.1 then Ok((b.0, lhs)) else Err(Incompatible(lhs, rhs))
    else if rhs.Var? && rhs.tvar !in s.tvars then
      var b :- JoinBindTVar(s, rhs.loc, rhs.tvar, lhs);
      if b.1 then Ok((b.0, rhs)) else Err(Incompatible(lhs, rhs))
    else if lhs.Var? then
      var (nv, s0) := FreshTVar(s);
      JoinTVar(s0.(tvars := s0.tvars[nv := rhs]), c, lhs.loc, lhs.tvar, rhs.loc, nv, fuel)
    else if rhs.Var? then
      var (nv, s0) := FreshTVar(s);
      JoinTVar(s0.(tvars := s0.tvars[nv := lhs]), c, lhs.loc, nv, rhs.loc, rhs.tvar, fuel)
    else if lhs.AutoRef? && rhs.AutoRef? then
      JoinAutoref(s, c, lhs.loc, lhs.rvar, lhs.inner, rhs.loc, rhs.rvar, rhs.inner, fuel)
    else if rhs.AutoRef? then
      JoinBindAutoref(s, c, rhs.loc, rhs.rvar, rhs.inner, lhs, fuel)
    else if lhs.AutoRef? then
      JoinBindAutoref(s, c, lhs.loc, lhs.rvar, lhs.inner, rhs, fuel)
    else if lhs.UnresolvedError? then Ok((s, rhs))
    else if rhs.UnresolvedError? then Ok((s, lhs))
    else Err(Incompatible(lhs, rhs))
  }

  /** `join_impl_types`: pointwise over the common prefix, threading the store. */
  function JoinTypes(s: Subst, c: TypingCase, tys1: seq<Type>, tys2: seq<Type>, fuel: nat)
    : (r: Result<(Subst, seq<Type>), TypingError>)
    ensures Grows(s, r)
    ensures r.Ok? ==> |r.value.1| == if |tys1| < |tys2| then |tys1| else |tys2|
    decreases fuel, 1, |tys1|
  {
    if |tys1| == 0 || |tys2| == 0 then Ok((s, []))
    else
      var h :- Recur(s, c, tys1[0], tys2[0], fuel);
      var t :- JoinTypes(h.0, c, tys1[1..], tys2[1..], fuel);
      Ok((t.0, [h.1] + t.1))
  }

  /**
   * The store `join_tvar` joins the two contents in: a fresh variable (which
   * inherits a numeric flag from either chain end, the right one first) and
   * both chain ends redirected to it.
   */
  function JoinTVarStore(s: Subst, loc1: Loc, id1: TVar, loc2: Loc, id2: TVar): (r: Subst)
    ensures Extends(s, r)
    ensures r.nextTVar > s.nextTVar
    ensures r.refVars == s.refVars && r.nextRefVar == s.nextRefVar
    ensures var last1, last2 := ForwardTVar(s, id1), ForwardTVar(s, id2);
            && r.tvars == s.tvars[last1 := Var(loc1, s.nextTVar)][last2 := Var(loc2, s.nextTVar)]
            && (CountersFresh(s) ==>
                  forall v :: v in r.numVars <==>
                    v in s.numVars || (v == s.nextTVar && (last1 in s.numVars || last2 in s.numVars)))
  {
    var last1 := ForwardTVar(s, id1);
    var last2 := ForwardTVar(s, id2);
    var (nv, s0) := FreshTVar(s);
    var s1 :=
      if last2 in s0.numVars then SetNumVar(s0, nv, s0.numVars[last2])
      else if last1 in s0.numVars then SetNumVar(s0, nv, s0.numVars[last1])
      else s0;
    s1.(tvars := s1.tvars[last1 := Var(loc1, nv)][last2 := Var(loc2, nv)])
  }

  /**
   * `join_tvar`: both chain ends are redirected to a fresh variable, their
   * contents are joined, and the fresh variable is bound to the result. If
   * the inner join already bound the fresh variable, the types were cyclic.
   */
  function JoinTVar(s: Subst, c: TypingCase, loc1: Loc, id1: TVar, loc2: Loc, id2: TVar, fuel: nat)
    : (r: JoinResult)
    ensures Grows(s, r)
    decreases fuel, 1, 0
  {
    var last1 := ForwardTVar(s, id1);
    var last2 := ForwardTVar(s, id2);
    var ty1 := if last1 in s.tvars then s.tvars[last1] else Anything(loc1);
    var ty2 := if last2 in s.tvars then s.tvars[last2] else Anything(loc2);
    var nv := s.nextTVar;
    var j :- Recur(JoinTVarStore(s, loc1, id1, loc2, id2), c, ty1, ty2, fuel);
    var (s3, newTy) := j;
    if nv in s3.tvars then Err(RecursiveType(s3.tvars[nv].loc))
    else
      var b :- JoinBindTVar(s3, loc2, nv, newTy);
      if b.1 then Ok((b.0, Var(loc2, nv)))
      else
        var e1 := if ty1.Anything? then Var(ty1.loc, id1) else ty1;
        var e2 := if ty2.Anything? then Var(ty2.loc, id2) else ty2;
        Err(Incompatible(e1, e2))
  }

  /** A type a numeric variable may be bound to, judged by its outermost constructor. */
  predicate NumericShape(t: Type) {
    t.UnresolvedError? || t.Anything? || (t.Apply? && t.name.Builtin? && IsNumeric(t.name.builtin))
  }

  /**
   * `check_num_tvar_`: a numeric builtin, `Anything`/`UnresolvedError`, or a
   * chain ending in an unbound numeric variable (or in a numeric-shaped binding).
   */
  predicate NumericCompatible(s: Subst, ty: Type) {
    if ty.Var? then
      var last := ForwardTVar(s, ty.tvar);
      if last !in s.tvars then IsNumVar(s, last) else NumericShape(s.tvars[last])
    else
      NumericShape(ty)
  }

  /** `check_num_tvar`: only numeric variables constrain what they are bound to. */
  predicate CheckNumTVar(s: Subst, tvar: TVar, ty: Type) {
    !IsNumVar(s, tvar) || NumericCompatible(s, ty)
  }

  /**
   * `join_bind_tvar`: binds an unbound variable. `Ok(false)` rejects a
   * numeric mismatch without binding; an occurrence of the variable in the
   * type is a recursive type; `Anything` is accepted without a binding.
   */
  function JoinBindTVar(s: Subst, loc: Loc, tvar: TVar, ty: Type): (r: Result<(Subst, bool), TypingError>)
    requires tvar !in s.tvars
    ensures r == Ok((s, false)) <==> !CheckNumTVar(s, tvar, ty)
    ensures r.Err? <==> CheckNumTVar(s, tvar, ty) && tvar in UsedTVars(ty)
    ensures r.Err? ==> r.error == RecursiveType(loc)
    ensures r.Ok? && r.value.1 && ty.Anything? ==> r.value.0 == s
    ensures r.Ok? && r.value.1 && !ty.Anything? ==>
              r.value.0 == s.(tvars := s.tvars[tvar := ty])
    ensures r.Ok? && r.value.1 && !ty.Anything? && !ty.Var? ==>
              var s' := r.value.0; ForwardTVar(s', tvar) == tvar && s'.tvars[tvar] == ty
    ensures Grows(s, r)
  {
    if !CheckNumTVar(s, tvar, ty) then Ok((s, false))
    else if tvar in UsedTVars(ty) then Err(RecursiveType(loc))
    else if ty.Anything? then Ok((s, true))
    else Ok((s.(tvars := s.tvars[tvar := ty]), true))
  }

  // ---------------------------------------------------------------------------
  // Reference variables
  // ---------------------------------------------------------------------------

  /**
   * `realize_autoref`: the concrete type an autoref of a resolved kind
   * stands for. A value is the type itself; otherwise a reference to the
   * type, mutable exactly when the kind lies below `MutRef` in the
   * reference order.
   */
  function RealizeAutoref(loc: Loc, k: RefKind, ty: Type): (r: Type)
    requires Resolved(k)
    ensures k == Value ==> r == ty
    ensures k != Value ==> r.Ref? && r.loc == loc && r.inner == ty && (r.isMut <==> RefLeq(k, MutRef))
    ensures UsedTVars(r) == UsedTVars(ty) && UsedRefVars(r) == UsedRefVars(ty)
  {
    match k
    case Value => ty
    case ImmRef => Ref(loc, false, ty)
    case MutRef => Ref(loc, true, ty)
  }

  /**
   * The store `join_autoref` prepares to merge two autorefs: both chain ends
   * forward to a fresh autoref, which takes the kind `k` when one is given.
   */
  function MergedAutorefStore(s: Subst, id1: RefVar, id2: RefVar, k: Option<RefKind>): (r: Subst)
    ensures r.tvars == s.tvars && r.numVars == s.numVars && r.nextTVar == s.nextTVar
    ensures r.nextRefVar == s.nextRefVar + 1
    ensures r.refVars.Keys == s.refVars.Keys + {ForwardRefVar(s, id1), ForwardRefVar(s, id2)}
                              + (if k.Some? then {s.nextRefVar} else {})
  {
    var (nv, s0) := FreshRefVar(s);
    var m := s0.refVars[ForwardRefVar(s, id1) := Forward(nv)][ForwardRefVar(s, id2) := Forward(nv)];
    s0.(refVars := if k.Some? then m[nv := k.value] else m)
  }

  /**
   * `join_autoref`: two unresolved autorefs are merged into a fresh one; two
   * resolved kinds are joined in the lattice (under `Join`) or realized and
   * compared (under `Subtype`, or when they have no join); a resolved side
   * is realized against an unresolved one.
   */
  function JoinAutoref(s: Subst, c: TypingCase, loc1: Loc, id1: RefVar, lhs: Type,
                       loc2: Loc, id2: RefVar, rhs: Type, fuel: nat): (r: JoinResult)
    ensures Grows(s, r)
    decreases fuel, 1, 0
  {
    var rv1 := ForwardRefVar(s, id1);
    var rv2 := ForwardRefVar(s, id2);
    var k1 := RefKindOf(s, id1);
    var k2 := RefKindOf(s, id2);
    var (nv, s0) := FreshRefVar(s);
    if k1.None? && k2.None? then
      var j :- Recur(MergedAutorefStore(s, id1, id2, None), c, lhs, rhs, fuel);
      Ok((j.0, AutoRef(loc2, nv, j.1)))
    else if k1.Some? && k2.Some? then
      if c == Join && JoinRefKind(k1.value, k2.value).Some? then
        var jk := JoinRefKind(k1.value, k2.value).value;
        var j :- Recur(MergedAutorefStore(s, id1, id2, Some(jk)), c, lhs, rhs, fuel);
        Ok((j.0, AutoRef(loc2, nv, j.1)))
      else
        Recur(s0, c, RealizeAutoref(loc1, k1.value, lhs), RealizeAutoref(loc2, k2.value, rhs), fuel)
    else if k1.None? then
      Recur(s0, c, AutoRef(loc1, rv1, lhs), RealizeAutoref(loc2, k2.value, rhs), fuel)
    else
      Recur(s0, c, RealizeAutoref(loc1, k1.value, lhs), AutoRef(loc2, rv2, rhs), fuel)
  }

  /**
   * `join_bind_autoref`: an unresolved autoref meeting a reference takes its
   * mutability, meeting any other concrete type becomes a value; a resolved
   * one is realized and joined.
   */
  function JoinBindAutoref(s: Subst, c: TypingCase, loc: Loc, rv: RefVar, rvtype: Type,
                           other: Type, fuel: nat): (r: JoinResult)
    requires !other.Var? && !other.AutoRef?
    ensures Grows(s, r)
    decreases fuel, 1, 0
  {
    var x := ForwardRefVar(s, rv);
    var k := RefKindOf(s, rv);
    if k.None? then
      if other.Ref? then
        var kind := if other.isMut then MutRef else ImmRef;
        Recur(s.(refVars := s.refVars[x := kind]), c, rvtype, other.inner, fuel)
      else if other.Anything? || other.UnresolvedError? then Ok((s, other))
      else Recur(s.(refVars := s.refVars[x := Value]), c, rvtype, other, fuel)
    else
      Recur(s, c, RealizeAutoref(loc, k.value, rvtype), other, fuel)
  }
}

=== FILE: unify_lemmas.dfy ===
/** Properties of `join_impl` stated over all inputs. */
module UnifyLemmas {
  import opened Wrappers
  import opened Types
  import opened Substitution
  import opened Unify

  /** `Anything` on the left yields the right operand and leaves the store untouched. */
  lemma JoinAnythingLeft(s: Subst, c: TypingCase, l: Loc, t: Type, fuel: nat)
    ensures JoinImpl(s, c, Anything(l), t, fuel) == Ok((s, t))
  {
  }

  /** `Anything` on the right yields the left operand and leaves the store untouched. */
  lemma JoinAnythingRight(s: Subst, c: TypingCase, t: Type, l: Loc, fuel: nat)
    requires !t.Anything?
    ensures JoinImpl(s, c, t, Anything(l), fuel) == Ok((s, t))
  {
  }

  /**
   * Joining two references gives a reference that is mutable only if both
   * are, over the join of the referenced types.
   */
  lemma JoinRefMutability(s: Subst, l1: Loc, m1: bool, i1: Type, l2: Loc, m2: bool, i2: Type, fuel: nat)
    ensures var r := JoinImpl(s, Join, Ref(l1, m1, i1), Ref(l2, m2, i2), fuel);
            var inner := Recur(s, Join, i1, i2, fuel);
            && (r.Ok? <==> inner.Ok?)
            && (r.Ok? ==> r.value == (inner.value.0, Ref(if !m1 && m2 then l1 else l2, m1 && m2, inner.value.1)))
  {
  }

  /**
   * Subtyping of references: `&T <: &mut U` is refused outright; in every
   * other combination the result takes the right-hand mutability and
   * succeeds exactly when the referenced types are subtypes.
   */
  lemma SubtypeRefMutability(s: Subst, l1: Loc, m1: bool, i1: Type, l2: Loc, m2: bool, i2: Type, fuel: nat)
    ensures var lhs, rhs := Ref(l1, m1, i1), Ref(l2, m2, i2);
            var r := JoinImpl(s, Subtype, lhs, rhs, fuel);
            var inner := Recur(s, Subtype, i1, i2, fuel);
            && (!m1 && m2 ==> r == Err(SubtypeError(lhs, rhs)))
            && (!(!m1 && m2) ==> (r.Ok? <==> inner.Ok?))
            && (!(!m1 && m2) && r.Ok? ==> r.value == (inner.value.0, Ref(l2, m2, inner.value.1)))
  {
  }

  predicate GroundSeq(ts: seq<Type>) {
    UsedTVarsSeq(ts) == {} && UsedRefVarsSeq(ts) == {}
  }

  /**
   * A type without inference variables joins with itself to itself, in
   * either mode, without touching the store, given fuel for its depth.
   */
  lemma {:induction false} JoinReflexive(s: Subst, c: TypingCase, t: Type, fuel: nat)
    requires Ground(t) && Depth(t) <= fuel
    ensures JoinImpl(s, c, t, t, fuel) == Ok((s, t))
    decreases t, 1
  {
    match t
    case Ref(l, m, i) =>
      JoinReflexive(s, c, i, fuel - 1);
    case Apply(l, ab, n, args) =>
      JoinTypesReflexive(s, c, args, fuel);
    case Fun(l, ps, res) =>
      JoinTypesReflexive(s, c, ps, fuel);
      JoinReflexive(s, c, res, fuel - 1);
    case _ =>
  }

  lemma {:induction false} JoinTypesReflexive(s: Subst, c: TypingCase, ts: seq<Type>, fuel: nat)
    requires GroundSeq(ts) && DepthSeq(ts) < fuel
    ensures JoinTypes(s, c, ts, ts, fuel) == Ok((s, ts))
    decreases ts, 0
  {
    if |ts| > 0 {
      JoinReflexive(s, c, ts[0], fuel - 1);
      JoinTypesReflexive(s, c, ts[1..], fuel);
      assert [ts[0]] + ts[1..] == ts;
    }
  }

  /**
   * Unifying an unbound variable with a type that mentions it is a
   * recursive type, reported at the variable.
   */
  lemma OccursCheck(s: Subst, c: TypingCase, l: Loc, v: TVar, t: Type, fuel: nat)
    requires v !in s.tvars && CheckNumTVar(s, v, t)
    requires v in UsedTVars(t) && !t.Var? && !t.Anything?
    ensures JoinImpl(s, c, Var(l, v), t, fuel) == Err(RecursiveType(l))
    ensures JoinImpl(s, c, t, Var(l, v), fuel) == Err(RecursiveType(l))
  {
  }

  /** A numeric variable cannot be unified with a type of another shape. */
  lemma NumericMismatchIncompatible(s: Subst, c: TypingCase, l: Loc, v: TVar, t: Type, fuel: nat)
    requires v !in s.tvars && !CheckNumTVar(s, v, t)
    requires !t.Var? && !t.Anything?
    ensures JoinImpl(s, c, Var(l, v), t, fuel) == Err(Incompatible(Var(l, v), t))
    ensures JoinImpl(s, c, t, Var(l, v), fuel) == Err(Incompatible(t, Var(l, v)))
  {
  }

  /**
   * The successful case: an unbound variable is bound to the other type,
   * which is then what the variable unfolds to; nothing else changes.
   */
  lemma UnboundVarBinds(s: Subst, c: TypingCase, l: Loc, v: TVar, t: Type, fuel: nat)
    requires v !in s.tvars && CheckNumTVar(s, v, t)
    requires v !in UsedTVars(t) && !t.Var? && !t.Anything?
    ensures JoinImpl(s, c, Var(l, v), t, fuel) == Ok((s.(tvars := s.tvars[v := t]), Var(l, v)))
    ensures JoinImpl(s, c, t, Var(l, v), fuel) == Ok((s.(tvars := s.tvars[v := t]), Var(l, v)))
    ensures ForwardTVar(s.(tvars := s.tvars[v := t]), v) == v
  {
    var s' := s.(tvars := s.tvars[v := t]);
    assert JoinBindTVar(s, l, v, t) == Ok((s', true));
  }

  /**
   * An unresolved autoref meeting a reference takes the reference's
   * mutability, and the referenced types are then joined.
   */
  lemma AutorefTakesReferenceMutability(s: Subst, c: TypingCase, l: Loc, m: bool, t: Type,
                                        la: Loc, rv: RefVar, inner: Type, fuel: nat)
    requires RefKindOf(s, rv).None?
    ensures var kind := if m then MutRef else ImmRef;
            var s1 := s.(refVars := s.refVars[ForwardRefVar(s, rv) := kind]);
            && RefKindOf(s1, rv) == Some(kind)
            && JoinImpl(s, c, Ref(l, m, t), AutoRef(la, rv, inner), fuel) == Recur(s1, c, inner, t, fuel)
  {
    ForwardRefFromSettle(s.refVars, rv, {}, if m then MutRef else ImmRef);
  }

  /** An unresolved autoref meeting a concrete non-reference type becomes a plain value of that type. */
  lemma AutorefMeetsValue(s: Subst, c: TypingCase, t: Type, la: Loc, rv: RefVar, inner: Type, fuel: nat)
    requires RefKindOf(s, rv).None?
    requires t.Unit? || t.Param? || t.Apply? || t.Fun?
    ensures var s1 := s.(refVars := s.refVars[ForwardRefVar(s, rv) := Value]);
            && RefKindOf(s1, rv) == Some(Value)
            && JoinImpl(s, c, t, AutoRef(la, rv, inner), fuel) == Recur(s1, c, inner, t, fuel)
            && JoinImpl(s, c, AutoRef(la, rv, inner), t, fuel) == Recur(s1, c, inner, t, fuel)
  {
    ForwardRefFromSettle(s.refVars, rv, {}, Value);
  }

  /**
   * Realizing two reference kinds and joining the references agrees with the
   * kind lattice: the joined reference is mutable exactly when the two kinds
   * join to `MutRef`.
   */
  lemma RealizedJoinFollowsLattice(s: Subst, l1: Loc, k1: RefKind, t1: Type, l2: Loc, k2: RefKind, t2: Type, fuel: nat)
    requires k1 == ImmRef || k1 == MutRef
    requires k2 == ImmRef || k2 == MutRef
    ensures var r := JoinImpl(s, Join, RealizeAutoref(l1, k1, t1), RealizeAutoref(l2, k2, t2), fuel);
            r.Ok? ==> r.value.1.Ref? && (r.value.1.isMut <==> JoinRefKind(k1, k2) == Some(MutRef))
  {
    JoinRefMutability(s, l1, k1 == MutRef, t1, l2, k2 == MutRef, t2, fuel);
  }

  // ---------------------------------------------------------------------------
  // Joins of types without inference variables
  // ---------------------------------------------------------------------------

  /**
   * Joining two types without inference variables never touches the store,
   * and a successful join has no inference variables either.
   */
  lemma {:induction false} GroundJoinKeepsStore(s: Subst, c: TypingCase, lhs: Type, rhs: Type, fuel: nat)
    requires Ground(lhs) && Ground(rhs)
    ensures var r := JoinImpl(s, c, lhs, rhs, fuel);
            r.Ok? ==> r.value.0 == s && Ground(r.value.1)
    decreases fuel, 2
  {
    if lhs.Anything? || rhs.Anything? || (lhs.Unit? && rhs.Unit?) {
    } else if lhs.Ref? && rhs.Ref? {
      GroundRecurKeepsStore(s, c, lhs.inner, rhs.inner, fuel);
    } else if lhs.Apply? && rhs.Apply? && lhs.name == rhs.name {
      GroundJoinTypesKeepsStore(s, c, lhs.args, rhs.args, fuel);
    } else if lhs.Fun? && rhs.Fun? && |lhs.params| == |rhs.params| {
      GroundJoinTypesKeepsStore(s, c, lhs.params, rhs.params, fuel);
      GroundJoinTypesKeepsStore(s, c, rhs.params, lhs.params, fuel);
      GroundRecurKeepsStore(s, c, lhs.result, rhs.result, fuel);
    }
  }

  lemma {:induction false} GroundRecurKeepsStore(s: Subst, c: TypingCase, lhs: Type, rhs: Type, fuel: nat)
    requires Ground(lhs) && Ground(rhs)
    ensures var r := Recur(s, c, lhs, rhs, fuel);
            r.Ok? ==> r.value.0 == s && Ground(r.value.1)
    decreases fuel, 0
  {
    if fuel > 0 {
      GroundJoinKeepsStore(s, c, lhs, rhs, fuel - 1);
    }
  }

  lemma {:induction false} GroundJoinTypesKeepsStore(s: Subst, c: TypingCase, tys1: seq<Type>, tys2: seq<Type>, fuel: nat)
    requires GroundSeq(tys1) && GroundSeq(tys2)
    ensures var r := JoinTypes(s, c, tys1, tys2, fuel);
            r.Ok? ==> r.value.0 == s && GroundSeq(r.value.1)
    decreases fuel, 1, |tys1|
  {
    if |tys1| > 0 && |tys2| > 0 {
      GroundRecurKeepsStore(s, c, tys1[0], tys2[0], fuel);
      var h := Recur(s, c, tys1[0], tys2[0], fuel);
      if h.Ok? {
        GroundJoinTypesKeepsStore(s, c, tys1[1..], tys2[1..], fuel);
        var t := JoinTypes(s, c, tys1[1..], tys2[1..], fuel);
        if t.Ok? {
          assert ([h.value.1] + t.value.1)[1..] == t.value.1;
        }
      }
    }
  }

  // ---------------------------------------------------------------------------
  // Fuel only matters through FuelExhausted
  // ---------------------------------------------------------------------------

  /**
   * A join that did not run out of fuel gives the same answer with more
   * fuel: the fuel bound never changes a result the compiler would compute.
   */
  lemma {:induction false} JoinImplFuel(s: Subst, c: TypingCase, lhs: Type, rhs: Type, fuel: nat)
    ensures var r := JoinImpl(s, c, lhs, rhs, fuel);
            r != Err(FuelExhausted) ==> JoinImpl(s, c, lhs, rhs, fuel + 1) == r
    decreases fuel, 2, 1
  {
    if lhs.Anything? || rhs.Anything? || (lhs.Unit? && rhs.Unit?) {
    } else if lhs.Ref? && rhs.Ref? {
      RecurFuel(s, c, lhs.inner, rhs.inner, fuel);
    } else if lhs.Apply? && rhs.Apply? && lhs.name == rhs.name {
      JoinTypesFuel(s, c, lhs.args, rhs.args, fuel);
    } else if lhs.Fun? && rhs.Fun? && |lhs.params| == |rhs.params| {
      JoinImplFunFuel(s, c, lhs, rhs, fuel);
    } else if lhs.Var? || rhs.Var? {
      JoinImplVarFuel(s, c, lhs, rhs, fuel);
    } else if lhs.AutoRef? || rhs.AutoRef? {
      JoinImplAutorefFuel(s, c, lhs, rhs, fuel);
    }
  }

  /** `JoinImplFuel` when an autoref meets a type other than a variable. */
  lemma {:induction false} JoinImplAutorefFuel(s: Subst, c: TypingCase, lhs: Type, rhs: Type, fuel: nat)
    requires lhs.AutoRef? || rhs.AutoRef?
    requires !lhs.Var? && !rhs.Var? && !lhs.Anything? && !rhs.Anything?
    ensures var r := JoinImpl(s, c, lhs, rhs, fuel);
            r != Err(FuelExhausted) ==> JoinImpl(s, c, lhs, rhs, fuel + 1) == r
    decreases fuel, 2, 0
  {
    if lhs.AutoRef? && rhs.AutoRef? {
      JoinAutorefFuel(s, c, lhs.loc, lhs.rvar, lhs.inner, rhs.loc, rhs.rvar, rhs.inner, fuel);
    } else if rhs.AutoRef? {
      JoinBindAutorefFuel(s, c, rhs.loc, rhs.rvar, rhs.inner, lhs, fuel);
    } else {
      JoinBindAutorefFuel(s, c, lhs.loc, lhs.rvar, lhs.inner, rhs, fuel);
    }
  }

  /** `JoinImplFuel` for two function types of the same arity. */
  lemma {:induction false} JoinImplFunFuel(s: Subst, c: TypingCase, lhs: Type, rhs: Type, fuel: nat)
    requires lhs.Fun? && rhs.Fun? && |lhs.params| == |rhs.params|
    ensures var r := JoinImpl(s, c, lhs, rhs, fuel);
            r != Err(FuelExhausted) ==> JoinImpl(s, c, lhs, rhs, fuel + 1) == r
    decreases fuel, 2, 0
  {
    var a := if c == Join then JoinTypes(s, c, lhs.params, rhs.params, fuel)
             else JoinTypes(s, c, rhs.params, lhs.params, fuel);
    if c == Join {
      JoinTypesFuel(s, c, lhs.params, rhs.params, fuel);
    } else {
      JoinTypesFuel(s, c, rhs.params, lhs.params, fuel);
    }
    if a.Ok? {
      RecurFuel(a.value.0, c, lhs.result, rhs.result, fuel);
    }
  }

  /** `JoinImplFuel` when either side is an inference variable. */
  lemma {:induction false} JoinImplVarFuel(s: Subst, c: TypingCase, lhs: Type, rhs: Type, fuel: nat)
    requires lhs.Var? || rhs.Var?
    requires !lhs.Anything? && !rhs.Anything?
    ensures var r := JoinImpl(s, c, lhs, rhs, fuel);
            r != Err(FuelExhausted) ==> JoinImpl(s, c, lhs, rhs, fuel + 1) == r
    decreases fuel, 2, 0
  {
    if lhs.Var? && rhs.Var? {
      JoinTVarFuel(s, c, lhs.loc, lhs.tvar, rhs.loc, rhs.tvar, fuel);
    } else if lhs.Var? && lhs.tvar !in s.tvars {
    } else if rhs.Var? && rhs.tvar !in s.tvars {
    } else if lhs.Var? {
      JoinImplBoundVarFuel(s, c, lhs, rhs, fuel);
    } else {
      JoinImplVarBoundFuel(s, c, lhs, rhs, fuel);
    }
  }

  /** `JoinImplFuel` when a bound variable on the left meets a concrete type. */
  lemma {:induction false} JoinImplBoundVarFuel(s: Subst, c: TypingCase, lhs: Type, rhs: Type, fuel: nat)
    requires lhs.Var? && lhs.tvar in s.tvars && !rhs.Var? && !rhs.Anything?
    ensures var r := JoinImpl(s, c, lhs, rhs, fuel);
            r != Err(FuelExhausted) ==> JoinImpl(s, c, lhs, rhs, fuel + 1) == r
    decreases fuel, 1, 1
  {
    var (nv, s0) := FreshTVar(s);
    JoinTVarFuel(s0.(tvars := s0.tvars[nv := rhs]), c, lhs.loc, lhs.tvar, rhs.loc, nv, fuel);
    JoinImplBoundVarUnfolds(s, c, lhs, rhs, fuel);
    JoinImplBoundVarUnfolds(s, c, lhs, rhs, fuel + 1);
  }

  /** `JoinImplFuel` when a concrete type meets a bound variable on the right. */
  lemma {:induction false} JoinImplVarBoundFuel(s: Subst, c: TypingCase, lhs: Type, rhs: Type, fuel: nat)
    requires rhs.Var? && rhs.tvar in s.tvars && !lhs.Var? && !lhs.Anything?
    ensures var r := JoinImpl(s, c, lhs, rhs, fuel);
            r != Err(FuelExhausted) ==> JoinImpl(s, c, lhs, rhs, fuel + 1) == r
    decreases fuel, 1, 1
  {
    var (nv, s0) := FreshTVar(s);
    JoinTVarFuel(s0.(tvars := s0.tvars[nv := lhs]), c, lhs.loc, nv, rhs.loc, rhs.tvar, fuel);
    JoinImplVarBoundUnfolds(s, c, lhs, rhs, fuel);
    JoinImplVarBoundUnfolds(s, c, lhs, rhs, fuel + 1);
  }

  /** A bound variable on the left meets a concrete type by joining it with a fresh variable bound to that type. */
  lemma JoinImplBoundVarUnfolds(s: Subst, c: TypingCase, lhs: Type, rhs: Type, fuel: nat)
    requires lhs.Var? && lhs.tvar in s.tvars && !rhs.Var? && !rhs.Anything?
    ensures var (nv, s0) := FreshTVar(s);
            JoinImpl(s, c, lhs, rhs, fuel)
              == JoinTVar(s0.(tvars := s0.tvars[nv := rhs]), c, lhs.loc, lhs.tvar, rhs.loc, nv, fuel)
  {
  }

  /** A bound variable on the right meets a concrete type by joining it with a fresh variable bound to that type. */
  lemma JoinImplVarBoundUnfolds(s: Subst, c: TypingCase, lhs: Type, rhs: Type, fuel: nat)
    requires rhs.Var? && rhs.tvar in s.tvars && !lhs.Var? && !lhs.Anything?
    ensures var (nv, s0) := FreshTVar(s);
            JoinImpl(s, c, lhs, rhs, fuel)
              == JoinTVar(s0.(tvars := s0.tvars[nv := lhs]), c, lhs.loc, nv, rhs.loc, rhs.tvar, fuel)
  {
  }

  lemma {:induction false} RecurFuel(s: Subst, c: TypingCase, lhs: Type, rhs: Type, fuel: nat)
    ensures var r := Recur(s, c, lhs, rhs, fuel);
            r != Err(FuelExhausted) ==> Recur(s, c, lhs, rhs, fuel + 1) == r
    decreases fuel, 0, 0
  {
    if fuel > 0 {
      JoinImplFuel(s, c, lhs, rhs, fuel - 1);
    }
  }

  lemma {:induction false} JoinTypesFuel(s: Subst, c: TypingCase, tys1: seq<Type>, tys2: seq<Type>, fuel: nat)
    ensures var r := JoinTypes(s, c, tys1, tys2, fuel);
            r != Err(FuelExhausted) ==> JoinTypes(s, c, tys1, tys2, fuel + 1) == r
    decreases fuel, 1, |tys1|
  {
    if |tys1| > 0 && |tys2| > 0 {
      RecurFuel(s, c, tys1[0], tys2[0], fuel);
      var h := Recur(s, c, tys1[0], tys2[0], fuel);
      if h.Ok? {
        JoinTypesFuel(h.value.0, c, tys1[1..], tys2[1..], fuel);
      }
    }
  }

  lemma {:induction false} JoinTVarFuel(s: Subst, c: TypingCase, loc1: Loc, id1: TVar, loc2: Loc, id2: TVar, fuel: nat)
    ensures var r := JoinTVar(s, c, loc1, id1, loc2, id2, fuel);
            r != Err(FuelExhausted) ==> JoinTVar(s, c, loc1, id1, loc2, id2, fuel + 1) == r
    decreases fuel, 1, 0
  {
    var last1 := ForwardTVar(s, id1);
    var last2 := ForwardTVar(s, id2);
    var ty1 := if last1 in s.tvars then s.tvars[last1] else Anything(loc1);
    var ty2 := if last2 in s.tvars then s.tvars[last2] else Anything(loc2);
    RecurFuel(JoinTVarStore(s, loc1, id1, loc2, id2), c, ty1, ty2, fuel);
  }

  lemma {:induction false} JoinAutorefFuel(s: Subst, c: TypingCase, loc1: Loc, id1: RefVar, lhs: Type,
                                           loc2: Loc, id2: RefVar, rhs: Type, fuel: nat)
    ensures var r := JoinAutoref(s, c, loc1, id1, lhs, loc2, id2, rhs, fuel);
            r != Err(FuelExhausted) ==> JoinAutoref(s, c, loc1, id1, lhs, loc2, id2, rhs, fuel + 1) == r
    decreases fuel, 1, 1
  {
    var k1 := RefKindOf(s, id1);
    var k2 := RefKindOf(s, id2);
    if k1.None? && k2.None? {
      JoinAutorefUnsetFuel(s, c, loc1, id1, lhs, loc2, id2, rhs, fuel);
    } else if k1.Some? && k2.Some? && c == Join && JoinRefKind(k1.value, k2.value).Some? {
      JoinAutorefJoinedFuel(s, c, loc1, id1, lhs, loc2, id2, rhs, fuel);
    } else {
      JoinAutorefRealizedFuel(s, c, loc1, id1, lhs, loc2, id2, rhs, fuel);
    }
  }

  /** `JoinAutorefFuel` when neither autoref is resolved. */
  lemma {:induction false} JoinAutorefUnsetFuel(s: Subst, c: TypingCase, loc1: Loc, id1: RefVar, lhs: Type,
                                                loc2: Loc, id2: RefVar, rhs: Type, fuel: nat)
    requires RefKindOf(s, id1).None? && RefKindOf(s, id2).None?
    ensures var r := JoinAutoref(s, c, loc1, id1, lhs, loc2, id2, rhs, fuel);
            r != Err(FuelExhausted) ==> JoinAutoref(s, c, loc1, id1, lhs, loc2, id2, rhs, fuel + 1) == r
    decreases fuel, 1, 0
  {
    var s1 := MergedAutorefStore(s, id1, id2, None);
    RecurFuel(s1, c, lhs, rhs, fuel);
    JoinAutorefUnsetUnfolds(s, c, loc1, id1, lhs, loc2, id2, rhs, fuel);
    JoinAutorefUnsetUnfolds(s, c, loc1, id1, lhs, loc2, id2, rhs, fuel + 1);
  }

  /** Two unresolved autorefs are joined by joining their inner types in the prepared store. */
  lemma JoinAutorefUnsetUnfolds(s: Subst, c: TypingCase, loc1: Loc, id1: RefVar, lhs: Type,
                                loc2: Loc, id2: RefVar, rhs: Type, fuel: nat)
    requires RefKindOf(s, id1).None? && RefKindOf(s, id2).None?
    ensures var j := Recur(MergedAutorefStore(s, id1, id2, None), c, lhs, rhs, fuel);
            JoinAutoref(s, c, loc1, id1, lhs, loc2, id2, rhs, fuel)
              == if j.Err? then Err(j.error) else Ok((j.value.0, AutoRef(loc2, s.nextRefVar, j.value.1)))
  {
  }

  /** `JoinAutorefFuel` when both autorefs are resolved and their kinds join. */
  lemma {:induction false} JoinAutorefJoinedFuel(s: Subst, c: TypingCase, loc1: Loc, id1: RefVar, lhs: Type,
                                                 loc2: Loc, id2: RefVar, rhs: Type, fuel: nat)
    requires RefKindOf(s, id1).Some? && RefKindOf(s, id2).Some? && c == Join
    requires JoinRefKind(RefKindOf(s, id1).value, RefKindOf(s, id2).value).Some?
    ensures var r := JoinAutoref(s, c, loc1, id1, lhs, loc2, id2, rhs, fuel);
            r != Err(FuelExhausted) ==> JoinAutoref(s, c, loc1, id1, lhs, loc2, id2, rhs, fuel + 1) == r
    decreases fuel, 1, 0
  {
    var jk := JoinRefKind(RefKindOf(s, id1).value, RefKindOf(s, id2).value).value;
    RecurFuel(MergedAutorefStore(s, id1, id2, Some(jk)), c, lhs, rhs, fuel);
    JoinAutorefJoinedUnfolds(s, c, loc1, id1, lhs, loc2, id2, rhs, fuel);
    JoinAutorefJoinedUnfolds(s, c, loc1, id1, lhs, loc2, id2, rhs, fuel + 1);
  }

  /** Two resolved autorefs whose kinds join are joined by joining their inner types in the prepared store. */
  lemma JoinAutorefJoinedUnfolds(s: Subst, c: TypingCase, loc1: Loc, id1: RefVar, lhs: Type,
                                 loc2: Loc, id2: RefVar, rhs: Type, fuel: nat)
    requires RefKindOf(s, id1).Some? && RefKindOf(s, id2).Some? && c == Join
    requires JoinRefKind(RefKindOf(s, id1).value, RefKindOf(s, id2).value).Some?
    ensures var jk := JoinRefKind(RefKindOf(s, id1).value, RefKindOf(s, id2).value).value;
            var j := Recur(MergedAutorefStore(s, id1, id2, Some(jk)), c, lhs, rhs, fuel);
            JoinAutoref(s, c, loc1, id1, lhs, loc2, id2, rhs, fuel)
              == if j.Err? then Err(j.error) else Ok((j.value.0, AutoRef(loc2, s.nextRefVar, j.value.1)))
  {
  }

  /** `JoinAutorefFuel` when at least one autoref is resolved and the pair is realized rather than merged. */
  lemma {:induction false} JoinAutorefRealizedFuel(s: Subst, c: TypingCase, loc1: Loc, id1: RefVar, lhs: Type,
                                                   loc2: Loc, id2: RefVar, rhs: Type, fuel: nat)
    requires RefKindOf(s, id1).Some? || RefKindOf(s, id2).Some?
    requires RefKindOf(s, id1).Some? && RefKindOf(s, id2).Some? ==>
               c != Join || JoinRefKind(RefKindOf(s, id1).value, RefKindOf(s, id2).value).None?
    ensures var r := JoinAutoref(s, c, loc1, id1, lhs, loc2, id2, rhs, fuel);
            r != Err(FuelExhausted) ==> JoinAutoref(s, c, loc1, id1, lhs, loc2, id2, rhs, fuel + 1) == r
    decreases fuel, 1, 0
  {
    var k1 := RefKindOf(s, id1);
    var k2 := RefKindOf(s, id2);
    var (nv, s0) := FreshRefVar(s);
    var t1 := if k1.None? then AutoRef(loc1, ForwardRefVar(s, id1), lhs) else RealizeAutoref(loc1, k1.value, lhs);
    var t2 := if k2.None? then AutoRef(loc2, ForwardRefVar(s, id2), rhs) else RealizeAutoref(loc2, k2.value, rhs);
    RecurFuel(s0, c, t1, t2, fuel);
  }

  lemma {:induction false} JoinBindAutorefFuel(s: Subst, c: TypingCase, loc: Loc, rv: RefVar, rvtype: Type,
                                               other: Type, fuel: nat)
    requires !other.Var? && !other.AutoRef?
    ensures var r := JoinBindAutoref(s, c, loc, rv, rvtype, other, fuel);
            r != Err(FuelExhausted) ==> JoinBindAutoref(s, c, loc, rv, rvtype, other, fuel + 1) == r
    decreases fuel, 1, 0
  {
    var x := ForwardRefVar(s, rv);
    var k := RefKindOf(s, rv);
    if k.None? {
      if other.Ref? {
        RecurFuel(s.(refVars := s.refVars[x := if other.isMut then MutRef else ImmRef]), c, rvtype, other.inner, fuel);
      } else if !(other.Anything? || other.UnresolvedError?) {
        RecurFuel(s.(refVars := s.refVars[x := Value]), c, rvtype, other, fuel);
      }
    } else {
      RecurFuel(s, c, RealizeAutoref(loc, k.value, rvtype), other, fuel);
    }
  }

  /** One more unit of fuel keeps `f(k)` unless `f(k)` ran out of fuel. */
  ghost predicate FuelStep(f: nat -> JoinResult, k: nat) {
    f(k) != Err(FuelExhausted) ==> f(k + 1) == f(k)
  }

  /** A fuel-indexed result that is stable one step at a time is stable from where it first succeeds. */
  lemma {:induction false} StableOnceReached(f: nat -> JoinResult, fuel: nat, more: nat)
    requires forall k: nat :: FuelStep(f, k)
    requires f(fuel) != Err(FuelExhausted)
    ensures f(fuel + more) == f(fuel)
    decreases more
  {
    if more > 0 {
      StableOnceReached(f, fuel, more - 1);
      assert FuelStep(f, fuel + more - 1);
    }
  }

  /** `join_impl` on fixed operands, as a function of its fuel. */
  function JoinImplAt(s: Subst, c: TypingCase, lhs: Type, rhs: Type): nat -> JoinResult {
    (k: nat) => JoinImpl(s, c, lhs, rhs, k)
  }

  /** Every single extra unit of fuel keeps a result that did not run out of fuel. */
  lemma JoinImplFuelSteps(s: Subst, c: TypingCase, lhs: Type, rhs: Type)
    ensures forall k: nat :: FuelStep(JoinImplAt(s, c, lhs, rhs), k)
  {
    forall k: nat
      ensures FuelStep(JoinImplAt(s, c, lhs, rhs), k)
    {
      JoinImplFuel(s, c, lhs, rhs, k);
    }
  }

  /** More fuel never changes a result that did not run out of fuel, however much more. */
  lemma JoinImplFuelMonotone(s: Subst, c: TypingCase, lhs: Type, rhs: Type, fuel: nat, more: nat)
    requires JoinImpl(s, c, lhs, rhs, fuel) != Err(FuelExhausted)
    ensures JoinImpl(s, c, lhs, rhs, fuel + more) == JoinImpl(s, c, lhs, rhs, fuel)
  {
    JoinImplFuelSteps(s, c, lhs, rhs);
    StableOnceReached(JoinImplAt(s, c, lhs, rhs), fuel, more);
  }

  // ---------------------------------------------------------------------------
  // Merging two variables
  // ---------------------------------------------------------------------------

  /** The end of the chain from `id` is unbound or bound to a type without inference variables. */
  ghost predicate GroundEnd(s: Subst, id: TVar) {
    var e := ForwardTVar(s, id);
    e in s.tvars ==> Ground(s.tvars[e])
  }

  /**
   * On ground chain ends the inner join of `join_tvar` leaves its store as
   * prepared, so the outcome is that store with at most the fresh variable
   * bound, to a non-variable type.
   */
  lemma JoinTVarOutcome(s: Subst, c: TypingCase, loc1: Loc, id1: TVar, loc2: Loc, id2: TVar, fuel: nat)
    requires CountersFresh(s)
    requires id1 < s.nextTVar && id2 < s.nextTVar
    requires GroundEnd(s, id1) && GroundEnd(s, id2)
    ensures var r := JoinTVar(s, c, loc1, id1, loc2, id2, fuel);
            var s2 := JoinTVarStore(s, loc1, id1, loc2, id2);
            r.Ok? ==>
              && r.value.1 == Var(loc2, s.nextTVar)
              && r.value.0.numVars == s2.numVars
              && !VarBound(r.value.0.tvars, s.nextTVar)
              && (forall v | v in s2.tvars :: v in r.value.0.tvars && r.value.0.tvars[v] == s2.tvars[v])
              && r.value.0.tvars.Keys <= s2.tvars.Keys + {s.nextTVar}
              && r.value.0.refVars == s2.refVars
              && r.value.0.nextTVar == s2.nextTVar && r.value.0.nextRefVar == s2.nextRefVar
  {
    var r := JoinTVar(s, c, loc1, id1, loc2, id2, fuel);
    var nv := s.nextTVar;
    var last1 := ForwardTVar(s, id1);
    var last2 := ForwardTVar(s, id2);
    var ty1 := if last1 in s.tvars then s.tvars[last1] else Anything(loc1);
    var ty2 := if last2 in s.tvars then s.tvars[last2] else Anything(loc2);
    var s2 := JoinTVarStore(s, loc1, id1, loc2, id2);
    if r.Ok? {
      GroundRecurKeepsStore(s2, c, ty1, ty2, fuel);
      var j := Recur(s2, c, ty1, ty2, fuel);
      assert j.value.0 == s2 && Ground(j.value.1);
      ForwardFromBelow(s.tvars, id1, {}, s.nextTVar);
      ForwardFromBelow(s.tvars, id2, {}, s.nextTVar);
      assert nv !in s2.tvars;
      var t := j.value.1;
      assert !t.Var?;
      assert nv !in UsedTVars(t);
      var b := JoinBindTVar(s2, loc2, nv, t);
      assert b.Ok?;
      assert r == (if b.value.1 then Ok((b.value.0, Var(loc2, nv))) else r);
      assert b.value.1;
      BindFreshOutcome(s2, nv, t, b.value.0);
    }
  }

  /** Binding a fresh variable to a non-variable type, or dropping the binding, adds at most that variable. */
  lemma BindFreshOutcome(s2: Subst, nv: TVar, t: Type, r: Subst)
    requires nv !in s2.tvars && !t.Var?
    requires r == s2 || r == s2.(tvars := s2.tvars[nv := t])
    ensures && r.numVars == s2.numVars
            && !VarBound(r.tvars, nv)
            && (forall v | v in s2.tvars :: v in r.tvars && r.tvars[v] == s2.tvars[v])
            && r.tvars.Keys <= s2.tvars.Keys + {nv}
            && r.refVars == s2.refVars
            && r.nextTVar == s2.nextTVar && r.nextRefVar == s2.nextRefVar
  {
  }

  /**
   * A successful `join_tvar` merges the two variables: both now forward to
   * the fresh variable, the joined type is that variable, and it is numeric
   * exactly when either chain end was. Stated for chains whose ends carry
   * no inference variables, where the inner join cannot touch the store.
   */
  lemma JoinTVarMerges(s: Subst, c: TypingCase, loc1: Loc, id1: TVar, loc2: Loc, id2: TVar, fuel: nat)
    requires ChainsTerminate(s.tvars) && CountersFresh(s)
    requires id1 < s.nextTVar && id2 < s.nextTVar
    requires GroundEnd(s, id1) && GroundEnd(s, id2)
    ensures var r := JoinTVar(s, c, loc1, id1, loc2, id2, fuel); var nv := s.nextTVar;
            r.Ok? ==>
              && r.value.1 == Var(loc2, nv)
              && ForwardTVar(r.value.0, id1) == nv
              && ForwardTVar(r.value.0, id2) == nv
              && (IsNumVar(r.value.0, nv) <==>
                    IsNumVar(s, ForwardTVar(s, id1)) || IsNumVar(s, ForwardTVar(s, id2)))
  {
    var r := JoinTVar(s, c, loc1, id1, loc2, id2, fuel);
    var nv := s.nextTVar;
    var s2 := JoinTVarStore(s, loc1, id1, loc2, id2);
    JoinTVarOutcome(s, c, loc1, id1, loc2, id2, fuel);
    if r.Ok? {
      var m' := r.value.0.tvars;
      ForwardTVarEnds(s, id1);
      ForwardTVarEnds(s, id2);
      var rank :| RankedChains(s.tvars, rank);
      ForwardFromRedirect(s.tvars, m', rank, id1, {}, nv);
      ForwardFromRedirect(s.tvars, m', rank, id2, {}, nv);
    }
  }

  /** Forwarding both chain ends to the fresh reference variable makes both chains end there. */
  lemma RedirectRefEnds(s: Subst, id1: RefVar, id2: RefVar, m': map<RefVar, RefKind>)
    requires RefChainsTerminate(s.refVars) && CountersFresh(s)
    requires id1 < s.nextRefVar && id2 < s.nextRefVar
    requires var rv1, rv2 := ForwardRefVar(s, id1), ForwardRefVar(s, id2);
             && (forall x | x in s.refVars && x != rv1 && x != rv2 :: x in m' && m'[x] == s.refVars[x])
             && rv1 in m' && m'[rv1] == Forward(s.nextRefVar)
             && rv2 in m' && m'[rv2] == Forward(s.nextRefVar)
    requires !RefForwarded(m', s.nextRefVar)
    ensures ForwardRefFrom(m', id1, {}) == s.nextRefVar && ForwardRefFrom(m', id2, {}) == s.nextRefVar
  {
    ForwardRefVarEnds(s, id1);
    ForwardRefVarEnds(s, id2);
    var rank :| RankedRefChains(s.refVars, rank);
    ForwardRefFromRedirect(s.refVars, m', rank, id1, {}, s.nextRefVar);
    ForwardRefFromRedirect(s.refVars, m', rank, id2, {}, s.nextRefVar);
  }

  /**
   * A successful `join_autoref` of two unresolved autorefs merges them: both
   * forward to the fresh reference variable, which stays unresolved and is
   * the one the joined type carries. Stated for ground inner types, where
   * the inner join cannot touch the store.
   */
  lemma JoinAutorefMergesUnresolved(s: Subst, c: TypingCase, loc1: Loc, id1: RefVar, lhs: Type,
                                    loc2: Loc, id2: RefVar, rhs: Type, fuel: nat)
    requires RefChainsTerminate(s.refVars) && CountersFresh(s)
    requires id1 < s.nextRefVar && id2 < s.nextRefVar
    requires Ground(lhs) && Ground(rhs)
    requires RefKindOf(s, id1).None? && RefKindOf(s, id2).None?
    ensures var r := JoinAutoref(s, c, loc1, id1, lhs, loc2, id2, rhs, fuel);
            var nv := s.nextRefVar;
            r.Ok? ==>
              && r.value.1.AutoRef? && r.value.1.rvar == nv
              && ForwardRefVar(r.value.0, id1) == nv
              && ForwardRefVar(r.value.0, id2) == nv
              && RefKindOf(r.value.0, id1).None?
  {
    var r := JoinAutoref(s, c, loc1, id1, lhs, loc2, id2, rhs, fuel);
    var nv := s.nextRefVar;
    var s1 := MergedAutorefStore(s, id1, id2, None);
    JoinAutorefUnsetUnfolds(s, c, loc1, id1, lhs, loc2, id2, rhs, fuel);
    if r.Ok? {
      GroundRecurKeepsStore(s1, c, lhs, rhs, fuel);
      assert r.value.0 == s1;
      ForwardRefFromBelow(s.refVars, id1, {}, s.nextRefVar);
      ForwardRefFromBelow(s.refVars, id2, {}, s.nextRefVar);
      assert nv !in s1.refVars;
      RedirectRefEnds(s, id1, id2, s1.refVars);
    }
  }

  /**
   * Under `Join`, a successful `join_autoref` of two resolved kinds that
   * have a join merges both autorefs into the fresh reference variable and
   * sets it to that join.
   */
  lemma JoinAutorefMergesResolved(s: Subst, loc1: Loc, id1: RefVar, lhs: Type,
                                  loc2: Loc, id2: RefVar, rhs: Type, fuel: nat)
    requires RefChainsTerminate(s.refVars) && CountersFresh(s)
    requires id1 < s.nextRefVar && id2 < s.nextRefVar
    requires Ground(lhs) && Ground(rhs)
    requires RefKindOf(s, id1).Some? && RefKindOf(s, id2).Some?
    requires JoinRefKind(RefKindOf(s, id1).value, RefKindOf(s, id2).value).Some?
    ensures var r := JoinAutoref(s, Join, loc1, id1, lhs, loc2, id2, rhs, fuel);
            var nv := s.nextRefVar;
            var jk := JoinRefKind(RefKindOf(s, id1).value, RefKindOf(s, id2).value);
            r.Ok? ==>
              && r.value.1.AutoRef? && r.value.1.rvar == nv
              && ForwardRefVar(r.value.0, id1) == nv
              && ForwardRefVar(r.value.0, id2) == nv
              && RefKindOf(r.value.0, id1) == jk
              && RefKindOf(r.value.0, id2) == jk
  {
    var r := JoinAutoref(s, Join, loc1, id1, lhs, loc2, id2, rhs, fuel);
    var jk := JoinRefKind(RefKindOf(s, id1).value, RefKindOf(s, id2).value).value;
    var s1 := MergedAutorefStore(s, id1, id2, Some(jk));
    JoinAutorefJoinedUnfolds(s, Join, loc1, id1, lhs, loc2, id2, rhs, fuel);
    if r.Ok? {
      GroundRecurKeepsStore(s1, Join, lhs, rhs, fuel);
      assert r.value.0 == s1;
      ForwardRefFromBelow(s.refVars, id1, {}, s.nextRefVar);
      ForwardRefFromBelow(s.refVars, id2, {}, s.nextRefVar);
      RedirectRefEnds(s, id1, id2, s1.refVars);
    }
  }
}

=== FILE: wrappers.dfy ===
/** Failure-compatible helper datatypes used throughout the model. */
module Wrappers {

  datatype Option<+T> = None | Some(value: T) {

    predicate IsFailure() {
      None?
    }

    function PropagateFailure<U>(): Option<U>
      requires None?
    {
      None
    }

    function Extract(): T
      requires Some?
    {
      value
    }

    /** The contained value, or `default` when there is none. */
    function GetOr(default: T): T {
      match this
      case Some(v) => v
      case None => default
    }
  }

  /** Either a value or an error; usable with `:-`. */
  datatype Result<+R, +E> = Ok(value: R) | Err(error: E) {

    predicate IsFailure() {
      Err?
    }

    function PropagateFailure<U>(): Result<U, E>
      requires Err?
    {
      Err(error)
    }

    function Extract(): R
      requires Ok?
    {
      value
    }
  }
}
